=== FILE: README.md ===
# Pintos inode layer, path parser and descriptor table

This project is a Dafny model of three pieces of a Pintos kernel, with
proofs about the model.

- **Inodes with a three-tier block map** (`filesys/inode.c`). An inode
  record occupies one sector and holds the file length, 12 direct sector
  pointers, one indirect pointer block of N = 128 entries, and one
  double-indirect block of N pointers to blocks of N pointers. The model
  covers these operations:
  - `byte_to_sector`, the block-map lookup, and `bytes_to_sectors`;
  - growth of a file: `inode_extend_length`, `inode_extend_sectors` and
    `inode_extend_sector`;
  - the chunked read and write loops, `inode_read_at` and
    `inode_write_at`;
  - the table of open inodes with its open and deny-write counts:
    `inode_open`, `inode_reopen`, `inode_close`, `inode_remove`,
    `inode_deny_write` and `inode_allow_write`.
- **The path tokenizer** `get_next_part` (`filesys/filesys.c`).
- **The per-process file-descriptor table** (`userprog/syscall.c`):
  - `verify_fd`;
  - descriptor allocation in `syscall_open` and slot clearing in
    `syscall_close`;
  - the argument-count classification and argument-address check of
    `syscall_handler`;
  - the size-0 shortcut of `syscall_read` and `syscall_write`;
  - `syscall_practice`.

The buffer cache's functions have empty bodies in the source. The model
treats the file-system device behind the cache as a functional byte store,
`BlockStore.Disk`, a map from sector to 512 bytes in which an absent
sector reads as zeros. 32-bit fields are stored little-endian.

The free-sector bitmap is not part of this model. `Allocator.FreeMap`
stands in for it: a free list whose head is the next sector handed out.
This covers every allocation order and exhaustion at any point.

Each pointer slot of the block map has a symbolic name, `InodeLayout.Slot`:

- a direct pointer;
- the indirect or double-indirect pointer;
- an entry of the indirect block;
- an entry of the double-indirect block;
- an entry of a second-level block.

Allocation records which slots it fills. The proofs compare that record
with `InodeExtend.Plan`, an independent block-by-block account of what
growth must allocate.

Where the code does not agree with itself, the model keeps both
versions. It states the code as written, exhibits an input on which it
goes wrong, and proves the intended property of a corrected version. The
rest of the model builds on the corrected version (see "Findings").

Modules, bottom up:

- `Machine`: bytes, 32-bit words, and signed 32-bit integers.
- `BlockStore`: the cache as a byte store.
- `Allocator`: the free map.
- `InodeLayout`: the record layout and `byte_to_sector`.
- `InodeExtend`: `inode_extend_sector` and `inode_extend_sectors`.
- `InodeExtendStore`: where the pointers written by growth land in the store.
- `InodeLength`: `inode_extend_length`.
- `InodeIo`: the read and write loops.
- `InodeTable`: the open-inode table.
- `PathParser`: `get_next_part`.
- `Syscall`: the descriptor table and `syscall_handler`'s checks.

## Model

| member | source | states |
|---|---|---|
| Machine.ToInt32 | pintos/src/filesys/inode.c:134 | The `(int)` cast of an unsigned word agrees with it modulo 2^32. It is non-negative exactly for words up to 2^31 - 1. |
| Machine.DecodeEncode | pintos/src/filesys/inode.c:128-138 | A 32-bit field written to a sector and read back gives the value that was written. |
| Machine.EncodeDecode | pintos/src/filesys/inode.c:128-138 | Every four bytes are the stored form of exactly one word. |
| BlockStore.PutEffect | pintos/src/filesys/inode.c:646-647 | After `cache_put`, the written range holds the new bytes. The rest of that sector and every other sector are unchanged. |
| BlockStore.GetPutWordSame | pintos/src/filesys/inode.c:266 | A sector number stored in a pointer slot reads back unchanged. |
| BlockStore.GetPutWordOther | pintos/src/filesys/inode.c:266 | Storing a word changes no other sector and no non-overlapping word of the same sector. |
| BlockStore.GetWordAfterPutElsewhere | pintos/src/filesys/inode.c:646-647 | Writing data bytes into one sector leaves every word of every other sector as it was. |
| Allocator.Allocate | pintos/src/filesys/inode.c:263-265 | Allocation fails exactly when no sector is free. Otherwise it hands out the head of the free list and removes it. |
| Allocator.ReleaseBackward | pintos/src/filesys/inode.c:188-189 | Releasing the sectors taken in one call, most recent first, makes them free again in the order they were taken, ahead of the rest. |
| InodeLayout.LayoutConstants | pintos/src/filesys/inode.c:15-33 | N = 512 / 4 and the tier sizes are 12, N and N * N. The addressable blocks number 12 + N + N * N. The record fields lie at consecutive 4-byte offsets. |
| InodeLayout.BytesToSectors | pintos/src/filesys/inode.c:52-56 | The result is the ceiling of size / 512: enough sectors to hold size bytes, and one fewer would not be. |
| InodeLayout.DataSlot | pintos/src/filesys/inode.c:91-116 | Block indices below 12 + N + N * N, and only those, have a data slot, and the slot returned for b is a data slot whose block index is b. |
| InodeLayout.DataSlotOnto | pintos/src/filesys/inode.c:91-116 | Every data slot belongs to exactly one block index, so no two blocks share a pointer. |
| InodeLayout.TierBoundaries | pintos/src/filesys/inode.c:91-105 | Block 11 is the last direct pointer and block 12 is entry 0 of the indirect block. Block 12 + N starts the double-indirect tier. Block 12 + 2N starts the second second-level block. |
| InodeLayout.ByteToSector | pintos/src/filesys/inode.c:75-118 | The lookup fails (-1) exactly when pos is past the length or past the block map. Otherwise the result is the pointer read from the direct slot, the indirect block, or the two-level double-indirect path (corrected double-indirect divisor, see Findings). |
| InodeLayout.DataSlotAsWritten | pintos/src/filesys/inode.c:106-116 | The lookup as written still covers exactly the blocks below 12 + N + N * N. |
| InodeLayout.DblLookupMismatch | pintos/src/filesys/inode.c:110-112 | The as-written double-indirect lookup agrees with allocation for the first N blocks of the tier. Block 12 + 2N is looked up at entry 128 of second-level block 0, past the end of that sector. Allocation put its pointer at entry 0 of block 1. |
| InodeExtend.LoopSlots | pintos/src/filesys/inode.c:184-249 | For each block index the allocation loops fill one data slot, preceded by a new second-level block when the index starts one. |
| InodeExtend.ExtendSector | pintos/src/filesys/inode.c:259-268 | `inode_extend_sector` fails (-1) exactly when the free map is empty, and then writes nothing. Otherwise it takes the first free sector and stores its number at the given parent offset. |
| InodeExtend.ExtendSectorStores | pintos/src/filesys/inode.c:259-268 | The allocated sector number reads back from the parent slot. |
| InodeExtend.PlanSplit | pintos/src/filesys/inode.c:184-249 | Growth over a range of blocks is growth over its first part followed by growth over the rest. |
| InodeExtend.PlanInTier | pintos/src/filesys/inode.c:194-223 | Within one tier, growth allocates the tier's pointer block when it starts at the head of the tier, then exactly what the loop allocates. |
| InodeExtend.GrowFills | pintos/src/filesys/inode.c:182-249 | The three loops, run from block `begin`, fill exactly the planned slots up to begin + num (cut at the end of the block map), in order, with consecutive free sectors. If an allocation fails, everything taken so far is accounted for. What the filled slots then hold is stated by `InodeExtendStore.ExtendSectorsStores`. |
| InodeExtend.ExtendSectors | pintos/src/filesys/inode.c:174-179 | num = 0 succeeds and changes nothing. A negative num, or one above N * N, fails and changes nothing. |
| InodeExtend.ExtendSectorsOutcome | pintos/src/filesys/inode.c:162-253 | Take 0 < num <= N * N, starting at block ceil(length / 512). If the free map holds fewer sectors than the plan needs, the call fails and every sector it took is free again. Otherwise it fills the plan with the first free sectors. It returns true exactly when begin + num blocks fit; if not, its ASSERT fires. The store it leaves, on either outcome, is stated by `InodeExtendStore.ExtendSectorsStores`. |
| InodeExtendStore.WriteFrame | pintos/src/filesys/inode.c:266 | Storing a sector number in one pointer slot leaves the lookup of every slot unchanged whose path of pointers does not pass through that word. |
| InodeExtendStore.FillKeeps | pintos/src/filesys/inode.c:184-249 | Each `inode_extend_sector` call of the loops, made for a slot not yet in use and passed the sector its parent pointer names, stores the sector it takes where the lookup of that slot reads it. It changes no slot already in use, keeps the pointer blocks distinct, and keeps them out of the free map. |
| InodeExtendStore.ExtendSectorsStores | pintos/src/filesys/inode.c:163-253 | Take an inode whose pointer blocks are distinct and not free. On either outcome, every block the file already had reads its old sector, every slot of the block map that serves an old block (data or pointer slot, by the first block it covers) reads as before, and the length field is unchanged. A failed call therefore leaves the existing block map intact; only slots of blocks past the old length may hold pointers to the sectors it freed again. After a successful call, every filled slot, looked up through the pointers as they now are, reads the sector taken for it. |
| InodeExtendStore.LengthFrame | pintos/src/filesys/inode.c:151-154 | Writing the length field of the inode record leaves unchanged the lookup of every slot whose path runs through no pointer block that is the record itself. |
| InodeExtendStore.ExtendSectorsMapsNewBlocks | pintos/src/filesys/inode.c:163-253 | After a successful call of num blocks on such an inode, the lookup of each new block reads a sector that was free before the call, and no two new blocks read the same sector. |
| InodeLength.Slack | pintos/src/filesys/inode.c:132-133 | The slack is the unused tail of the last sector: below 512, and it brings the length to a sector boundary. |
| InodeLength.SlackRoundsUp | pintos/src/filesys/inode.c:132-133 | The slack equals the source's expression: the length rounded up to a multiple of 512, minus the length. |
| InodeLength.Demand | pintos/src/filesys/inode.c:142-145 | No new sector is needed exactly when the request fits in the slack. Otherwise it is the fewest whole sectors that cover the rest of the request. |
| InodeLength.ExtendLengthWithinSlack | pintos/src/filesys/inode.c:132-140 | A request that fits in the slack allocates nothing and returns the request. The length grows by the request and still ends in the same last sector. |
| InodeLength.ExtendLengthFails | pintos/src/filesys/inode.c:143-155 | A request that would need more than N * N sectors, or more sectors than are free, returns 0. The length is rewritten unchanged and the free map is as before. |
| InodeLength.ExtendLengthGrows | pintos/src/filesys/inode.c:123-156 | With enough free sectors, a request past the slack either panics (exactly when the blocks would run past the block map) or returns the whole request. In the second case the new length is old + request, within the maximum file size, spans exactly the new sectors, and those came from the head of the free map. |
| InodeLength.ExtendLengthAllOrNothing | pintos/src/filesys/inode.c:123-156 | Unless the kernel panics, growth by 1 .. 2^31 - 1 bytes either grants the whole request or nothing. "Nothing" means a return of 0 with length and free map unchanged. When the inode's pointer blocks are distinct and not free, it also means every block the file already had still reads its old sector. |
| InodeLength.ZeroReturnKeepsBlocks | pintos/src/filesys/inode.c:143-155 | When growth past the slack fails and the old length is written back, every block the file already had still reads its old sector (for an inode whose pointer blocks are distinct and not free). |
| InodeLength.ExtendLengthAsWrittenLosesSlack | pintos/src/filesys/inode.c:142-149 | Past the slack, the code as written records and returns the request minus the slack. It allocates the same sectors as the corrected version. |
| InodeLength.SlackLossExample | pintos/src/filesys/inode.c:142-149 | A 100-byte file extended by 500 bytes gets one new sector. The code as written records length 188 and returns 88. The corrected version records 600 and returns 500. |
| InodeIo.Chunk | pintos/src/filesys/inode.c:578-585 | A chunk is positive exactly when the caller still wants bytes and pos is before the end of the file. It never exceeds the request, the rest of the file, or the rest of the sector, and equals one of the three. |
| InodeIo.MatchesAt | pintos/src/filesys/inode.c:587-593 | The recursive "these bytes are the file from pos on" agrees with the position-by-position statement. |
| InodeIo.ChunkReadsFrom | pintos/src/filesys/inode.c:574-588 | A chunk inside one sector and inside the file, read from the sector `byte_to_sector` names, holds exactly the file's bytes at those positions. |
| InodeIo.ReadChunk | pintos/src/filesys/inode.c:574-593 | One turn of the read loop extends the bytes read so far with the file's next chunk-size bytes. |
| InodeIo.ReadAt | pintos/src/filesys/inode.c:565-597 | `inode_read_at` returns min(size, length - offset) bytes, or none when size <= 0 or offset is at or past the end. They are exactly the file's bytes from offset on, as the lookup with the corrected double-indirect divisor finds them. |
| InodeIo.PutOffPath | pintos/src/filesys/inode.c:646-647 | A write to a sector that the lookup of pos does not pass through leaves the length and that lookup unchanged. |
| InodeIo.GetPut | pintos/src/filesys/inode.c:646-647 | Bytes written into a sector are read back by a read of the same range. |
| InodeIo.WriteChunkReadsBack | pintos/src/filesys/inode.c:630-647 | After one chunk of `inode_write_at`, the file's bytes at those positions are the chunk. The length is unchanged. |
| InodeIo.GrowthRequest | pintos/src/filesys/inode.c:615-624 | The growth requested before the write loop makes the file exactly long enough to reach offset + size, and is 0 when it already does. |
| InodeIo.WriteLoop | pintos/src/filesys/inode.c:627-653 | The loop never writes more than asked and leaves the length alone, unless a chunk lands on the inode record. When the file already reaches offset + size, it writes everything. Both hold as long as no chunk lands on the inode record (`ino` not among the sectors written). The file reaches offset + size through the corrected `inode_extend_length` that runs before the loop. |
| InodeIo.WriteAt | pintos/src/filesys/inode.c:604-656 | While writes are denied the call returns 0 and changes nothing. A failed growth returns 0 and leaves length and free map as they were. Otherwise, when no chunk landed on the inode record (`ino` not among the sectors written), all of buf is written and the length is old length + the growth requested. This relies on the corrected `inode_extend_length`. |
| InodeTable.Open | pintos/src/filesys/inode.c:442-482 | Opening an open sector gives that inode one more opener. Otherwise a fresh inode gets one opener, writes allowed, not removed, and its is_dir field from disk. The result is null exactly when the sector is not open and memory runs out. No other inode changes. |
| InodeTable.Reopen | pintos/src/filesys/inode.c:485-494 | Reopening raises only the open count of that inode. A null inode changes nothing. |
| InodeTable.Close | pintos/src/filesys/inode.c:506-537 | The last close takes the inode out of the table and frees its sector only if it was removed. Any other close lowers the open count by one and changes nothing else. A null inode is ignored. |
| InodeTable.Remove | pintos/src/filesys/inode.c:555-560 | Only the removed flag of that inode changes. |
| InodeTable.DenyWrite | pintos/src/filesys/inode.c:660-665 | The ASSERT holds exactly when deniers stay at or below openers. Then only that inode's deny count rises by one. |
| InodeTable.AllowWrite | pintos/src/filesys/inode.c:670-676 | The ASSERTs hold exactly when 0 < deniers <= openers. Then only that inode's deny count falls by one. |
| InodeTable.OpenKeepsWf | pintos/src/filesys/inode.c:442-482 | Opening keeps every inode at one or more openers with 0 <= deniers <= openers. |
| InodeTable.CloseKeepsWf | pintos/src/filesys/inode.c:506-537 | Closing keeps that invariant exactly when the closer does not still deny writes on an inode others keep open. This is the duty the comment of `inode_allow_write` puts on openers. |
| InodeTable.ReopenRemoveKeepWf | pintos/src/filesys/inode.c:485-494 | Reopening and removing keep the invariant. |
| InodeTable.DenyAllowKeepWf | pintos/src/filesys/inode.c:660-676 | Deny and allow keep the invariant when their ASSERTs hold. On a well-formed table, allow's ASSERTs hold exactly when some opener denies writes. |
| InodeTable.OpenOpenIsReopen | pintos/src/filesys/inode.c:449-460 | Opening an already-open sector returns the same inode with one more opener. |
| InodeTable.OpenClose | pintos/src/filesys/inode.c:442-537 | Closing right after a successful open restores the table and free map. |
| InodeTable.DenyAllow | pintos/src/filesys/inode.c:660-676 | Allowing writes undoes denying them. |
| InodeTable.AllowDeny | pintos/src/filesys/inode.c:660-676 | Denying writes undoes allowing them. |
| InodeTable.CloseFreesOnlyLast | pintos/src/filesys/inode.c:517-530 | An inode leaves the table exactly at the close of its last opener. The free map changes exactly when that inode was removed. |
| PathParser.SkipSlashes | pintos/src/filesys/filesys.c:174-176 | Leading slashes are skipped up to the first character that is not a slash. |
| PathParser.NameEnd | pintos/src/filesys/filesys.c:181-186 | A part ends at the first slash or terminator. |
| PathParser.NextPart | pintos/src/filesys/filesys.c:165-193 | 0 exactly when only slashes remain. -1 exactly when the next part exceeds NAME_MAX. Otherwise: the part after the slashes, non-empty, at most NAME_MAX long, without slash or NUL. The new position is the slash or terminator right after the part. |
| PathParser.Components | pintos/src/filesys/filesys.c:165-167 | The reference split of a path into its non-empty, slash-free pieces. |
| PathParser.WalkIsComponents | pintos/src/filesys/filesys.c:165-193 | Calling `get_next_part` until it returns 0 yields exactly the path's non-empty slash-separated components in order, when every one fits in NAME_MAX. It fails (-1) when one does not. |
| Syscall.VerifyFdCases | pintos/src/userprog/syscall.c:51-55 | Descriptors 0 and 1 are always accepted and negative ones never. A descriptor from 2 up is accepted exactly when it is in the table and its slot is occupied. |
| Syscall.Open | pintos/src/userprog/syscall.c:292-313 | A null file gives -1. Otherwise the file goes into the lowest empty slot from 2 up and its index is returned. With no empty slot the file is closed, -1 is returned, and the table is unchanged. |
| Syscall.Close | pintos/src/userprog/syscall.c:413-422 | On a valid descriptor from 2 up, only that slot is emptied and its file closed. An invalid descriptor, 0 or 1 is a no-op. |
| Syscall.OpenThenClose | pintos/src/userprog/syscall.c:292-422 | Closing the descriptor open handed out restores the table and closes the same file. |
| Syscall.CloseKeepsOthers | pintos/src/userprog/syscall.c:413-422 | Closing one descriptor leaves every other descriptor as valid or invalid as before. |
| Syscall.TransferPrologue | pintos/src/userprog/syscall.c:328-335 | Size 0 returns 0 before any check. Otherwise the process is killed exactly when the buffer or the descriptor fails its check. |
| Syscall.TransferAfterOpenClose | pintos/src/userprog/syscall.c:292-335 | A non-empty read or write through the descriptor open just handed out passes the checks. Once that descriptor is closed, the same call kills the process. An empty transfer returns 0 whatever the descriptor. |
| Syscall.ArgCount | pintos/src/userprog/syscall.c:106-145 | Unknown call numbers, and only those, are classified as bad arguments. Every known call takes at most three arguments. |
| Syscall.ArgCountMatchesDispatch | pintos/src/userprog/syscall.c:106-225 | The first switch checks each known call for exactly as many arguments as the second switch reads. |
| Syscall.BadArgsAsWritten | pintos/src/userprog/syscall.c:126-141 | As written, the argument check tests the bytes at esp + 16, since `args + 4` on a `uint32_t *` is 16 bytes on. |
| Syscall.BadArgs | pintos/src/userprog/syscall.c:106-145 | Corrected, the check tests exactly the arguments the call reads, from esp + 4. Unknown numbers are always bad and argument-less calls never are. |
| Syscall.ArgCheckExample | pintos/src/userprog/syscall.c:126-127 | An `exit` whose argument is the last word of user memory passes the corrected check. The check as written kills the process. |
| Syscall.BadArgsReadable | pintos/src/userprog/syscall.c:106-145 | The corrected check passes exactly when the arguments the call reads lie within the address space. |
| Syscall.PracticeCall | pintos/src/userprog/syscall.c:232-235 | `syscall_practice` returns its argument plus one. At the largest int the model assumes two's complement wrap-around to the smallest; C leaves that overflow undefined. |
| Syscall.PracticeWraps | pintos/src/userprog/syscall.c:232-235 | The result is the argument plus one modulo 2^32. |

## Left out

- Buffer cache internals: `cache_init`, `cache_get`, `cache_put` and `cache_replace` have empty bodies. The cache is the byte store `BlockStore`; residency, eviction and write-back have no behaviour to model.
- Locks, the intrusive lists, and all concurrency: the model is sequential. `open_inodes` is a map from sector to inode.
- `inode_sector_release` and `inode_sector_remove`: their code reads through an uninitialised pointer and is given a `sectors` count that growth never updates. Instead, the model has the intended effect of a failed growth: `Allocator.ReleaseBackward` returns every sector taken. `InodeTable.Close` frees only the inode's own sector.
- `inode_create`, `inode_init`, `inode_size`, `is_inode_dir` and `inode_open_cnt`: they are outside the modelled core or are plain field reads. `inode_get_inumber` is the identity, because an inode handle is its sector.
- The open count overflowing an `int` is not modelled: counts are unbounded.
- InodeIo.ReadAt: requires a non-negative offset and a length within the block map. The model does not cover a negative offset, where C's `%` is negative, nor a corrupt length field. It reads through the corrected lookup of `InodeLayout.ByteToSector`, not the one as written.
- InodeIo.WriteAt: grows the file with the corrected `inode_extend_length` (see Findings), and states its result only when no chunk landed on the inode record. It states the multi-chunk result only as a count and a length. Its bytes are stated one chunk at a time by `InodeIo.WriteChunkReadsBack`, because two chunks of a corrupt block map may share a sector. It also requires a non-negative offset and offset + size to fit in an `off_t`. The size is |buf|, so a negative `off_t` size is not modelled: `inode_write_at` takes a signed size (inode.c:605), and a write system call of 2^31 bytes or more arrives negative. With the offset within the file the source then skips growth and the loop and returns 0 (inode.c:620, 627). With the offset past the end it asks `inode_extend_length` for -inode_left + size (inode.c:616-617), which can record a length shorter than the offset or a negative one (inode.c:132-139).
- InodeIo.WriteLoop: when a chunk comes out <= 0 mid-loop, the source calls `inode_extend_length` again (inode.c:641-644); the model ends the loop instead. After the corrected up-front growth this happens only when a chunk overwrites the inode's own length field.
- InodeLayout.ByteToSector: uses the double-indirect lookup with the divisor corrected to N (see Findings). It compares pos with the length field as an unsigned word. The source reads that field into an `int` (inode.c:81), so there a corrupt length of 2^31 or more is negative and every lookup returns -1.
- InodeExtend.ExtendSector: returns the sector as a word and reports success for every sector. The source returns it as an `int` (inode.c:259-267), so there a sector numbered 0xFFFFFFFF would be taken for the failure value -1.
- InodeExtend.ExtendSectors: requires a length field of at most the maximum file size. On a larger, corrupt length the source's loops skip every tier, and its ASSERT (inode.c:251) fires for any num > 0.
- InodeExtendStore.ExtendSectorsStores: assumes the inode's pointer blocks are distinct sectors other than the inode record, and that the free list holds none of them, nor the record, nor any sector twice (`InodeExtendStore.Separated`). In the source a consistent free-sector bitmap guarantees this; free-map.c is not part of this model.
- InodeLength.ExtendLengthAllOrNothing: states that a zero return keeps the old blocks' lookups only for an inode satisfying `InodeExtendStore.Separated`, the same hypothesis as `InodeExtendStore.ExtendSectorsStores`.
- InodeLength.ExtendLengthGrows: says which sectors growth takes, not where their numbers are stored. That is stated one level down, for `inode_extend_sectors`, by `InodeExtendStore.ExtendSectorsStores`.
- `verify_addr` and `verify_str` inspect page tables. They are parameters: a predicate in `Syscall.BadArgs`, and a boolean in `Syscall.TransferPrologue`. The example address space `Syscall.EndsAt` is an assumption of the model.
- `syscall_exit`, `syscall_halt`, `syscall_exec`, `syscall_wait`, console I/O, the file operations behind `filesys_open` and `filesys_close`, and interrupt registration: they are outside the modelled core. A descriptor table entry is an opaque file reference.
- System call numbers: syscall-nr.h is not part of this model, so calls are named by a datatype.
- NAME_MAX = 14: directory.h is not part of this model; the value is taken as Pintos defines it.
- MAX_OPEN_FILES: thread.h is not part of this model. The table's length stands for it.
- What `get_next_part` leaves in `part` on a -1 return is not modelled; callers do not read it.
- The free-sector bitmap: free-map.c is not part of this model. It is a free list, so the model says which sectors are taken but not how the bitmap searches.
- The directory and file layer: `filesys_create`, `filesys_open`, `filesys_remove`, `filesys_mkdir` and `do_format` are not modelled. `get_next_part` is modelled on its own, as its callers use it.

## Findings

| source | as written | input that shows it | evidently intended | confidence | as-written member | corrected member |
|---|---|---|---|---|---|---|
| pintos/src/filesys/inode.c:110-112 | The double-indirect lookup splits the tier index by BLOCK_SECTOR_SIZE (512). | Block 12 + 2N = 268 of a file: looked up at entry 128 of second-level block 0 (byte 512, outside the sector). Allocation (inode.c:230-243) stored it at entry 0 of second-level block 1. | Split by PTR_BLOCK_SIZE (128), as allocation does. | high, not executed | InodeLayout.DblLookupMismatch | InodeLayout.DataSlotOnto |
| pintos/src/filesys/inode.c:142-149 | After `length -= sector_left`, the new length is old_length + length, so the slack bytes are dropped from the length and the return. | A 100-byte file extended by 500 bytes: one sector is allocated, but the length becomes 188 and 88 is returned instead of 600 and 500. `inode_write_at` then re-enters growth from its loop. | new_length = old_length + the original request. | high, not executed | InodeLength.SlackLossExample | InodeLength.ExtendLengthGrows |
| pintos/src/userprog/syscall.c:126-141 | `verify_addr (args + 4, n * sizeof (uint32_t *))` with `args` a `uint32_t *` checks bytes from esp + 16, not the arguments at esp + 4. | `exit` with esp 8 bytes below the top of user space: its argument at esp + 4 is valid, yet the range at esp + 16 lies above the top, so the process is killed. | Check from `args + 1`, that is esp + 4. | high, not executed | Syscall.ArgCheckExample | Syscall.BadArgsReadable |

=== FILE: allocator.dfy ===
/** The free map as the inode layer uses it: free_map_allocate (1, &s) and
    free_map_release (s, 1). The bitmap behind it is not part of this model;
    it is abstracted as a free list whose head is the next sector handed
    out, so any allocation order (and exhaustion at any point) is covered. */
module Allocator {
  import opened Machine

  datatype FreeMap = FreeMap(free: seq<Word>)

  datatype Allocation = Allocation(sector: Word, fm: FreeMap)

  /** free_map_allocate for one sector: fails exactly when nothing is free. */
  function Allocate(fm: FreeMap): (r: Option<Allocation>)
    ensures r.None? <==> |fm.free| == 0
    ensures r.Some? ==> [r.value.sector] + r.value.fm.free == fm.free
  {
    if |fm.free| == 0 then None else Some(Allocation(fm.free[0], FreeMap(fm.free[1..])))
  }

  /** free_map_release for one sector. */
  function Release(fm: FreeMap, s: Word): FreeMap
  {
    FreeMap([s] + fm.free)
  }

  /** Release the sectors taken during one call, most recently allocated
      first: afterwards they are free again, in the order they were taken. */
  function ReleaseBackward(fm: FreeMap, taken: seq<Word>): (r: FreeMap)
    ensures r.free == taken + fm.free
    decreases |taken|
  {
    if |taken| == 0 then fm
    else
      var r := ReleaseBackward(Release(fm, taken[|taken| - 1]), taken[..|taken| - 1]);
      assert taken == taken[..|taken| - 1] + [taken[|taken| - 1]];
      r
  }
}

=== FILE: block_store.dfy ===
/** The buffer cache as the inode layer sees it: a functional byte store
    addressed by (sector, offset). cache_get and cache_put are its only
    operations; a sector that was never written reads as zeros. Residency,
    eviction and write-back are not part of this model. */
module BlockStore {
  import opened Machine

  const BlockSectorSize: nat := 512

  /** Contents of the file-system device, sector by sector. */
  type Disk = map<Word, seq<byte>>

  function Zeros(): (z: seq<byte>)
    ensures |z| == BlockSectorSize
  {
    seq(BlockSectorSize, _ => 0 as byte)
  }

  /** The 512 bytes currently held by sector s. */
  function Block(d: Disk, s: Word): (b: seq<byte>)
    ensures |b| == BlockSectorSize
  {
    if s in d && |d[s]| == BlockSectorSize then d[s] else Zeros()
  }

  /** cache_get: len bytes of sector s starting at ofs. A range that leaves
      the block is a caller error in the source, hence the precondition. */
  function Get(d: Disk, s: Word, ofs: nat, len: nat): (r: seq<byte>)
    requires ofs + len <= BlockSectorSize
    ensures |r| == len
    ensures forall i :: 0 <= i < len ==> r[i] == Block(d, s)[ofs + i]
  {
    Block(d, s)[ofs..ofs + len]
  }

  /** One byte of sector s overwritten. */
  function PutByte(d: Disk, s: Word, i: nat, v: byte): Disk
    requires i < BlockSectorSize
  {
    d[s := Block(d, s)[i := v]]
  }

  /** cache_put: overwrite bytes [ofs, ofs + |bytes|) of sector s, one byte
      after the other. */
  function Put(d: Disk, s: Word, ofs: nat, bytes: seq<byte>): Disk
    requires ofs + |bytes| <= BlockSectorSize
    decreases |bytes|
  {
    if |bytes| == 0 then d
    else Put(PutByte(d, s, ofs, bytes[0]), s, ofs + 1, bytes[1..])
  }

  /** After a cache_put, the written range of the sector holds the new
      bytes, the rest of the sector is unchanged, and so is every other
      sector. */
  lemma {:induction false} PutEffect(d: Disk, s: Word, ofs: nat, bytes: seq<byte>)
    requires ofs + |bytes| <= BlockSectorSize
    ensures var d' := Put(d, s, ofs, bytes);
            && (forall i :: 0 <= i < |bytes| ==> Block(d', s)[ofs + i] == bytes[i])
            && (forall i :: 0 <= i < BlockSectorSize && !(ofs <= i < ofs + |bytes|) ==>
                  Block(d', s)[i] == Block(d, s)[i])
            && (forall t :: t != s ==> Block(d', t) == Block(d, t))
    decreases |bytes|
  {
    if |bytes| > 0 {
      var d1 := PutByte(d, s, ofs, bytes[0]);
      PutEffect(d1, s, ofs + 1, bytes[1..]);
      assert Block(d1, s) == Block(d, s)[ofs := bytes[0]];
      var d' := Put(d, s, ofs, bytes);
      assert d' == Put(d1, s, ofs + 1, bytes[1..]);
      forall i | 0 <= i < |bytes|
        ensures Block(d', s)[ofs + i] == bytes[i]
      {
        if i > 0 {
          assert bytes[1..][i - 1] == bytes[i];
        }
      }
    }
  }

  /** A 4-byte word field at byte offset ofs of sector s. */
  function GetWord(d: Disk, s: Word, ofs: nat): Word
    requires ofs + 4 <= BlockSectorSize
  {
    DecodeWord(Get(d, s, ofs, 4))
  }

  function PutWord(d: Disk, s: Word, ofs: nat, v: Word): Disk
    requires ofs + 4 <= BlockSectorSize
  {
    Put(d, s, ofs, EncodeWord(v))
  }

  /** A word written through the cache reads back unchanged. */
  lemma GetPutWordSame(d: Disk, s: Word, ofs: nat, v: Word)
    requires ofs + 4 <= BlockSectorSize
    ensures GetWord(PutWord(d, s, ofs, v), s, ofs) == v
  {
    var d' := PutWord(d, s, ofs, v);
    PutEffect(d, s, ofs, EncodeWord(v));
    assert Get(d', s, ofs, 4) == EncodeWord(v);
    DecodeEncode(v);
  }

  /** Writing a word leaves every word of another sector, and every
      non-overlapping word of the same sector, unchanged. */
  lemma GetPutWordOther(d: Disk, s: Word, ofs: nat, v: Word, s': Word, ofs': nat)
    requires ofs + 4 <= BlockSectorSize && ofs' + 4 <= BlockSectorSize
    requires s' != s || ofs' + 4 <= ofs || ofs + 4 <= ofs'
    ensures GetWord(PutWord(d, s, ofs, v), s', ofs') == GetWord(d, s', ofs')
  {
    var d' := PutWord(d, s, ofs, v);
    PutEffect(d, s, ofs, EncodeWord(v));
    assert Get(d', s', ofs', 4) == Get(d, s', ofs', 4);
  }

  /** Writing bytes of one sector leaves every word of another sector unchanged. */
  lemma GetWordAfterPutElsewhere(d: Disk, s: Word, ofs: nat, bytes: seq<byte>, s': Word, ofs': nat)
    requires ofs + |bytes| <= BlockSectorSize && ofs' + 4 <= BlockSectorSize
    requires s' != s
    ensures GetWord(Put(d, s, ofs, bytes), s', ofs') == GetWord(d, s', ofs')
  {
    PutEffect(d, s, ofs, bytes);
    assert Get(Put(d, s, ofs, bytes), s', ofs', 4) == Get(d, s', ofs', 4);
  }
}

=== FILE: inode_extend.dfy ===
/** Growth of the block map: inode_extend_sector and inode_extend_sectors
    of filesys/inode.c. The three allocation loops of inode_extend_sectors
    share one shape, `RunLoop`, and differ in their bodies `DirectBody`,
    `IndirectBody` and `DblBody`; every pointer they read is read where the
    source reads it. Each allocation is
    recorded as the symbolic slot it fills, so that the walk can be compared
    with `Plan`, an independent block-by-block description of what growth
    from a given block index must allocate. */
module InodeExtend {
  import opened Machine
  import opened BlockStore
  import opened Allocator
  import opened InodeLayout

  function Min(a: int, b: int): int
  {
    if a <= b then a else b
  }

  // ---------------------------------------------------------------------
  // The reference plan

  /** The pointer block that heads a tier and must be allocated just before
      the first data block of that tier. */
  function TopBlock(b: nat): seq<Slot>
  {
    if b == DirectPtrSize then [Indirect]
    else if b == DirectPtrSize + IndirectPtrSize then [DblIndirect]
    else []
  }

  /** What the allocation loops fill for block b: a new second-level block
      when b starts one, then the data pointer of b itself. */
  function LoopSlots(b: nat): (r: seq<Slot>)
    requires b < MaxBlocks
    ensures 1 <= |r| <= 2 && r[|r| - 1] == DataSlot(b).value
  {
    var k := b - DirectPtrSize - IndirectPtrSize;
    (if k >= 0 && k % 128 == 0 then [DblEntry(k / 128)] else [])
    + [DataSlot(b).value]
  }

  /** All slots that growth fills for block b, in allocation order. */
  function SlotsFor(b: nat): seq<Slot>
    requires b < MaxBlocks
  {
    TopBlock(b) + LoopSlots(b)
  }

  /** The slots that growing a file from block index a up to (excluding)
      block index c fills, in order. */
  function Plan(a: nat, c: nat): seq<Slot>
    requires a < c ==> c <= MaxBlocks
    decreases c - a
  {
    if a >= c then [] else SlotsFor(a) + Plan(a + 1, c)
  }

  /** Plan without the tier-heading blocks: what the loops alone fill. */
  function LoopRun(a: nat, c: nat): seq<Slot>
    requires a < c ==> c <= MaxBlocks
    decreases c - a
  {
    if a >= c then [] else LoopSlots(a) + LoopRun(a + 1, c)
  }

  lemma LoopRunCons(a: nat, c: nat)
    requires a < c <= MaxBlocks
    ensures LoopRun(a, c) == LoopSlots(a) + LoopRun(a + 1, c)
  {
  }

  lemma LoopSlotsDirect(i: nat)
    requires i < DirectPtrSize
    ensures LoopSlots(i) == [Direct(i)]
  {
  }

  lemma LoopSlotsIndirect(i: nat)
    requires i < IndirectPtrSize
    ensures LoopSlots(DirectPtrSize + i) == [IndirectEntry(i)]
  {
  }

  lemma LoopSlotsDbl(k: nat)
    requires k < DblIndirectPtrSize
    ensures LoopSlots(DirectPtrSize + IndirectPtrSize + k) ==
              (if k % 128 == 0 then [DblEntry(k / 128)] else [])
              + [DblLeaf(k / 128, k % 128)]
  {
  }

  // ---------------------------------------------------------------------
  // The source's operations

  datatype SectorStep = SectorStep(d: Disk, fm: FreeMap, sector: Word)

  /** inode_extend_sector: allocate one sector and store its number at byte
      ofs of sector parent. On failure nothing is written. */
  function ExtendSector(d: Disk, fm: FreeMap, parent: Word, ofs: nat): (r: Option<SectorStep>)
    requires ofs + SectorPtrSize <= BlockSectorSize
    ensures r.None? <==> |fm.free| == 0
    ensures r.Some? ==> [r.value.sector] + r.value.fm.free == fm.free
    ensures r.Some? ==> r.value.d == PutWord(d, parent, ofs, r.value.sector)
  {
    match Allocate(fm)
    case None => None
    case Some(a) => Some(SectorStep(PutWord(d, parent, ofs, a.sector), a.fm, a.sector))
  }

  /** The sector number inode_extend_sector allocated reads back from the
      parent slot it was stored in. */
  lemma ExtendSectorStores(d: Disk, fm: FreeMap, parent: Word, ofs: nat)
    requires ofs + SectorPtrSize <= BlockSectorSize
    ensures var r := ExtendSector(d, fm, parent, ofs);
            r.Some? ==> GetWord(r.value.d, parent, ofs) == r.value.sector
  {
    var r := ExtendSector(d, fm, parent, ofs);
    if r.Some? {
      GetPutWordSame(d, parent, ofs, r.value.sector);
    }
  }

  /** The state of the allocation walk: the store, the free map, the
      source's `index` and `allocated_size`, the sectors taken so far in
      this call, the slots they were stored in, and whether an allocation
      has failed. */
  datatype Walk = Walk(d: Disk, fm: FreeMap, index: int, allocatedSize: nat,
                       taken: seq<Word>, filled: seq<Slot>, failed: bool)

  /** No sector is lost or invented between walk states w and r: what was
      taken plus what is still free is the same list, and every sector taken
      was stored in exactly one recorded slot. */
  predicate Conserves(w: Walk, r: Walk)
  {
    && r.taken + r.fm.free == w.taken + w.fm.free
    && |r.taken| - |w.taken| == |r.filled| - |w.filled|
  }

  /** One inode_extend_sector call on behalf of slot s, whose sector is
      parent (as the caller has read it). */
  function Fill(w: Walk, parent: Word, s: Slot): (r: Walk)
    requires ValidSlot(s) && !w.failed
    ensures Conserves(w, r)
    ensures r.index == w.index && r.allocatedSize == w.allocatedSize
    ensures r.failed <==> |w.fm.free| == 0
    ensures !r.failed ==> r.filled == w.filled + [s] && r.taken == w.taken + [w.fm.free[0]]
    ensures !r.failed ==> r.fm.free == w.fm.free[1..]
  {
    match ExtendSector(w.d, w.fm, parent, SlotOffset(s))
    case None => w.(failed := true)
    case Some(st) => w.(d := st.d, fm := st.fm, taken := w.taken + [st.sector], filled := w.filled + [s])
  }

  /** A failed Fill changes nothing but the failure flag. */
  lemma FillFailed(w: Walk, parent: Word, s: Slot)
    requires ValidSlot(s) && !w.failed && |w.fm.free| == 0
    ensures Fill(w, parent, s) == w.(failed := true)
  {
  }

  lemma DropDrop<T>(s: seq<T>, m: nat, n: nat)
    requires m + n <= |s|
    ensures s[m..][n..] == s[m + n..]
  {
  }

  // ---------------------------------------------------------------------
  // The three loops

  /** The loop shape shared by the three loops of inode_extend_sectors:
      while allocated_size < num and index < limit, run the body; a failed
      inode_extend_sector leaves the loop (the caller then rolls back);
      otherwise both counters advance. */
  function RunLoop(w: Walk, limit: nat, num: nat, body: Walk -> Walk): Walk
    decreases limit - w.index
  {
    if w.allocatedSize >= num || w.index >= limit then w
    else
      var w1 := body(w);
      if w1.failed then w1
      else RunLoop(w1.(index := w.index + 1, allocatedSize := w.allocatedSize + 1), limit, num, body)
  }

  /** One turn of a loop that has not stopped. */
  lemma RunLoopStep(w: Walk, limit: nat, num: nat, body: Walk -> Walk)
    requires w.allocatedSize < num && w.index < limit
    ensures var w1 := body(w);
            RunLoop(w, limit, num, body) ==
              if w1.failed then w1
              else RunLoop(w1.(index := w.index + 1, allocatedSize := w.allocatedSize + 1), limit, num, body)
  {
  }

  /** Where a loop that starts at `from` stops if no allocation fails. */
  function Target(from: int, allocatedSize: int, num: nat, limit: nat): int
  {
    if from >= limit then from else Min(limit, from + (num - allocatedSize))
  }

  /** The effect of one loop body that fills the slots `step` in order:
      it fails exactly when the free map holds fewer sectors than it needs,
      and otherwise takes them from the head of the free map. */
  predicate BodyEffect(w: Walk, r: Walk, step: seq<Slot>)
  {
    && Conserves(w, r)
    && (r.failed <==> |w.fm.free| < |step|)
    && (!r.failed ==> r.filled == w.filled + step && r.fm.free == w.fm.free[|step|..])
  }

  /** The slots a loop body fills at each loop index, concatenated over
      the loop indices a .. c - 1. */
  function Run(slots: int -> seq<Slot>, a: int, c: int): seq<Slot>
    decreases c - a
  {
    if a >= c then [] else slots(a) + Run(slots, a + 1, c)
  }

  /** The slots filled at loop index k of the tier whose first block index
      is first. */
  function TierSlots(first: nat): int -> seq<Slot>
  {
    (k: int) => if 0 <= k && first + k < MaxBlocks then LoopSlots(first + k) else []
  }

  /** Concatenating a tier's slots over loop indices is LoopRun over the
      corresponding block indices. */
  lemma {:induction false} RunIsLoopRun(first: nat, a: nat, c: nat)
    requires a <= c && first + c <= MaxBlocks
    ensures Run(TierSlots(first), a, c) == LoopRun(first + a, first + c)
    decreases c - a
  {
    if a < c {
      RunIsLoopRun(first, a + 1, c);
      LoopRunCons(first + a, first + c);
    }
  }

  /** body, run at any loop index k below limit, fills slots(k). */
  ghost predicate FillsSlots(body: Walk -> Walk, slots: int -> seq<Slot>, limit: nat)
  {
    forall w: Walk :: !w.failed && 0 <= w.index < limit ==> BodyEffect(w, body(w), slots(w.index))
  }

  /** A loop whose body fills slots(k) at loop index k fills, from its
      start to its stopping point t, the concatenation of those slots, and
      fails exactly when the free map runs out before t. */
  lemma {:induction false} RunLoopFills(w: Walk, limit: nat, num: nat, body: Walk -> Walk,
                                        slots: int -> seq<Slot>)
    requires FillsSlots(body, slots, limit)
    requires !w.failed && 0 <= w.index && w.allocatedSize <= num
    ensures var r := RunLoop(w, limit, num, body);
            var t := Target(w.index, w.allocatedSize, num, limit);
            && w.index <= t
            && BodyEffect(w, r, Run(slots, w.index, t))
            && (!r.failed ==> r.index == t && r.allocatedSize == w.allocatedSize + (t - w.index))
    decreases limit - w.index
  {
    var t := Target(w.index, w.allocatedSize, num, limit);
    if w.allocatedSize >= num || w.index >= limit {
      assert t == w.index;
      assert Run(slots, w.index, t) == [];
      assert RunLoop(w, limit, num, body) == w;
    } else {
      var step := slots(w.index);
      var rest := Run(slots, w.index + 1, t);
      assert Run(slots, w.index, t) == step + rest;
      var w1 := body(w);
      assert BodyEffect(w, w1, step);
      RunLoopStep(w, limit, num, body);
      if w1.failed {
        EffectFailed(w, w1, step, rest);
      } else {
        var w2 := w1.(index := w.index + 1, allocatedSize := w.allocatedSize + 1);
        assert Target(w2.index, w2.allocatedSize, num, limit) == t;
        RunLoopFills(w2, limit, num, body, slots);
        var r := RunLoop(w2, limit, num, body);
        EffectCounters(w, w1, step, w.index + 1, w.allocatedSize + 1);
        EffectThen(w, w2, r, step, rest);
      }
    }
  }

  /** Body of the first loop: direct_ptr[index] of the inode record. */
  function DirectBody(ino: Word): Walk -> Walk
  {
    (w: Walk) => if !w.failed && 0 <= w.index < DirectPtrSize then Fill(w, ino, Direct(w.index)) else w
  }

  lemma DirectBodyFills(ino: Word)
    ensures FillsSlots(DirectBody(ino), TierSlots(0), DirectPtrSize)
  {
    forall w: Walk | !w.failed && 0 <= w.index < DirectPtrSize
      ensures BodyEffect(w, DirectBody(ino)(w), TierSlots(0)(w.index))
    {
      LoopSlotsDirect(w.index);
    }
  }

  /** Body of the second loop: entry index of the indirect block ind, whose
      number was read from the inode record once, before the loop. */
  function IndirectBody(ind: Word): Walk -> Walk
  {
    (w: Walk) => if !w.failed && 0 <= w.index < IndirectPtrSize then Fill(w, ind, IndirectEntry(w.index)) else w
  }

  lemma IndirectBodyFills(ind: Word)
    ensures FillsSlots(IndirectBody(ind), TierSlots(DirectPtrSize), IndirectPtrSize)
  {
    forall w: Walk | !w.failed && 0 <= w.index < IndirectPtrSize
      ensures BodyEffect(w, IndirectBody(ind)(w), TierSlots(DirectPtrSize)(w.index))
    {
      LoopSlotsIndirect(w.index);
    }
  }

  /** The first iteration for a second-level block j: allocate the block
      into entry j of the double-indirect block dbl, then allocate data
      block 0 of it, using the sector number just returned. */
  function NewSecondLevel(w: Walk, dbl: Word, j: nat): Walk
    requires !w.failed && j < PtrBlockSize
  {
    var w1 := Fill(w, dbl, DblEntry(j));
    if w1.failed then w1 else Fill(w1, w1.taken[|w1.taken| - 1], DblLeaf(j, 0))
  }

  lemma NewSecondLevelFills(w: Walk, dbl: Word, j: nat)
    requires !w.failed && j < PtrBlockSize
    ensures BodyEffect(w, NewSecondLevel(w, dbl, j), [DblEntry(j), DblLeaf(j, 0)])
  {
    var w1 := Fill(w, dbl, DblEntry(j));
    if !w1.failed {
      var w2 := Fill(w1, w1.taken[|w1.taken| - 1], DblLeaf(j, 0));
      if !w2.failed {
        assert w2.filled == w.filled + [DblEntry(j), DblLeaf(j, 0)];
        DropDrop(w.fm.free, 1, 1);
      }
    }
  }

  /** One iteration of the third loop: when the tier index is a multiple of
      N a new second-level block is allocated, otherwise the second-level
      block's number is read from the double-indirect block dbl; then the
      data block is allocated into the second-level block. */
  function DblStep(w: Walk, dbl: Word): Walk
    requires !w.failed && 0 <= w.index < DblIndirectPtrSize
  {
    var j := w.index / 128;
    var i := w.index % 128;
    if i == 0 then NewSecondLevel(w, dbl, j)
    else Fill(w, GetWord(w.d, dbl, j * 4), DblLeaf(j, i))
  }

  lemma DblStepFills(w: Walk, dbl: Word)
    requires !w.failed && 0 <= w.index < DblIndirectPtrSize
    ensures BodyEffect(w, DblStep(w, dbl), LoopSlots(DirectPtrSize + IndirectPtrSize + w.index))
  {
    LoopSlotsDbl(w.index);
    if w.index % 128 == 0 {
      NewSecondLevelFills(w, dbl, w.index / 128);
    }
  }

  function DblBody(dbl: Word): Walk -> Walk
  {
    (w: Walk) => if !w.failed && 0 <= w.index < DblIndirectPtrSize then DblStep(w, dbl) else w
  }

  lemma DblBodyFills(dbl: Word)
    ensures FillsSlots(DblBody(dbl), TierSlots(DirectPtrSize + IndirectPtrSize), DblIndirectPtrSize)
  {
    forall w: Walk | !w.failed && 0 <= w.index < DblIndirectPtrSize
      ensures BodyEffect(w, DblBody(dbl)(w), TierSlots(DirectPtrSize + IndirectPtrSize)(w.index))
    {
      DblStepFills(w, dbl);
    }
  }
  // ---------------------------------------------------------------------
  // inode_extend_sectors

  /** The part of inode_extend_sectors after the first loop: `index` has
      just been lowered by DIRECT_PTR_SIZE; allocate the indirect block if
      the file is about to enter that tier, then run the second loop. */
  function IndirectTier(w: Walk, ino: Word, num: nat): Walk
  {
    if w.failed then w
    else
      var w1 := if w.index == 0 && w.allocatedSize < num then Fill(w, ino, Indirect) else w;
      if w1.failed then w1
      else if 0 <= w1.index < IndirectPtrSize && w1.allocatedSize < num then
        RunLoop(w1, IndirectPtrSize, num, IndirectBody(GetWord(w1.d, ino, IndirectOfs)))
      else w1
  }

  /** The part after the second loop: `index` has just been lowered by
      INDIRECT_PTR_SIZE; allocate the double-indirect block if the file is
      about to enter that tier, then run the third loop. */
  function DblTier(w: Walk, ino: Word, num: nat): Walk
  {
    if w.failed then w
    else
      var w1 := if w.index == 0 && w.allocatedSize < num then Fill(w, ino, DblIndirect) else w;
      if w1.failed then w1
      else if 0 <= w1.index && w1.allocatedSize < num then
        RunLoop(w1, DblIndirectPtrSize, num, DblBody(GetWord(w1.d, ino, DblIndirectOfs)))
      else w1
  }

  // ---------------------------------------------------------------------
  // Stages and their composition

  /** One stage after another: the second runs only if the first did not
      fail, with `index` lowered by shift in between. */
  function Then(w: Walk, f: Walk -> Walk, g: Walk -> Walk, shift: int): Walk
  {
    var w1 := f(w);
    if w1.failed then w1 else g(w1.(index := w1.index - shift))
  }

  function ThenF(f: Walk -> Walk, g: Walk -> Walk, shift: int): Walk -> Walk
  {
    (w: Walk) => Then(w, f, g, shift)
  }

  /** The three loops of inode_extend_sectors as stages. */
  function DirectF(ino: Word, num: nat): Walk -> Walk
  {
    (w: Walk) => RunLoop(w, DirectPtrSize, num, DirectBody(ino))
  }

  function IndirectF(ino: Word, num: nat): Walk -> Walk
  {
    (w: Walk) => IndirectTier(w, ino, num)
  }

  function DblF(ino: Word, num: nat): Walk -> Walk
  {
    (w: Walk) => DblTier(w, ino, num)
  }

  /** The loops of inode_extend_sectors one after the other, up to the first
      failed allocation. */
  function Grow(w: Walk, ino: Word, num: nat): Walk
  {
    Then(w, DirectF(ino, num), LaterF(ino, num), DirectPtrSize)
  }

  /** Entered at block index a, a walk of one tier (first block index
      `first`, `size` blocks) with allocated_size already at allocatedSize
      stops at this block index if no allocation fails. */
  function TierEnd(first: nat, size: nat, a: int, allocatedSize: int, num: nat): int
  {
    if first <= a && allocatedSize < num then
      first + Target(a - first, allocatedSize, num, size)
    else a
  }

  function DirectEnd(num: nat): (int, int) -> int
  {
    (a: int, n: int) => TierEnd(0, DirectPtrSize, a, n, num)
  }

  function IndirectEnd(num: nat): (int, int) -> int
  {
    (a: int, n: int) => TierEnd(DirectPtrSize, IndirectPtrSize, a, n, num)
  }

  function DblEnd(num: nat): (int, int) -> int
  {
    (a: int, n: int) => TierEnd(DirectPtrSize + IndirectPtrSize, DblIndirectPtrSize, a, n, num)
  }

  /** Where two stages run one after the other stop. */
  function ThenEnd(e1: (int, int) -> int, e2: (int, int) -> int): (int, int) -> int
  {
    (a: int, n: int) => e2(e1(a, n), n + (e1(a, n) - a))
  }

  /** A stage entered at block index a with walk w and left with walk r
      fills plan(a, c), within the block map and within num blocks, and on
      success leaves `index` at c - out with allocated_size advanced by the
      blocks it covered. The plan is a parameter so that composing stages
      needs only the fact that plans split (`Splits`). */
  predicate StageEffect(plan: (int, int) -> seq<Slot>, w: Walk, r: Walk, a: int, c: int, out: int, num: nat)
  {
    && 0 <= a <= c <= MaxBlocks
    && c - a <= num - w.allocatedSize
    && BodyEffect(w, r, plan(a, c))
    && (!r.failed ==> out + r.index == c && r.allocatedSize == w.allocatedSize + (c - a))
  }

  /** The stage, entered at any block index first + index within the block
      map, stops at end(block index, allocated_size). */
  ghost predicate Reaches(plan: (int, int) -> seq<Slot>, stage: Walk -> Walk, first: int, out: int,
                          end: (int, int) -> int, num: nat)
  {
    forall w: Walk {:trigger stage(w)} ::
      !w.failed && w.allocatedSize <= num && 0 <= first + w.index <= MaxBlocks ==>
        StageEffect(plan, w, stage(w), first + w.index, end(first + w.index, w.allocatedSize), out, num)
  }

  /** Growth across a range splits at any point between. */
  ghost predicate Splits(plan: (int, int) -> seq<Slot>)
  {
    forall a, m, c {:trigger plan(a, m), plan(m, c)} ::
      0 <= a <= m <= c <= MaxBlocks ==> plan(a, c) == plan(a, m) + plan(m, c)
  }

  /** Filling s1 and then s2 fills s1 + s2; a walk that failed during s1
      stops there. */
  lemma EffectThen(w: Walk, w1: Walk, w2: Walk, s1: seq<Slot>, s2: seq<Slot>)
    requires BodyEffect(w, w1, s1)
    requires !w1.failed ==> BodyEffect(w1, w2, s2)
    requires w1.failed ==> w2 == w1
    ensures BodyEffect(w, w2, s1 + s2)
  {
    if !w1.failed && !w2.failed {
      assert w2.filled == w.filled + (s1 + s2);
      DropDrop(w.fm.free, |s1|, |s2|);
    }
  }

  /** A walk that has failed has failed for any longer plan as well. */
  lemma EffectFailed(w: Walk, r: Walk, s1: seq<Slot>, s2: seq<Slot>)
    requires BodyEffect(w, r, s1) && r.failed
    ensures BodyEffect(w, r, s1 + s2)
  {
  }

  /** Changing only `index` keeps the effect of a walk. */
  lemma EffectReindex(w: Walk, r: Walk, s: seq<Slot>, index: int)
    requires BodyEffect(w, r, s)
    ensures BodyEffect(w, r.(index := index), s)
  {
  }

  /** Neither does changing `index` and `allocated_size` together. */
  lemma EffectCounters(w: Walk, r: Walk, s: seq<Slot>, index: int, allocatedSize: nat)
    requires BodyEffect(w, r, s)
    ensures BodyEffect(w, r.(index := index, allocatedSize := allocatedSize), s)
  {
  }

  /** Two stages in sequence: the plans they fill concatenate. The
      second stage is entered at v, the walk the first one left with
      `index` lowered by shift; when the first one failed, v is any walk at
      the block index where the first would have stopped, which bounds the
      second stage's stopping point. */
  lemma StageThen(plan: (int, int) -> seq<Slot>, w: Walk, w1: Walk, v: Walk, r2: Walk, r: Walk,
                  a: int, c1: int, c2: int, mid: int, out: int, shift: int, num: nat)
    requires StageEffect(plan, w, w1, a, c1, mid, num) && StageEffect(plan, v, r2, c1, c2, out, num)
    requires plan(a, c2) == plan(a, c1) + plan(c1, c2)
    requires v.allocatedSize == w.allocatedSize + (c1 - a)
    requires !w1.failed ==> v == w1.(index := w1.index - shift)
    requires r == if w1.failed then w1 else r2
    ensures StageEffect(plan, w, r, a, c2, out, num)
  {
    if w1.failed {
      EffectFailed(w, w1, plan(a, c1), plan(c1, c2));
    } else {
      EffectReindex(w, w1, plan(a, c1), w1.index - shift);
      EffectThen(w, v, r2, plan(a, c1), plan(c1, c2));
    }
  }

  lemma ThenStep(plan: (int, int) -> seq<Slot>, f: Walk -> Walk, g: Walk -> Walk, shift: int,
                 first: int, mid: int, out: int, e1: (int, int) -> int, e2: (int, int) -> int,
                 num: nat, w: Walk)
    requires Splits(plan)
    requires Reaches(plan, f, first, mid, e1, num) && Reaches(plan, g, mid + shift, out, e2, num)
    requires !w.failed && w.allocatedSize <= num && 0 <= first + w.index <= MaxBlocks
    ensures StageEffect(plan, w, Then(w, f, g, shift), first + w.index,
                        ThenEnd(e1, e2)(first + w.index, w.allocatedSize), out, num)
  {
    var a := first + w.index;
    var c2 := ThenEnd(e1, e2)(a, w.allocatedSize);
    var r := Then(w, f, g, shift);
    assert StageEffect(plan, w, r, a, c2, out, num) by {
      var w1 := f(w);
      var c1 := e1(a, w.allocatedSize);
      assert StageEffect(plan, w, w1, a, c1, mid, num);
      var n1 := w.allocatedSize + (c1 - a);
      var v := if w1.failed then w.(index := c1 - mid - shift, allocatedSize := n1)
               else w1.(index := w1.index - shift);
      assert c2 == e2(c1, n1);
      assert StageEffect(plan, v, g(v), c1, c2, out, num);
      assert r == if w1.failed then w1 else g(v);
      assert plan(a, c2) == plan(a, c1) + plan(c1, c2);
      StageThen(plan, w, w1, v, g(v), r, a, c1, c2, mid, out, shift, num);
    }
  }

  lemma ThenReaches(plan: (int, int) -> seq<Slot>, f: Walk -> Walk, g: Walk -> Walk, shift: int,
                    first: int, mid: int, out: int, e1: (int, int) -> int, e2: (int, int) -> int, num: nat)
    requires Splits(plan)
    requires Reaches(plan, f, first, mid, e1, num) && Reaches(plan, g, mid + shift, out, e2, num)
    ensures Reaches(plan, ThenF(f, g, shift), first, out, ThenEnd(e1, e2), num)
  {
    forall w: Walk | !w.failed && w.allocatedSize <= num && 0 <= first + w.index <= MaxBlocks
      ensures StageEffect(plan, w, ThenF(f, g, shift)(w), first + w.index,
                          ThenEnd(e1, e2)(first + w.index, w.allocatedSize), out, num)
    {
      ThenStep(plan, f, g, shift, first, mid, out, e1, e2, num, w);
    }
  }

  // ---------------------------------------------------------------------
  // The three stages

  /** Plan as a function of the two block indices. */
  function PlanF(): (int, int) -> seq<Slot>
  {
    (a: int, c: int) => if 0 <= a <= c <= MaxBlocks then Plan(a, c) else []
  }

  lemma PlanFSplits()
    ensures Splits(PlanF())
  {
    forall a, m, c | 0 <= a <= m <= c <= MaxBlocks
      ensures PlanF()(a, c) == PlanF()(a, m) + PlanF()(m, c)
    {
      PlanSplit(a, m, c);
    }
  }

  /** Growth across a range of block indices splits at any block between. */
  lemma {:induction false} PlanSplit(a: nat, m: nat, c: nat)
    requires a <= m <= c <= MaxBlocks
    ensures Plan(a, c) == Plan(a, m) + Plan(m, c)
    decreases m - a
  {
    if a < m {
      PlanSplit(a + 1, m, c);
    }
  }


  /** Inside one tier, growth fills the tier's heading block (if the range
      starts at the head of the tier) and then exactly what the loops fill. */
  lemma {:induction false} PlanInTier(a: nat, c: nat)
    requires a <= c <= MaxBlocks
    requires !(a < DirectPtrSize < c) && !(a < DirectPtrSize + IndirectPtrSize < c)
    ensures Plan(a, c) == (if a < c then TopBlock(a) else []) + LoopRun(a, c)
    decreases c - a
  {
    if a < c {
      PlanInTier(a + 1, c);
      if a + 1 < c {
        assert TopBlock(a + 1) == [];
      }
    }
  }

  lemma DirectRunIsPlan(a: nat, t: nat)
    requires a <= t <= MaxBlocks && (t <= DirectPtrSize || t == a)
    ensures Run(TierSlots(0), a, t) == Plan(a, t)
  {
    RunIsLoopRun(0, a, t);
    PlanInTier(a, t);
  }

  lemma DirectLoopFills(w: Walk, ino: Word, num: nat)
    requires !w.failed && 0 <= w.index && w.allocatedSize <= num
    ensures var r := RunLoop(w, DirectPtrSize, num, DirectBody(ino));
            var t := Target(w.index, w.allocatedSize, num, DirectPtrSize);
            && w.index <= t
            && BodyEffect(w, r, Run(TierSlots(0), w.index, t))
            && (!r.failed ==> r.index == t && r.allocatedSize == w.allocatedSize + (t - w.index))
  {
    DirectBodyFills(ino);
    RunLoopFills(w, DirectPtrSize, num, DirectBody(ino), TierSlots(0));
  }

  /** The first loop, entered at block index a, fills the plan from a to
      where it stops. */
  lemma DirectStage(w: Walk, ino: Word, num: nat)
    requires !w.failed && w.allocatedSize <= num && 0 <= w.index <= MaxBlocks
    ensures StageEffect(PlanF(), w, RunLoop(w, DirectPtrSize, num, DirectBody(ino)), w.index,
                        TierEnd(0, DirectPtrSize, w.index, w.allocatedSize, num), 0, num)
  {
    var t := Target(w.index, w.allocatedSize, num, DirectPtrSize);
    assert TierEnd(0, DirectPtrSize, w.index, w.allocatedSize, num) == t;
    DirectLoopFills(w, ino, num);
    DirectRunIsPlan(w.index, t);
    assert PlanF()(w.index, t) == Plan(w.index, t);
  }

  lemma DirectReaches(ino: Word, num: nat)
    ensures Reaches(PlanF(), DirectF(ino, num), 0, 0, DirectEnd(num), num)
  {
    forall w: Walk | !w.failed && w.allocatedSize <= num && 0 <= 0 + w.index <= MaxBlocks
      ensures StageEffect(PlanF(), w, DirectF(ino, num)(w), 0 + w.index,
                          DirectEnd(num)(0 + w.index, w.allocatedSize), 0, num)
    {
      DirectStage(w, ino, num);
    }
  }

  /** inode_extend_sector into slot s fills exactly [s]. */
  lemma FillEffect(w: Walk, parent: Word, s: Slot)
    requires ValidSlot(s) && !w.failed
    ensures BodyEffect(w, Fill(w, parent, s), [s])
  {
  }

  lemma IndirectLoopFills(w: Walk, ind: Word, num: nat)
    requires !w.failed && 0 <= w.index && w.allocatedSize <= num
    ensures var r := RunLoop(w, IndirectPtrSize, num, IndirectBody(ind));
            var t := Target(w.index, w.allocatedSize, num, IndirectPtrSize);
            && w.index <= t
            && BodyEffect(w, r, Run(TierSlots(DirectPtrSize), w.index, t))
            && (!r.failed ==> r.index == t && r.allocatedSize == w.allocatedSize + (t - w.index))
  {
    IndirectBodyFills(ind);
    RunLoopFills(w, IndirectPtrSize, num, IndirectBody(ind), TierSlots(DirectPtrSize));
  }

  lemma DblLoopFills(w: Walk, dbl: Word, num: nat)
    requires !w.failed && 0 <= w.index && w.allocatedSize <= num
    ensures var r := RunLoop(w, DblIndirectPtrSize, num, DblBody(dbl));
            var t := Target(w.index, w.allocatedSize, num, DblIndirectPtrSize);
            && w.index <= t
            && BodyEffect(w, r, Run(TierSlots(DirectPtrSize + IndirectPtrSize), w.index, t))
            && (!r.failed ==> r.index == t && r.allocatedSize == w.allocatedSize + (t - w.index))
  {
    DblBodyFills(dbl);
    RunLoopFills(w, DblIndirectPtrSize, num, DblBody(dbl), TierSlots(DirectPtrSize + IndirectPtrSize));
  }

  /** Growth from loop index i to t of the tier starting at block `first`
      fills the tier's heading block when i is 0, then what the loop fills. */
  lemma TierRunIsPlan(first: nat, top: Slot, i: nat, t: nat)
    requires (first == DirectPtrSize && top == Indirect) ||
             (first == DirectPtrSize + IndirectPtrSize && top == DblIndirect)
    requires i < t && first + t <= MaxBlocks
    requires first == DirectPtrSize ==> t <= IndirectPtrSize
    ensures Plan(first + i, first + t) == (if i == 0 then [top] else []) + Run(TierSlots(first), i, t)
  {
    RunIsLoopRun(first, i, t);
    PlanInTier(first + i, first + t);
  }

  /** The indirect tier, entered at loop index i with allocated_size below
      num, fills the heading block if i is 0 and then runs the second loop. */
  lemma IndirectTierRuns(w: Walk, ino: Word, num: nat)
    requires !w.failed && w.allocatedSize < num && 0 <= w.index < IndirectPtrSize
    ensures var r := IndirectTier(w, ino, num);
            var t := Target(w.index, w.allocatedSize, num, IndirectPtrSize);
            && w.index < t <= IndirectPtrSize
            && BodyEffect(w, r, (if w.index == 0 then [Indirect] else []) + Run(TierSlots(DirectPtrSize), w.index, t))
            && (!r.failed ==> r.index == t && r.allocatedSize == w.allocatedSize + (t - w.index))
  {
    var top: seq<Slot> := if w.index == 0 then [Indirect] else [];
    var w1 := if w.index == 0 then Fill(w, ino, Indirect) else w;
    if w.index == 0 {
      FillEffect(w, ino, Indirect);
    }
    assert BodyEffect(w, w1, top);
    var r := IndirectTier(w, ino, num);
    var t := Target(w.index, w.allocatedSize, num, IndirectPtrSize);
    if !w1.failed {
      IndirectLoopFills(w1, GetWord(w1.d, ino, IndirectOfs), num);
    }
    EffectThen(w, w1, r, top, Run(TierSlots(DirectPtrSize), w.index, t));
  }

  /** The double-indirect tier, entered at loop index i with allocated_size
      below num, fills the heading block if i is 0 and then runs the third
      loop. */
  lemma DblTierRuns(w: Walk, ino: Word, num: nat)
    requires !w.failed && w.allocatedSize < num && 0 <= w.index < DblIndirectPtrSize
    ensures var r := DblTier(w, ino, num);
            var t := Target(w.index, w.allocatedSize, num, DblIndirectPtrSize);
            && w.index < t <= DblIndirectPtrSize
            && BodyEffect(w, r, (if w.index == 0 then [DblIndirect] else []) +
                                Run(TierSlots(DirectPtrSize + IndirectPtrSize), w.index, t))
            && (!r.failed ==> r.index == t && r.allocatedSize == w.allocatedSize + (t - w.index))
  {
    var top: seq<Slot> := if w.index == 0 then [DblIndirect] else [];
    var w1 := if w.index == 0 then Fill(w, ino, DblIndirect) else w;
    if w.index == 0 {
      FillEffect(w, ino, DblIndirect);
    }
    assert BodyEffect(w, w1, top);
    var r := DblTier(w, ino, num);
    var t := Target(w.index, w.allocatedSize, num, DblIndirectPtrSize);
    if !w1.failed {
      DblLoopFills(w1, GetWord(w1.d, ino, DblIndirectOfs), num);
    }
    EffectThen(w, w1, r, top, Run(TierSlots(DirectPtrSize + IndirectPtrSize), w.index, t));
  }

  /** A tier the walk is not in, or with nothing left to allocate, changes
      nothing. */
  lemma IdleStage(w: Walk, a: int, num: nat)
    requires !w.failed && w.allocatedSize <= num && 0 <= a <= MaxBlocks
    ensures StageEffect(PlanF(), w, w, a, a, a - w.index, num)
  {
    assert PlanF()(a, a) == [];
  }

  /** A tier that ran its loop from loop index w.index to t, after
      filling its heading block if it started at loop index 0, is a stage
      that filled the plan between the corresponding block indices. */
  lemma TierStage(w: Walk, r: Walk, first: nat, top: Slot, t: nat, num: nat)
    requires (first == DirectPtrSize && top == Indirect) ||
             (first == DirectPtrSize + IndirectPtrSize && top == DblIndirect)
    requires !w.failed && 0 <= w.index < t && first + t <= MaxBlocks
    requires first == DirectPtrSize ==> t <= IndirectPtrSize
    requires t - w.index <= num - w.allocatedSize
    requires BodyEffect(w, r, (if w.index == 0 then [top] else []) + Run(TierSlots(first), w.index, t))
    requires !r.failed ==> r.index == t && r.allocatedSize == w.allocatedSize + (t - w.index)
    ensures StageEffect(PlanF(), w, r, first + w.index, first + t, first, num)
  {
    TierRunIsPlan(first, top, w.index, t);
    assert PlanF()(first + w.index, first + t) == Plan(first + w.index, first + t);
  }

  /** The indirect tier, entered at block index a, fills the plan from a
      to where the second loop stops. */
  lemma IndirectStage(w: Walk, ino: Word, num: nat)
    requires !w.failed && w.allocatedSize <= num
    requires 0 <= DirectPtrSize + w.index <= MaxBlocks
    ensures StageEffect(PlanF(), w, IndirectTier(w, ino, num), DirectPtrSize + w.index,
                        TierEnd(DirectPtrSize, IndirectPtrSize, DirectPtrSize + w.index, w.allocatedSize, num),
                        DirectPtrSize, num)
  {
    var a := DirectPtrSize + w.index;
    var c := TierEnd(DirectPtrSize, IndirectPtrSize, a, w.allocatedSize, num);
    var r := IndirectTier(w, ino, num);
    if 0 <= w.index < IndirectPtrSize && w.allocatedSize < num {
      var t := Target(w.index, w.allocatedSize, num, IndirectPtrSize);
      IndirectTierRuns(w, ino, num);
      TierStage(w, r, DirectPtrSize, Indirect, t, num);
      assert c == DirectPtrSize + t;
      assert StageEffect(PlanF(), w, r, a, c, DirectPtrSize, num);
    } else {
      assert r == w;
      IdleStage(w, a, num);
      assert c == a;
      assert StageEffect(PlanF(), w, r, a, c, DirectPtrSize, num);
    }
  }

  lemma IndirectReaches(ino: Word, num: nat)
    ensures Reaches(PlanF(), IndirectF(ino, num), DirectPtrSize, DirectPtrSize, IndirectEnd(num), num)
  {
    forall w: Walk | !w.failed && w.allocatedSize <= num && 0 <= DirectPtrSize + w.index <= MaxBlocks
      ensures StageEffect(PlanF(), w, IndirectF(ino, num)(w), DirectPtrSize + w.index,
                          IndirectEnd(num)(DirectPtrSize + w.index, w.allocatedSize), DirectPtrSize, num)
    {
      IndirectStage(w, ino, num);
    }
  }

  /** The double-indirect tier, entered at block index a, fills the plan
      from a to where the third loop stops. */
  lemma DblStage(w: Walk, ino: Word, num: nat)
    requires !w.failed && w.allocatedSize <= num
    requires 0 <= DirectPtrSize + IndirectPtrSize + w.index <= MaxBlocks
    ensures var base := DirectPtrSize + IndirectPtrSize;
            StageEffect(PlanF(), w, DblTier(w, ino, num), base + w.index,
                        TierEnd(base, DblIndirectPtrSize, base + w.index, w.allocatedSize, num),
                        base, num)
  {
    var base := DirectPtrSize + IndirectPtrSize;
    var a := base + w.index;
    var c := TierEnd(base, DblIndirectPtrSize, a, w.allocatedSize, num);
    var r := DblTier(w, ino, num);
    if 0 <= w.index < DblIndirectPtrSize && w.allocatedSize < num {
      DblStageRuns(w, ino, num);
      assert c == base + Target(w.index, w.allocatedSize, num, DblIndirectPtrSize);
      assert StageEffect(PlanF(), w, r, a, c, base, num);
    } else {
      DblStageIdle(w, ino, num);
      IdleStage(w, a, num);
      assert c == a && r == w;
      assert StageEffect(PlanF(), w, r, a, c, base, num);
    }
  }

  lemma DblStageRuns(w: Walk, ino: Word, num: nat)
    requires !w.failed && w.allocatedSize < num && 0 <= w.index < DblIndirectPtrSize
    ensures var base := DirectPtrSize + IndirectPtrSize;
            var t := Target(w.index, w.allocatedSize, num, DblIndirectPtrSize);
            StageEffect(PlanF(), w, DblTier(w, ino, num), base + w.index, base + t, base, num)
  {
    var base := DirectPtrSize + IndirectPtrSize;
    var t := Target(w.index, w.allocatedSize, num, DblIndirectPtrSize);
    var r := DblTier(w, ino, num);
    DblTierRuns(w, ino, num);
    assert t - w.index <= num - w.allocatedSize && base + t <= MaxBlocks;
    TierStage(w, r, base, DblIndirect, t, num);
  }

  /** Past the end of the block map, or with nothing left to allocate, the
      third loop does not start. */
  lemma DblStageIdle(w: Walk, ino: Word, num: nat)
    requires !w.failed && w.allocatedSize <= num
    requires 0 <= DirectPtrSize + IndirectPtrSize + w.index <= MaxBlocks
    requires !(0 <= w.index < DblIndirectPtrSize && w.allocatedSize < num)
    ensures DblTier(w, ino, num) == w
  {
    if 0 <= w.index && w.allocatedSize < num {
      assert RunLoop(w, DblIndirectPtrSize, num, DblBody(GetWord(w.d, ino, DblIndirectOfs))) == w;
    }
  }

  lemma DblReaches(ino: Word, num: nat)
    ensures Reaches(PlanF(), DblF(ino, num), DirectPtrSize + IndirectPtrSize, DirectPtrSize + IndirectPtrSize,
                    DblEnd(num), num)
  {
    forall w: Walk | !w.failed && w.allocatedSize <= num
                     && 0 <= DirectPtrSize + IndirectPtrSize + w.index <= MaxBlocks
      ensures StageEffect(PlanF(), w, DblF(ino, num)(w), DirectPtrSize + IndirectPtrSize + w.index,
                          DblEnd(num)(DirectPtrSize + IndirectPtrSize + w.index, w.allocatedSize),
                          DirectPtrSize + IndirectPtrSize, num)
    {
      DblStage(w, ino, num);
    }
  }

  /** Where the three loops together stop: num blocks past `begin`, or the
      end of the block map. */
  lemma StopsAt(begin: nat, num: nat)
    requires begin <= MaxBlocks && 0 < num
    ensures ThenEnd(DirectEnd(num), ThenEnd(IndirectEnd(num), DblEnd(num)))(begin, 0)
            == Min(MaxBlocks, begin + num)
  {
    var t1 := TierEnd(0, DirectPtrSize, begin, 0, num);
    var t2 := TierEnd(DirectPtrSize, IndirectPtrSize, t1, t1 - begin, num);
    var t3 := TierEnd(DirectPtrSize + IndirectPtrSize, DblIndirectPtrSize, t2, (t1 - begin) + (t2 - t1), num);
    assert t3 == Min(MaxBlocks, begin + num);
  }

  /** The second and third loops, as one stage. */
  function LaterF(ino: Word, num: nat): Walk -> Walk
  {
    ThenF(IndirectF(ino, num), DblF(ino, num), IndirectPtrSize)
  }

  function LaterEnd(num: nat): (int, int) -> int
  {
    ThenEnd(IndirectEnd(num), DblEnd(num))
  }

  lemma LaterReaches(ino: Word, num: nat)
    ensures Reaches(PlanF(), LaterF(ino, num), DirectPtrSize, DirectPtrSize + IndirectPtrSize, LaterEnd(num), num)
  {
    PlanFSplits();
    IndirectReaches(ino, num);
    DblReaches(ino, num);
    ThenReaches(PlanF(), IndirectF(ino, num), DblF(ino, num), IndirectPtrSize,
                DirectPtrSize, DirectPtrSize, DirectPtrSize + IndirectPtrSize, IndirectEnd(num), DblEnd(num), num);
  }

  /** The three loops of inode_extend_sectors, entered at block index
      `index` with nothing allocated yet, form a stage. */
  lemma GrowStage(w: Walk, ino: Word, num: nat)
    requires !w.failed && w.allocatedSize == 0 && 0 <= w.index <= MaxBlocks
    ensures StageEffect(PlanF(), w, Grow(w, ino, num), w.index,
                        ThenEnd(DirectEnd(num), LaterEnd(num))(w.index, 0),
                        DirectPtrSize + IndirectPtrSize, num)
  {
    PlanFSplits();
    DirectReaches(ino, num);
    LaterReaches(ino, num);
    ThenStep(PlanF(), DirectF(ino, num), LaterF(ino, num), DirectPtrSize, 0, 0, DirectPtrSize + IndirectPtrSize,
             DirectEnd(num), LaterEnd(num), num, w);
  }

  /** Growth from block index `begin` by num blocks fills exactly the plan
      from begin to begin + num (cut off at the end of the block map), or
      fails exactly when the free map holds fewer sectors than that plan. */
  lemma GrowFills(w: Walk, ino: Word, num: nat)
    requires !w.failed && w.allocatedSize == 0 && 0 <= w.index <= MaxBlocks && 0 < num
    ensures var e := Min(MaxBlocks, w.index + num);
            var r := Grow(w, ino, num);
            && w.index <= e
            && BodyEffect(w, r, Plan(w.index, e))
            && (!r.failed ==> r.allocatedSize == e - w.index)
  {
    GrowStage(w, ino, num);
    StopsAt(w.index, num);
    var e := Min(MaxBlocks, w.index + num);
    assert PlanF()(w.index, e) == Plan(w.index, e);
  }

  datatype Outcome =
    | Extended      // returned true
    | Failed        // returned false
    | AssertFails   // ASSERT (allocated_size == num) fires: the kernel panics

  /** The result of inode_extend_sectors: the store and free map after the
      call, and the slots filled with the sectors taken (before any
      rollback). */
  datatype Extension = Extension(outcome: Outcome, d: Disk, fm: FreeMap,
                                 filled: seq<Slot>, taken: seq<Word>)

  /** A failed allocation returns every sector taken during this call to
      the free map, most recent first. The pointers already written stay in
      the store, in slots of blocks past the old length; the slots of the
      blocks the file already had are untouched
      (`InodeExtendStore.ExtendSectorsStores`). */
  function Rollback(w: Walk): Extension
  {
    Extension(Failed, w.d, ReleaseBackward(w.fm, w.taken), w.filled, w.taken)
  }

  /** inode_extend_sectors: extend the block map of the inode at sector ino
      by num sectors, starting at the first block index past its length.
      The length of a well-formed inode never exceeds what the block map
      can address. */
  function ExtendSectors(d: Disk, fm: FreeMap, ino: Word, num: int): (r: Extension)
    requires Length(d, ino) <= MaxFileBytes
    ensures num == 0 ==> r.outcome == Extended && r.d == d && r.fm == fm
    ensures num < 0 || num > DblIndirectPtrSize ==> r.outcome == Failed && r.d == d && r.fm == fm
  {
    if num == 0 then Extension(Extended, d, fm, [], [])
    else if num < 0 || num > DblIndirectPtrSize then Extension(Failed, d, fm, [], [])
    else
      var w := Grow(Walk(d, fm, BytesToSectors(Length(d, ino)), 0, [], [], false), ino, num);
      if w.failed then Rollback(w)
      else if w.allocatedSize == num then Extension(Extended, w.d, w.fm, w.filled, w.taken)
      else Extension(AssertFails, w.d, w.fm, w.filled, w.taken)
  }

  /** The outcome of inode_extend_sectors for 0 < num <= N * N, growing from
      block index begin = ceil(length / 512): with plan the slots that
      growth to begin + num fills (cut off at the end of the block map),
      it fails, returning every sector it took, exactly when the free map
      holds fewer sectors than the plan; otherwise it fills the plan with
      the first free sectors in order, and it returns true exactly when
      begin + num blocks fit in the block map (else its ASSERT fires). */
  lemma ExtendSectorsOutcome(d: Disk, fm: FreeMap, ino: Word, num: int)
    requires Length(d, ino) <= MaxFileBytes && 0 < num <= DblIndirectPtrSize
    ensures var begin := BytesToSectors(Length(d, ino));
            var e := Min(MaxBlocks, begin + num);
            var plan := Plan(begin, e);
            var r := ExtendSectors(d, fm, ino, num);
            && begin <= e
            && (|fm.free| < |plan| ==> r.outcome == Failed && r.fm == fm)
            && (|fm.free| >= |plan| ==>
                  && r.filled == plan
                  && r.taken == fm.free[..|plan|]
                  && r.fm.free == fm.free[|plan|..]
                  && (r.outcome == Extended <==> begin + num <= MaxBlocks)
                  && (r.outcome == AssertFails <==> begin + num > MaxBlocks))
  {
    var begin := BytesToSectors(Length(d, ino));
    assert begin <= MaxBlocks;
    var w0 := Walk(d, fm, begin, 0, [], [], false);
    GrowFills(w0, ino, num);
    var w := Grow(w0, ino, num);
    var plan := Plan(begin, Min(MaxBlocks, begin + num));
    if !w.failed {
      assert w.taken + w.fm.free == fm.free;
      assert w.taken == fm.free[..|plan|];
    }
  }
}

=== FILE: inode_extend_store.dfy ===
/** What growth of the block map leaves in the store. Every inode_extend_sector
    call of inode_extend_sectors writes one pointer word; this module shows
    that, on a well-separated inode, each of those writes lands in the slot
    that the lookup of that slot reads, and disturbs no pointer that an
    earlier block, or an earlier write of the same call, depends on. */
module InodeExtendStore {
  import opened Machine
  import opened BlockStore
  import opened Allocator
  import opened InodeLayout
  import opened InodeExtend

  // ---------------------------------------------------------------------
  // The shape of the pointer tree

  /** The pointer slot whose sector holds slot t; None for the fields of
      the inode record itself. */
  function ParentSlot(t: Slot): Option<Slot>
  {
    match t
    case IndirectEntry(_) => Some(Indirect)
    case DblEntry(_) => Some(DblIndirect)
    case DblLeaf(j, _) => Some(DblEntry(j))
    case _ => None
  }

  /** Distance of slot t from the inode record. */
  function Depth(t: Slot): nat
  {
    match t
    case IndirectEntry(_) => 1
    case DblEntry(_) => 1
    case DblLeaf(_, _) => 2
    case _ => 0
  }

  /** The slots that hold the sector of a pointer block. */
  predicate IsPtrSlot(t: Slot)
  {
    t.Indirect? || t.DblIndirect? || t.DblEntry?
  }

  /** The pointer slots that head a tier. */
  predicate IsTop(t: Slot)
  {
    t.Indirect? || t.DblIndirect?
  }

  /** The tier of the block map a slot belongs to: direct, indirect or
      double-indirect. */
  function Tier(t: Slot): nat
  {
    match t
    case Direct(_) => 0
    case Indirect => 1
    case IndirectEntry(_) => 1
    case _ => 2
  }

  /** The first block index whose lookup reads slot t. Growth fills t
      while it allocates that block, so the slots a file of b blocks
      already uses are exactly those with FirstBlock below b. */
  function FirstBlock(t: Slot): nat
  {
    match t
    case Direct(i) => i
    case Indirect => DirectPtrSize
    case IndirectEntry(i) => DirectPtrSize + i
    case DblIndirect => DirectPtrSize + IndirectPtrSize
    case DblEntry(j) => DirectPtrSize + IndirectPtrSize + j * 128
    case DblLeaf(j, i) => DirectPtrSize + IndirectPtrSize + j * 128 + i
  }

  /** The sector holding slot t is the inode record or the sector stored
      in t's parent slot, which is a pointer slot used no later than t. */
  lemma ParentShape(d: Disk, ino: Word, t: Slot)
    requires ValidSlot(t)
    ensures ParentSlot(t).Some? ==>
              && ValidSlot(ParentSlot(t).value)
              && IsPtrSlot(ParentSlot(t).value)
              && Depth(ParentSlot(t).value) < Depth(t)
              && FirstBlock(ParentSlot(t).value) <= FirstBlock(t)
    ensures SlotParent(d, ino, t) ==
              if ParentSlot(t).None? then ino else ReadSlot(d, ino, ParentSlot(t).value)
  {
  }

  /** Slot offsets are word aligned. */
  lemma OffsetAligned(t: Slot)
    ensures SlotOffset(t) % 4 == 0
  {
  }

  /** Two different slots of the same sector lie at different offsets. */
  lemma SiblingsApart(a: Slot, s: Slot)
    requires ValidSlot(a) && ValidSlot(s) && a != s && ParentSlot(a) == ParentSlot(s)
    ensures SlotOffset(a) != SlotOffset(s)
  {
  }

  /** Where slot t lies in the store: its sector and its byte offset. */
  function Loc(d: Disk, ino: Word, t: Slot): (Word, nat)
    requires ValidSlot(t)
  {
    (SlotParent(d, ino, t), SlotOffset(t))
  }

  /** Slot s lies in none of the words the lookup of slot t reads. */
  predicate Apart(d: Disk, ino: Word, s: Slot, t: Slot)
    requires ValidSlot(s) && ValidSlot(t)
    decreases Depth(t)
  {
    && Loc(d, ino, t) != Loc(d, ino, s)
    && (ParentSlot(t).Some? ==> Apart(d, ino, s, ParentSlot(t).value))
  }

  /** Writing slot s leaves the lookup of every slot apart from it
      unchanged. */
  lemma {:induction false} WriteFrame(d: Disk, ino: Word, s: Slot, v: Word, t: Slot)
    requires ValidSlot(s) && ValidSlot(t) && Apart(d, ino, s, t)
    ensures ReadSlot(PutWord(d, SlotParent(d, ino, s), SlotOffset(s), v), ino, t) == ReadSlot(d, ino, t)
    decreases Depth(t)
  {
    var p, o := SlotParent(d, ino, s), SlotOffset(s);
    var d' := PutWord(d, p, o, v);
    var pt, ot := SlotParent(d, ino, t), SlotOffset(t);
    OffsetAligned(s);
    OffsetAligned(t);
    assert SlotParent(d', ino, t) == pt by {
      ParentShape(d, ino, t);
      ParentShape(d', ino, t);
      if ParentSlot(t).Some? {
        WriteFrame(d, ino, s, v, ParentSlot(t).value);
      }
    }
    assert Loc(d, ino, t) != Loc(d, ino, s);
    WordFrame(d, p, o, v, pt, ot);
  }

  /** A word written at one aligned location leaves every other aligned
      word unchanged. */
  lemma WordFrame(d: Disk, p: Word, o: nat, v: Word, pt: Word, ot: nat)
    requires o + 4 <= BlockSectorSize && ot + 4 <= BlockSectorSize
    requires o % 4 == 0 && ot % 4 == 0 && (pt, ot) != (p, o)
    ensures GetWord(PutWord(d, p, o, v), pt, ot) == GetWord(d, pt, ot)
  {
    GetPutWordOther(d, p, o, v, pt, ot);
  }

  // ---------------------------------------------------------------------
  // The slots in use during growth

  /** Slot t is in use during growth that started at block index begin and
      has filled `filled` so far: an earlier block reads it, or this call
      has filled it. */
  predicate Live(begin: nat, filled: seq<Slot>, t: Slot)
  {
    ValidSlot(t) && (FirstBlock(t) < begin || t in filled)
  }

  /** Every slot this call filled hangs below a slot in use. */
  predicate Closed(begin: nat, filled: seq<Slot>)
  {
    forall i :: 0 <= i < |filled| ==>
      ValidSlot(filled[i]) &&
      (ParentSlot(filled[i]).Some? ==> Live(begin, filled, ParentSlot(filled[i]).value))
  }

  /** The pointer blocks in use are distinct sectors, none of them the
      inode record. */
  ghost predicate PtrsSeparate(d: Disk, ino: Word, begin: nat, filled: seq<Slot>)
  {
    && (forall p, q :: Live(begin, filled, p) && Live(begin, filled, q) && IsPtrSlot(p) && IsPtrSlot(q) && p != q ==>
          ReadSlot(d, ino, p) != ReadSlot(d, ino, q))
    && (forall p :: Live(begin, filled, p) && IsPtrSlot(p) ==> ReadSlot(d, ino, p) != ino)
  }

  /** No free sector is a pointer block in use or the inode record, and the
      free list names no sector twice. */
  ghost predicate FreeApart(d: Disk, ino: Word, begin: nat, filled: seq<Slot>, free: seq<Word>)
  {
    && (forall p :: Live(begin, filled, p) && IsPtrSlot(p) ==> ReadSlot(d, ino, p) !in free)
    && ino !in free
    && (forall i, j :: 0 <= i < j < |free| ==> free[i] != free[j])
  }

  /** The parent of a slot in use is in use. */
  lemma LiveParent(begin: nat, filled: seq<Slot>, t: Slot)
    requires Closed(begin, filled) && Live(begin, filled, t) && ParentSlot(t).Some?
    ensures Live(begin, filled, ParentSlot(t).value)
  {
    ParentShape(map[], 0, t);
    if t in filled {
      var i :| 0 <= i < |filled| && filled[i] == t;
    }
  }

  /** A slot not yet in use, hanging below a slot in use, lies apart from
      every slot in use and its ancestors. */
  lemma {:induction false} LiveApart(d: Disk, ino: Word, begin: nat, filled: seq<Slot>, s: Slot, t: Slot)
    requires Closed(begin, filled) && PtrsSeparate(d, ino, begin, filled)
    requires ValidSlot(s) && !Live(begin, filled, s)
    requires ParentSlot(s).Some? ==> Live(begin, filled, ParentSlot(s).value)
    requires Live(begin, filled, t)
    ensures Apart(d, ino, s, t)
    decreases Depth(t)
  {
    ParentShape(d, ino, t);
    ParentShape(d, ino, s);
    if ParentSlot(t) == ParentSlot(s) {
      SiblingsApart(t, s);
    }
    if ParentSlot(t).Some? {
      LiveParent(begin, filled, t);
      LiveApart(d, ino, begin, filled, s, ParentSlot(t).value);
    }
  }

  // ---------------------------------------------------------------------
  // The walk invariant

  /** What growth keeps, from the store d0 it started on: the slots of the
      blocks below begin read as before, each slot filled so far reads the
      sector taken for it, the pointer blocks in use stay separate from each
      other, from the inode record and from the free sectors, and the
      length field is untouched. */
  ghost predicate WalkInv(d0: Disk, ino: Word, begin: nat, w: Walk)
  {
    && |w.filled| == |w.taken|
    && (forall t :: ValidSlot(t) && FirstBlock(t) < begin ==> ReadSlot(w.d, ino, t) == ReadSlot(d0, ino, t))
    && (forall i :: 0 <= i < |w.filled| ==> ValidSlot(w.filled[i]) && ReadSlot(w.d, ino, w.filled[i]) == w.taken[i])
    && Closed(begin, w.filled)
    && PtrsSeparate(w.d, ino, begin, w.filled)
    && FreeApart(w.d, ino, begin, w.filled, w.fm.free)
    && Length(w.d, ino) == Length(d0, ino)
  }

  /** Filling slot s with a free sector changes no slot in use. */
  lemma FillFrame(ino: Word, begin: nat, w: Walk, s: Slot, r: Walk)
    requires Closed(begin, w.filled) && PtrsSeparate(w.d, ino, begin, w.filled)
    requires ValidSlot(s) && !Live(begin, w.filled, s)
    requires ParentSlot(s).Some? ==> Live(begin, w.filled, ParentSlot(s).value)
    requires |w.fm.free| > 0 && r.d == PutWord(w.d, SlotParent(w.d, ino, s), SlotOffset(s), w.fm.free[0])
    ensures forall t :: Live(begin, w.filled, t) ==> ReadSlot(r.d, ino, t) == ReadSlot(w.d, ino, t)
  {
    forall t | Live(begin, w.filled, t)
      ensures ReadSlot(r.d, ino, t) == ReadSlot(w.d, ino, t)
    {
      LiveApart(w.d, ino, begin, w.filled, s, t);
      WriteFrame(w.d, ino, s, w.fm.free[0], t);
    }
  }

  /** Filling slot s stores the sector in the slot that s's lookup reads,
      and leaves the length field alone. */
  lemma FillHits(ino: Word, begin: nat, w: Walk, s: Slot, r: Walk)
    requires PtrsSeparate(w.d, ino, begin, w.filled)
    requires ValidSlot(s)
    requires ParentSlot(s).Some? ==> Live(begin, w.filled, ParentSlot(s).value)
    requires ParentSlot(s).Some? ==> ReadSlot(r.d, ino, ParentSlot(s).value) == ReadSlot(w.d, ino, ParentSlot(s).value)
    requires |w.fm.free| > 0 && r.d == PutWord(w.d, SlotParent(w.d, ino, s), SlotOffset(s), w.fm.free[0])
    ensures ReadSlot(r.d, ino, s) == w.fm.free[0]
    ensures Length(r.d, ino) == Length(w.d, ino)
  {
    var p := SlotParent(w.d, ino, s);
    ParentShape(w.d, ino, s);
    ParentShape(r.d, ino, s);
    assert SlotParent(r.d, ino, s) == p;
    GetPutWordSame(w.d, p, SlotOffset(s), w.fm.free[0]);
    OffsetAligned(s);
    assert p == ino ==> SlotOffset(s) >= DirectOfs;
    WordFrame(w.d, p, SlotOffset(s), w.fm.free[0], ino, LengthOfs);
  }

  /** The pointer blocks stay separate when s is filled with the head of
      the free list. */
  lemma FillSeparate(ino: Word, begin: nat, w: Walk, s: Slot, r: Walk)
    requires PtrsSeparate(w.d, ino, begin, w.filled) && FreeApart(w.d, ino, begin, w.filled, w.fm.free)
    requires ValidSlot(s) && |w.fm.free| > 0
    requires r.filled == w.filled + [s] && r.fm.free == w.fm.free[1..]
    requires forall t :: Live(begin, w.filled, t) ==> ReadSlot(r.d, ino, t) == ReadSlot(w.d, ino, t)
    requires ReadSlot(r.d, ino, s) == w.fm.free[0]
    ensures PtrsSeparate(r.d, ino, begin, r.filled) && FreeApart(r.d, ino, begin, r.filled, r.fm.free)
  {
    var x := w.fm.free[0];
    assert forall t :: Live(begin, r.filled, t) <==> Live(begin, w.filled, t) || t == s;
    assert x !in r.fm.free;
  }

  /** One inode_extend_sector call for a slot not yet in use, whose parent
      slot is in use and is the sector passed in, keeps the invariant, and
      changes no slot in use, whether it succeeds or finds no free sector. */
  lemma FillKeeps(d0: Disk, ino: Word, begin: nat, w: Walk, s: Slot)
    requires WalkInv(d0, ino, begin, w) && !w.failed
    requires ValidSlot(s) && !Live(begin, w.filled, s)
    requires ParentSlot(s).Some? ==> Live(begin, w.filled, ParentSlot(s).value)
    ensures var r := Fill(w, SlotParent(w.d, ino, s), s);
            && WalkInv(d0, ino, begin, r)
            && (forall t :: Live(begin, w.filled, t) ==> ReadSlot(r.d, ino, t) == ReadSlot(w.d, ino, t))
  {
    if |w.fm.free| == 0 {
      FillFailed(w, SlotParent(w.d, ino, s), s);
      WalkInvFailed(d0, ino, begin, w);
    } else {
      FillTakes(d0, ino, begin, w, s);
    }
  }

  /** FillKeeps when a free sector is there to take. */
  lemma FillTakes(d0: Disk, ino: Word, begin: nat, w: Walk, s: Slot)
    requires WalkInv(d0, ino, begin, w) && !w.failed && |w.fm.free| > 0
    requires ValidSlot(s) && !Live(begin, w.filled, s)
    requires ParentSlot(s).Some? ==> Live(begin, w.filled, ParentSlot(s).value)
    ensures var r := Fill(w, SlotParent(w.d, ino, s), s);
            && WalkInv(d0, ino, begin, r)
            && (forall t :: Live(begin, w.filled, t) ==> ReadSlot(r.d, ino, t) == ReadSlot(w.d, ino, t))
  {
    var p := SlotParent(w.d, ino, s);
    var r := Fill(w, p, s);
    {
      assert r.d == PutWord(w.d, p, SlotOffset(s), w.fm.free[0]);
      FillFrame(ino, begin, w, s, r);
      if ParentSlot(s).Some? {
        assert ReadSlot(r.d, ino, ParentSlot(s).value) == ReadSlot(w.d, ino, ParentSlot(s).value);
      }
      FillHits(ino, begin, w, s, r);
      FillSeparate(ino, begin, w, s, r);
      assert forall t :: ValidSlot(t) && FirstBlock(t) < begin ==> Live(begin, w.filled, t);
      forall i | 0 <= i < |r.filled|
        ensures ValidSlot(r.filled[i]) && ReadSlot(r.d, ino, r.filled[i]) == r.taken[i]
      {
        if i < |w.filled| {
          assert Live(begin, w.filled, w.filled[i]);
        }
      }
      assert Closed(begin, r.filled) by {
        assert forall t :: Live(begin, w.filled, t) ==> Live(begin, r.filled, t);
      }
    }
  }

  // ---------------------------------------------------------------------
  // The loops

  /** A loop body keeps P across one turn of a loop that has not stopped,
      and a turn whose allocation fails leaves a state satisfying Q. */
  ghost predicate StepKeeps(body: Walk -> Walk, P: Walk -> bool, Q: Walk -> bool, limit: nat, num: nat)
  {
    forall w: Walk :: P(w) && !w.failed && w.index < limit && w.allocatedSize < num ==>
      var w1 := body(w);
      && (w1.failed ==> Q(w1))
      && (!w1.failed ==> P(w1.(index := w.index + 1, allocatedSize := w.allocatedSize + 1)))
  }

  /** A loop whose body keeps P ends in a state satisfying P, or, when an
      allocation failed, in one satisfying Q. */
  lemma {:induction false} RunLoopKeeps(w: Walk, limit: nat, num: nat, body: Walk -> Walk,
                                        P: Walk -> bool, Q: Walk -> bool)
    requires StepKeeps(body, P, Q, limit, num) && P(w) && !w.failed
    ensures var r := RunLoop(w, limit, num, body);
            && (!r.failed ==> P(r))
            && (r.failed ==> Q(r))
    decreases limit - w.index
  {
    if w.allocatedSize < num && w.index < limit {
      var w1 := body(w);
      RunLoopStep(w, limit, num, body);
      if !w1.failed {
        RunLoopKeeps(w1.(index := w.index + 1, allocatedSize := w.allocatedSize + 1), limit, num, body, P, Q);
      }
    }
  }

  /** The walk invariant as a predicate on walks, for the failure side of
      the loops. */
  ghost function InvF(d0: Disk, ino: Word, begin: nat): Walk -> bool
  {
    (w: Walk) => WalkInv(d0, ino, begin, w)
  }

  /** Every slot filled so far lies in an earlier tier than T, or in tier T
      as its heading block or below block index c. */
  predicate Placed(filled: seq<Slot>, tier: nat, c: int)
  {
    forall i :: 0 <= i < |filled| ==>
      Tier(filled[i]) < tier || (Tier(filled[i]) == tier && (IsTop(filled[i]) || FirstBlock(filled[i]) < c))
  }

  predicate TierBelow(filled: seq<Slot>, tier: nat)
  {
    forall i :: 0 <= i < |filled| ==> Tier(filled[i]) < tier
  }

  /** A slot of tier T that first serves block c is not yet in use. */
  lemma NotLive(begin: nat, filled: seq<Slot>, tier: nat, c: int, s: Slot)
    requires Placed(filled, tier, c) && begin <= c
    requires Tier(s) == tier && !IsTop(s) && FirstBlock(s) == c
    ensures !Live(begin, filled, s)
  {
  }

  /** The heading block of a tier not entered yet is not in use. */
  lemma TopNotLive(begin: nat, filled: seq<Slot>, s: Slot)
    requires TierBelow(filled, Tier(s)) && begin <= FirstBlock(s)
    ensures !Live(begin, filled, s)
  {
  }

  /** The first loop: the index is the block index. */
  ghost function DirectInv(d0: Disk, ino: Word, begin: nat): Walk -> bool
  {
    (w: Walk) =>
      && WalkInv(d0, ino, begin, w)
      && begin <= w.index
      && (w.index == begin || w.index <= DirectPtrSize)
      && Placed(w.filled, 0, w.index)
  }

  lemma DirectStepKeeps(d0: Disk, ino: Word, begin: nat, num: nat)
    ensures StepKeeps(DirectBody(ino), DirectInv(d0, ino, begin), InvF(d0, ino, begin), DirectPtrSize, num)
  {
    var P := DirectInv(d0, ino, begin);
    forall w: Walk | P(w) && !w.failed && w.index < DirectPtrSize && w.allocatedSize < num
      ensures var w1 := DirectBody(ino)(w);
              && (w1.failed ==> InvF(d0, ino, begin)(w1))
              && (!w1.failed ==> P(w1.(index := w.index + 1, allocatedSize := w.allocatedSize + 1)))
    {
      var s := Direct(w.index);
      NotLive(begin, w.filled, 0, w.index, s);
      FillKeeps(d0, ino, begin, w, s);
      assert DirectBody(ino)(w) == Fill(w, SlotParent(w.d, ino, s), s);
    }
  }

  /** The second loop: the block index is 12 + index; the indirect block
      is in use and is the sector ind read before the loop. */
  ghost function IndirectInv(d0: Disk, ino: Word, begin: nat, ind: Word): Walk -> bool
  {
    (w: Walk) =>
      && WalkInv(d0, ino, begin, w)
      && 0 <= w.index && begin <= DirectPtrSize + w.index
      && (DirectPtrSize + w.index == begin || w.index <= IndirectPtrSize)
      && Placed(w.filled, 1, DirectPtrSize + w.index)
      && Live(begin, w.filled, Indirect) && ReadSlot(w.d, ino, Indirect) == ind
  }

  lemma IndirectStep(d0: Disk, ino: Word, begin: nat, ind: Word, w: Walk)
    requires IndirectInv(d0, ino, begin, ind)(w) && !w.failed && w.index < IndirectPtrSize
    ensures var w1 := IndirectBody(ind)(w);
            && WalkInv(d0, ino, begin, w1)
            && (!w1.failed ==> IndirectInv(d0, ino, begin, ind)(w1.(index := w.index + 1, allocatedSize := w.allocatedSize + 1)))
  {
    var s := IndirectEntry(w.index);
    NotLive(begin, w.filled, 1, DirectPtrSize + w.index, s);
    ParentShape(w.d, ino, s);
    FillKeeps(d0, ino, begin, w, s);
    var w1 := Fill(w, ind, s);
    assert IndirectBody(ind)(w) == w1;
    if !w1.failed {
      var w2 := w1.(index := w.index + 1, allocatedSize := w.allocatedSize + 1);
      assert WalkInv(d0, ino, begin, w2);
      assert Placed(w2.filled, 1, DirectPtrSize + w2.index);
      assert Live(begin, w2.filled, Indirect);
    }
  }

  lemma IndirectStepKeeps(d0: Disk, ino: Word, begin: nat, ind: Word, num: nat)
    ensures StepKeeps(IndirectBody(ind), IndirectInv(d0, ino, begin, ind), InvF(d0, ino, begin), IndirectPtrSize, num)
  {
    var P := IndirectInv(d0, ino, begin, ind);
    forall w: Walk | P(w) && !w.failed && w.index < IndirectPtrSize && w.allocatedSize < num
      ensures var w1 := IndirectBody(ind)(w);
              && (w1.failed ==> InvF(d0, ino, begin)(w1))
              && (!w1.failed ==> P(w1.(index := w.index + 1, allocatedSize := w.allocatedSize + 1)))
    {
      IndirectStep(d0, ino, begin, ind, w);
    }
  }

  /** The third loop: the block index is 140 + index; the double-indirect
      block is in use and is the sector dbl read before the loop, and so is
      the second-level block of the index unless the index starts one. */
  ghost predicate DblInvAt(d0: Disk, ino: Word, begin: nat, dbl: Word, w: Walk)
  {
    && WalkInv(d0, ino, begin, w)
    && 0 <= w.index && begin <= DirectPtrSize + IndirectPtrSize + w.index
    && Placed(w.filled, 2, DirectPtrSize + IndirectPtrSize + w.index)
    && Live(begin, w.filled, DblIndirect) && ReadSlot(w.d, ino, DblIndirect) == dbl
    && (w.index < DblIndirectPtrSize && w.index % 128 != 0 ==> Live(begin, w.filled, DblEntry(w.index / 128)))
  }

  ghost function DblInv(d0: Disk, ino: Word, begin: nat, dbl: Word): Walk -> bool
  {
    (w: Walk) => DblInvAt(d0, ino, begin, dbl, w)
  }

  /** A data block inside a second-level block already in use. */
  lemma DblLeafKeeps(d0: Disk, ino: Word, begin: nat, dbl: Word, w: Walk, j: nat, i: nat)
    requires WalkInv(d0, ino, begin, w) && !w.failed && j < PtrBlockSize && 0 < i < PtrBlockSize
    requires begin <= DirectPtrSize + IndirectPtrSize + j * 128 + i
    requires Placed(w.filled, 2, DirectPtrSize + IndirectPtrSize + j * 128 + i)
    requires Live(begin, w.filled, DblIndirect) && ReadSlot(w.d, ino, DblIndirect) == dbl
    requires Live(begin, w.filled, DblEntry(j))
    ensures var r := Fill(w, GetWord(w.d, dbl, j * 4), DblLeaf(j, i));
            && WalkInv(d0, ino, begin, r)
            && (!r.failed ==>
              && r.filled == w.filled + [DblLeaf(j, i)]
              && ReadSlot(r.d, ino, DblIndirect) == dbl)
  {
    var s := DblLeaf(j, i);
    NotLive(begin, w.filled, 2, DirectPtrSize + IndirectPtrSize + j * 128 + i, s);
    ParentShape(w.d, ino, s);
    ParentShape(w.d, ino, DblEntry(j));
    assert SlotParent(w.d, ino, s) == GetWord(w.d, dbl, j * 4);
    FillKeeps(d0, ino, begin, w, s);
  }

  /** A new second-level block, then its first data block. */
  lemma NewSecondLevelKeeps(d0: Disk, ino: Word, begin: nat, dbl: Word, w: Walk, j: nat)
    requires WalkInv(d0, ino, begin, w) && !w.failed && j < PtrBlockSize
    requires begin <= DirectPtrSize + IndirectPtrSize + j * 128
    requires Placed(w.filled, 2, DirectPtrSize + IndirectPtrSize + j * 128)
    requires Live(begin, w.filled, DblIndirect) && ReadSlot(w.d, ino, DblIndirect) == dbl
    ensures var r := NewSecondLevel(w, dbl, j);
            && WalkInv(d0, ino, begin, r)
            && (!r.failed ==>
              && r.filled == w.filled + [DblEntry(j), DblLeaf(j, 0)]
              && ReadSlot(r.d, ino, DblIndirect) == dbl)
  {
    var c := DirectPtrSize + IndirectPtrSize + j * 128;
    var e := DblEntry(j);
    NotLive(begin, w.filled, 2, c, e);
    ParentShape(w.d, ino, e);
    FillKeeps(d0, ino, begin, w, e);
    var w1 := Fill(w, dbl, e);
    if !w1.failed {
      NotLive(begin, w.filled, 2, c, DblLeaf(j, 0));
      SecondFill(d0, ino, begin, dbl, w, w1, j);
    }
  }

  /** The first data block of a second-level block just allocated goes
      into that block. */
  lemma SecondFill(d0: Disk, ino: Word, begin: nat, dbl: Word, w: Walk, w1: Walk, j: nat)
    requires j < PtrBlockSize && !w1.failed
    requires WalkInv(d0, ino, begin, w1) && w1.filled == w.filled + [DblEntry(j)]
    requires !Live(begin, w.filled, DblLeaf(j, 0))
    requires Live(begin, w.filled, DblIndirect) && ReadSlot(w1.d, ino, DblIndirect) == dbl
    ensures var r := Fill(w1, w1.taken[|w1.taken| - 1], DblLeaf(j, 0));
            && WalkInv(d0, ino, begin, r)
            && (!r.failed ==>
              && r.filled == w.filled + [DblEntry(j), DblLeaf(j, 0)]
              && ReadSlot(r.d, ino, DblIndirect) == dbl)
  {
    var e, l := DblEntry(j), DblLeaf(j, 0);
    assert w1.filled[|w1.filled| - 1] == e;
    assert ReadSlot(w1.d, ino, e) == w1.taken[|w1.taken| - 1];
    ParentShape(w1.d, ino, l);
    assert Live(begin, w1.filled, e);
    assert Live(begin, w1.filled, DblIndirect);
    FillKeeps(d0, ino, begin, w1, l);
  }

  lemma DblTurn(d0: Disk, ino: Word, begin: nat, dbl: Word, w: Walk)
    requires DblInvAt(d0, ino, begin, dbl, w) && !w.failed && w.index < DblIndirectPtrSize
    ensures var w1 := DblBody(dbl)(w);
            && WalkInv(d0, ino, begin, w1)
            && (!w1.failed ==> DblInvAt(d0, ino, begin, dbl, w1.(index := w.index + 1, allocatedSize := w.allocatedSize + 1)))
  {
    assert DblBody(dbl)(w) == DblStep(w, dbl);
    if w.index % 128 == 0 {
      DblTurnNew(d0, ino, begin, dbl, w);
    } else {
      DblTurnOld(d0, ino, begin, dbl, w);
    }
  }

  /** A turn of the third loop that starts a second-level block. */
  lemma DblTurnNew(d0: Disk, ino: Word, begin: nat, dbl: Word, w: Walk)
    requires DblInvAt(d0, ino, begin, dbl, w) && !w.failed && w.index < DblIndirectPtrSize
    requires w.index % 128 == 0
    ensures var w1 := DblStep(w, dbl);
            && WalkInv(d0, ino, begin, w1)
            && (!w1.failed ==> DblInvAt(d0, ino, begin, dbl, w1.(index := w.index + 1, allocatedSize := w.allocatedSize + 1)))
  {
    var j := w.index / 128;
    var w1 := DblStep(w, dbl);
    assert w.index == j * 128 && j < PtrBlockSize;
    NewSecondLevelKeeps(d0, ino, begin, dbl, w, j);
    if !w1.failed {
      DblTurnAfter(d0, ino, begin, dbl, w, w1, [DblEntry(j), DblLeaf(j, 0)]);
    }
  }

  /** A turn of the third loop inside a second-level block in use. */
  lemma DblTurnOld(d0: Disk, ino: Word, begin: nat, dbl: Word, w: Walk)
    requires DblInvAt(d0, ino, begin, dbl, w) && !w.failed && w.index < DblIndirectPtrSize
    requires w.index % 128 != 0
    ensures var w1 := DblStep(w, dbl);
            && WalkInv(d0, ino, begin, w1)
            && (!w1.failed ==> DblInvAt(d0, ino, begin, dbl, w1.(index := w.index + 1, allocatedSize := w.allocatedSize + 1)))
  {
    var j, i := w.index / 128, w.index % 128;
    var w1 := DblStep(w, dbl);
    assert w.index == j * 128 + i && j < PtrBlockSize;
    DblLeafKeeps(d0, ino, begin, dbl, w, j, i);
    if !w1.failed {
      DblTurnAfter(d0, ino, begin, dbl, w, w1, [DblLeaf(j, i)]);
    }
  }

  /** After one turn of the third loop, which filled `extra`, with the
      counters advanced. */
  lemma DblTurnAfter(d0: Disk, ino: Word, begin: nat, dbl: Word, w: Walk, w1: Walk, extra: seq<Slot>)
    requires DblInvAt(d0, ino, begin, dbl, w) && w.index < DblIndirectPtrSize
    requires WalkInv(d0, ino, begin, w1) && ReadSlot(w1.d, ino, DblIndirect) == dbl
    requires w1.filled == w.filled + extra
    requires forall k :: 0 <= k < |extra| ==>
               Tier(extra[k]) == 2 && FirstBlock(extra[k]) < DirectPtrSize + IndirectPtrSize + w.index + 1
    requires w.index % 128 == 0 ==> DblEntry(w.index / 128) in extra
    ensures DblInvAt(d0, ino, begin, dbl, w1.(index := w.index + 1, allocatedSize := w.allocatedSize + 1))
  {
    var j := w.index / 128;
    var w2 := w1.(index := w.index + 1, allocatedSize := w.allocatedSize + 1);
    var c := DirectPtrSize + IndirectPtrSize + w.index;
    PlacedAppend(w.filled, extra, 2, c, c + 1);
    WalkInvCounters(d0, ino, begin, w1, w.index + 1, w.allocatedSize + 1);
    LiveGrows(begin, w.filled, extra);
    if w2.index < DblIndirectPtrSize && w2.index % 128 != 0 {
      assert w2.index / 128 == j;
    }
  }

  /** Slots filled later keep the earlier ones placed. */
  lemma PlacedAppend(filled: seq<Slot>, extra: seq<Slot>, tier: nat, c: int, c': int)
    requires Placed(filled, tier, c) && c <= c'
    requires forall k :: 0 <= k < |extra| ==> Tier(extra[k]) == tier && FirstBlock(extra[k]) < c'
    ensures Placed(filled + extra, tier, c')
  {
  }

  /** A slot in use stays in use as more slots are filled. */
  lemma LiveGrows(begin: nat, filled: seq<Slot>, extra: seq<Slot>)
    ensures forall t :: Live(begin, filled, t) ==> Live(begin, filled + extra, t)
  {
  }

  /** The invariant does not depend on the loop counters. */
  lemma WalkInvCounters(d0: Disk, ino: Word, begin: nat, w: Walk, index: int, allocatedSize: nat)
    requires WalkInv(d0, ino, begin, w)
    ensures WalkInv(d0, ino, begin, w.(index := index, allocatedSize := allocatedSize))
  {
  }

  /** Nor on the failure flag: a walk stopped by a failed allocation keeps
      the store, free map and slots of the walk before it. */
  lemma WalkInvFailed(d0: Disk, ino: Word, begin: nat, w: Walk)
    requires WalkInv(d0, ino, begin, w)
    ensures WalkInv(d0, ino, begin, w.(failed := true))
  {
  }

  lemma DblStepKeeps(d0: Disk, ino: Word, begin: nat, dbl: Word, num: nat)
    ensures StepKeeps(DblBody(dbl), DblInv(d0, ino, begin, dbl), InvF(d0, ino, begin), DblIndirectPtrSize, num)
  {
    var P := DblInv(d0, ino, begin, dbl);
    forall w: Walk | P(w) && !w.failed && w.index < DblIndirectPtrSize && w.allocatedSize < num
      ensures var w1 := DblBody(dbl)(w);
              && (w1.failed ==> InvF(d0, ino, begin)(w1))
              && (!w1.failed ==> P(w1.(index := w.index + 1, allocatedSize := w.allocatedSize + 1)))
    {
      DblTurn(d0, ino, begin, dbl, w);
    }
  }

  // ---------------------------------------------------------------------
  // The stages and inode_extend_sectors

  /** The first loop, entered at block index begin with nothing filled. */
  lemma DirectKeeps(d0: Disk, ino: Word, begin: nat, w: Walk, num: nat)
    requires WalkInv(d0, ino, begin, w) && !w.failed && w.index == begin && w.filled == []
    ensures var r := RunLoop(w, DirectPtrSize, num, DirectBody(ino));
            && WalkInv(d0, ino, begin, r)
            && (!r.failed ==>
              && begin <= r.index && (r.index == begin || r.index <= DirectPtrSize)
              && TierBelow(r.filled, 1))
  {
    var P := DirectInv(d0, ino, begin);
    DirectStepKeeps(d0, ino, begin, num);
    assert P(w);
    RunLoopKeeps(w, DirectPtrSize, num, DirectBody(ino), P, InvF(d0, ino, begin));
  }

  /** The indirect tier, entered with `index` lowered by DIRECT_PTR_SIZE
      and nothing of that tier filled. */
  lemma IndirectTierKeeps(d0: Disk, ino: Word, begin: nat, v: Walk, num: nat)
    requires WalkInv(d0, ino, begin, v) && !v.failed
    requires begin <= DirectPtrSize + v.index && (DirectPtrSize + v.index == begin || v.index <= 0)
    requires TierBelow(v.filled, 1)
    ensures var r := IndirectTier(v, ino, num);
            && WalkInv(d0, ino, begin, r)
            && (!r.failed ==>
              && begin <= DirectPtrSize + r.index
              && (DirectPtrSize + r.index == begin || r.index <= IndirectPtrSize)
              && TierBelow(r.filled, 2))
  {
    var top := v.index == 0 && v.allocatedSize < num;
    var w1 := if top then Fill(v, ino, Indirect) else v;
    if top {
      TopNotLive(begin, v.filled, Indirect);
      FillKeeps(d0, ino, begin, v, Indirect);
    }
    if !w1.failed {
      assert Placed(w1.filled, 1, DirectPtrSize + w1.index);
      assert w1.index == v.index && w1.allocatedSize == v.allocatedSize;
      if 0 <= w1.index < IndirectPtrSize && w1.allocatedSize < num {
        assert Live(begin, w1.filled, Indirect);
        IndirectLoopKeeps(d0, ino, begin, w1, num);
      }
    }
  }

  /** The second loop, entered with the indirect block in use. */
  lemma IndirectLoopKeeps(d0: Disk, ino: Word, begin: nat, w: Walk, num: nat)
    requires WalkInv(d0, ino, begin, w) && !w.failed && 0 <= w.index < IndirectPtrSize
    requires begin <= DirectPtrSize + w.index
    requires Placed(w.filled, 1, DirectPtrSize + w.index) && Live(begin, w.filled, Indirect)
    ensures var r := RunLoop(w, IndirectPtrSize, num, IndirectBody(GetWord(w.d, ino, IndirectOfs)));
            && WalkInv(d0, ino, begin, r)
            && (!r.failed ==>
              && begin <= DirectPtrSize + r.index
              && (DirectPtrSize + r.index == begin || r.index <= IndirectPtrSize)
              && TierBelow(r.filled, 2))
  {
    var ind := GetWord(w.d, ino, IndirectOfs);
    var P := IndirectInv(d0, ino, begin, ind);
    assert P(w) by {
      assert ReadSlot(w.d, ino, Indirect) == ind;
    }
    IndirectStepKeeps(d0, ino, begin, ind, num);
    RunLoopKeeps(w, IndirectPtrSize, num, IndirectBody(ind), P, InvF(d0, ino, begin));
    var r := RunLoop(w, IndirectPtrSize, num, IndirectBody(ind));
    if !r.failed {
      IndirectInvGives(d0, ino, begin, ind, r);
    }
  }

  lemma IndirectInvGives(d0: Disk, ino: Word, begin: nat, ind: Word, r: Walk)
    requires IndirectInv(d0, ino, begin, ind)(r)
    ensures WalkInv(d0, ino, begin, r)
    ensures begin <= DirectPtrSize + r.index
    ensures DirectPtrSize + r.index == begin || r.index <= IndirectPtrSize
    ensures TierBelow(r.filled, 2)
  {
  }

  /** The double-indirect tier, entered with `index` lowered by
      INDIRECT_PTR_SIZE and nothing of that tier filled. */
  lemma DblTierKeeps(d0: Disk, ino: Word, begin: nat, u: Walk, num: nat)
    requires WalkInv(d0, ino, begin, u) && !u.failed
    requires begin <= DirectPtrSize + IndirectPtrSize + u.index
    requires DirectPtrSize + IndirectPtrSize + u.index == begin || u.index <= 0
    requires TierBelow(u.filled, 2)
    ensures WalkInv(d0, ino, begin, DblTier(u, ino, num))
  {
    var top := u.index == 0 && u.allocatedSize < num;
    var w1 := if top then Fill(u, ino, DblIndirect) else u;
    if top {
      TopNotLive(begin, u.filled, DblIndirect);
      FillKeeps(d0, ino, begin, u, DblIndirect);
    }
    if !w1.failed && 0 <= w1.index && w1.allocatedSize < num {
      var dbl := GetWord(w1.d, ino, DblIndirectOfs);
      var P := DblInv(d0, ino, begin, dbl);
      assert Placed(w1.filled, 2, DirectPtrSize + IndirectPtrSize + w1.index);
      assert Live(begin, w1.filled, DblIndirect);
      if w1.index < DblIndirectPtrSize && w1.index % 128 != 0 {
        var j := w1.index / 128;
        assert FirstBlock(DblEntry(j)) < begin;
      }
      assert P(w1);
      DblStepKeeps(d0, ino, begin, dbl, num);
      RunLoopKeeps(w1, DblIndirectPtrSize, num, DblBody(dbl), P, InvF(d0, ino, begin));
    }
  }

  /** The three loops of inode_extend_sectors keep the invariant. */
  lemma GrowKeeps(d0: Disk, ino: Word, begin: nat, w: Walk, num: nat)
    requires WalkInv(d0, ino, begin, w) && !w.failed && w.index == begin && w.filled == []
    ensures WalkInv(d0, ino, begin, Grow(w, ino, num))
  {
    var r1 := RunLoop(w, DirectPtrSize, num, DirectBody(ino));
    DirectKeeps(d0, ino, begin, w, num);
    assert DirectF(ino, num)(w) == r1;
    if r1.failed {
      assert Grow(w, ino, num) == r1;
    } else {
      var v := r1.(index := r1.index - DirectPtrSize);
      WalkInvCounters(d0, ino, begin, r1, v.index, v.allocatedSize);
      LaterKeeps(d0, ino, begin, v, num);
      assert Grow(w, ino, num) == LaterF(ino, num)(v);
    }
  }

  /** The second and third loops keep the invariant. */
  lemma LaterKeeps(d0: Disk, ino: Word, begin: nat, v: Walk, num: nat)
    requires WalkInv(d0, ino, begin, v) && !v.failed
    requires begin <= DirectPtrSize + v.index && (DirectPtrSize + v.index == begin || v.index <= 0)
    requires TierBelow(v.filled, 1)
    ensures WalkInv(d0, ino, begin, LaterF(ino, num)(v))
  {
    IndirectTierKeeps(d0, ino, begin, v, num);
    var r2 := IndirectTier(v, ino, num);
    assert IndirectF(ino, num)(v) == r2;
    if !r2.failed {
      var u := r2.(index := r2.index - IndirectPtrSize);
      WalkInvCounters(d0, ino, begin, r2, u.index, u.allocatedSize);
      DblTierKeeps(d0, ino, begin, u, num);
      assert DblF(ino, num)(u) == DblTier(u, ino, num);
    }
    assert LaterF(ino, num)(v) == Then(v, IndirectF(ino, num), DblF(ino, num), IndirectPtrSize);
  }

  /** The inode at ino is separate from the free map: the free list names
      no sector twice and holds neither the inode record nor a pointer
      block in use, and the pointer blocks in use are distinct sectors other
      than the inode record. The free-map bitmap and a well-formed inode
      guarantee this in the source. */
  ghost predicate Separated(d: Disk, fm: FreeMap, ino: Word)
  {
    var begin := BytesToSectors(Length(d, ino));
    PtrsSeparate(d, ino, begin, []) && FreeApart(d, ino, begin, [], fm.free)
  }

  /** What inode_extend_sectors leaves in the store, for an inode separate
      from the free map. Whatever the outcome, every slot the file's
      existing blocks use, the pointer of each of those blocks among them,
      reads as before, and the length field is unchanged: a failed call,
      which gives its sectors back, leaves every lookup over the old length
      as it was. A successful call also leaves every slot it filled reading
      the sector it took for that slot, through the pointers as they now
      are. */
  lemma ExtendSectorsStores(d: Disk, fm: FreeMap, ino: Word, num: int)
    requires Length(d, ino) <= MaxFileBytes && Separated(d, fm, ino)
    ensures var r := ExtendSectors(d, fm, ino, num);
            var begin := BytesToSectors(Length(d, ino));
            && (forall t :: ValidSlot(t) && FirstBlock(t) < begin ==> ReadSlot(r.d, ino, t) == ReadSlot(d, ino, t))
            && (forall b :: 0 <= b < begin ==>
                  b < MaxBlocks && ReadSlot(r.d, ino, DataSlot(b).value) == ReadSlot(d, ino, DataSlot(b).value))
            && Length(r.d, ino) == Length(d, ino)
            && (r.outcome == Extended ==>
                  && |r.filled| == |r.taken|
                  && (forall i :: 0 <= i < |r.filled| ==>
                        ValidSlot(r.filled[i]) && ReadSlot(r.d, ino, r.filled[i]) == r.taken[i]))
  {
    var begin := BytesToSectors(Length(d, ino));
    assert begin <= MaxBlocks;
    var r := ExtendSectors(d, fm, ino, num);
    if 0 < num <= DblIndirectPtrSize {
      var w0 := Walk(d, fm, begin, 0, [], [], false);
      assert WalkInv(d, ino, begin, w0);
      GrowKeeps(d, ino, begin, w0, num);
      var w := Grow(w0, ino, num);
      assert r.d == w.d;
    }
    forall b | 0 <= b < begin
      ensures ReadSlot(r.d, ino, DataSlot(b).value) == ReadSlot(d, ino, DataSlot(b).value)
    {
      DataSlotFirstBlock(b);
    }
  }

  /** The lookup of slot t passes through no pointer block that is the
      inode record itself, so it reads the record only in the block-map
      fields. */
  predicate OffRecord(d: Disk, ino: Word, t: Slot)
    requires ValidSlot(t)
    decreases Depth(t)
  {
    ParentSlot(t).Some? ==>
      && ValidSlot(ParentSlot(t).value)
      && ReadSlot(d, ino, ParentSlot(t).value) != ino
      && OffRecord(d, ino, ParentSlot(t).value)
  }

  /** Rewriting the length field leaves every lookup off the record
      unchanged. */
  lemma {:induction false} LengthFrame(d: Disk, ino: Word, v: Word, t: Slot)
    requires ValidSlot(t) && OffRecord(d, ino, t)
    ensures ReadSlot(PutWord(d, ino, LengthOfs, v), ino, t) == ReadSlot(d, ino, t)
    decreases Depth(t)
  {
    var d' := PutWord(d, ino, LengthOfs, v);
    var pt := SlotParent(d, ino, t);
    ParentShape(d, ino, t);
    ParentShape(d', ino, t);
    if ParentSlot(t).Some? {
      LengthFrame(d, ino, v, ParentSlot(t).value);
    }
    assert SlotParent(d', ino, t) == pt;
    OffsetAligned(t);
    assert pt == ino ==> SlotOffset(t) >= DirectOfs;
    WordFrame(d, ino, LengthOfs, v, pt, SlotOffset(t));
  }

  /** A slot of the file's existing blocks, in a store where those slots
      read as in a separated store d, lies off the record. */
  lemma {:induction false} OldOffRecord(d: Disk, d': Disk, ino: Word, begin: nat, t: Slot)
    requires PtrsSeparate(d, ino, begin, [])
    requires forall a :: ValidSlot(a) && FirstBlock(a) < begin ==> ReadSlot(d', ino, a) == ReadSlot(d, ino, a)
    requires ValidSlot(t) && FirstBlock(t) < begin
    ensures OffRecord(d', ino, t)
    decreases Depth(t)
  {
    ParentShape(d', ino, t);
    if ParentSlot(t).Some? {
      var a := ParentSlot(t).value;
      assert Live(begin, [], a);
      OldOffRecord(d, d', ino, begin, a);
    }
  }

  /** The data slot of block b first serves block b. */
  lemma DataSlotFirstBlock(b: nat)
    requires b < MaxBlocks
    ensures ValidSlot(DataSlot(b).value) && FirstBlock(DataSlot(b).value) == b
  {
  }

  /** Growth over a range of block indices fills the data slot of every
      block in the range. */
  lemma {:induction false} PlanHasData(a: nat, c: nat, b: nat)
    requires a <= b < c <= MaxBlocks
    ensures DataSlot(b).value in Plan(a, c)
    decreases c - a
  {
    if a < b {
      PlanHasData(a + 1, c, b);
    } else {
      assert Plan(a, c) == TopBlock(a) + LoopSlots(a) + Plan(a + 1, c);
      assert LoopSlots(a)[|LoopSlots(a)| - 1] == DataSlot(a).value;
    }
  }

  /** After a successful inode_extend_sectors on an inode separate from
      the free map, the lookup of each new block reads a sector that was
      free before the call, and no two new blocks share a sector. */
  lemma ExtendSectorsMapsNewBlocks(d: Disk, fm: FreeMap, ino: Word, num: int)
    requires Length(d, ino) <= MaxFileBytes && Separated(d, fm, ino) && 0 < num <= DblIndirectPtrSize
    ensures var r := ExtendSectors(d, fm, ino, num);
            var begin := BytesToSectors(Length(d, ino));
            r.outcome == Extended ==>
              && (forall b :: begin <= b < begin + num ==>
                    b < MaxBlocks && ReadSlot(r.d, ino, DataSlot(b).value) in fm.free)
              && (forall b1, b2 :: begin <= b1 < b2 < begin + num ==>
                    b2 < MaxBlocks && ReadSlot(r.d, ino, DataSlot(b1).value) != ReadSlot(r.d, ino, DataSlot(b2).value))
  {
    var r := ExtendSectors(d, fm, ino, num);
    var begin := BytesToSectors(Length(d, ino));
    if r.outcome == Extended {
      ExtendSectorsOutcome(d, fm, ino, num);
      ExtendSectorsStores(d, fm, ino, num);
      assert begin + num <= MaxBlocks;
      NewBlocksRead(r.d, ino, begin, num, r.filled, r.taken, fm.free);
    }
  }

  /** A store in which the plan from begin to begin + num reads, slot by
      slot, distinct sectors of a list maps each block of the range to one
      of them, no two blocks to the same one. */
  lemma NewBlocksRead(d: Disk, ino: Word, begin: nat, num: nat, filled: seq<Slot>, taken: seq<Word>, free: seq<Word>)
    requires begin + num <= MaxBlocks && filled == Plan(begin, begin + num)
    requires |filled| <= |free| && taken == free[..|filled|]
    requires forall i, j :: 0 <= i < j < |free| ==> free[i] != free[j]
    requires forall i :: 0 <= i < |filled| ==> ValidSlot(filled[i]) && ReadSlot(d, ino, filled[i]) == taken[i]
    ensures forall b :: begin <= b < begin + num ==> ReadSlot(d, ino, DataSlot(b).value) in free
    ensures forall b1, b2 :: begin <= b1 < b2 < begin + num ==>
              ReadSlot(d, ino, DataSlot(b1).value) != ReadSlot(d, ino, DataSlot(b2).value)
  {
    forall b | begin <= b < begin + num
      ensures ReadSlot(d, ino, DataSlot(b).value) == free[NewBlockIndex(begin, num, b)]
    {
    }
    forall b1, b2 | begin <= b1 < b2 < begin + num
      ensures ReadSlot(d, ino, DataSlot(b1).value) != ReadSlot(d, ino, DataSlot(b2).value)
    {
      var i1, i2 := NewBlockIndex(begin, num, b1), NewBlockIndex(begin, num, b2);
      DataSlotOnto(filled[i1]);
      assert i1 != i2;
    }
  }

  /** The position in the plan of the data slot of block b. */
  ghost function NewBlockIndex(begin: nat, num: nat, b: nat): (i: nat)
    requires begin <= b < begin + num <= MaxBlocks
    ensures i < |Plan(begin, begin + num)| && Plan(begin, begin + num)[i] == DataSlot(b).value
  {
    PlanHasData(begin, begin + num, b);
    var plan := Plan(begin, begin + num);
    var i :| 0 <= i < |plan| && plan[i] == DataSlot(b).value;
    i
  }
}

=== FILE: inode_io.dfy ===
/** inode_read_at and inode_write_at of filesys/inode.c: transfer bytes
    between a caller's buffer and a file, one sector-bounded chunk at a
    time, through byte_to_sector and the buffer cache. */
module InodeIo {
  import opened Machine
  import opened BlockStore
  import opened Allocator
  import opened InodeLayout
  import opened InodeExtend
  import opened InodeLength

  /** Byte pos of the file whose inode record is at sector ino: byte
      pos % 512 of the sector that the data slot of block pos / 512 points
      to. */
  function ByteAt(d: Disk, ino: Word, pos: nat): byte
    requires pos < MaxFileBytes
  {
    Block(d, ReadSlot(d, ino, DataSlot(pos / BlockSectorSize).value))[pos % BlockSectorSize]
  }

  /** Bytes pos .. pos + k of a file lie in the sector of byte pos when
      they do not cross a sector boundary. */
  lemma SameSector(pos: nat, k: nat)
    requires pos % BlockSectorSize + k < BlockSectorSize
    ensures (pos + k) / BlockSectorSize == pos / BlockSectorSize
    ensures (pos + k) % BlockSectorSize == pos % BlockSectorSize + k
  {
  }

  /** The chunk both loops move next: the lesser of what the caller still
      wants, what is left in the file and what is left in the sector. It
      is not positive when the caller wants nothing more or pos is at or
      past the end of the file. */
  function Chunk(left: int, fileLeft: int, pos: nat): (c: int)
    ensures c > 0 <==> left > 0 && fileLeft > 0
    ensures c <= left && c <= fileLeft && c <= BlockSectorSize - pos % BlockSectorSize
    ensures c == left || c == fileLeft || c == BlockSectorSize - pos % BlockSectorSize
  {
    var sectorLeft := BlockSectorSize - pos % BlockSectorSize;
    var minLeft := if fileLeft < sectorLeft then fileLeft else sectorLeft;
    if left < minLeft then left else minLeft
  }

  /** bytes are the values of f from position pos on. */
  ghost predicate Matches(f: nat -> byte, pos: nat, bytes: seq<byte>)
    decreases |bytes|
  {
    |bytes| == 0 || (bytes[0] == f(pos) && Matches(f, pos + 1, bytes[1..]))
  }

  /** Matches, position by position: byte i of bytes is f(pos + i), and
      conversely. */
  lemma {:induction false} MatchesAt(f: nat -> byte, pos: nat, bytes: seq<byte>)
    ensures Matches(f, pos, bytes) <==> forall i :: 0 <= i < |bytes| ==> bytes[i] == f(pos + i)
    decreases |bytes|
  {
    if |bytes| > 0 {
      MatchesAt(f, pos + 1, bytes[1..]);
      if Matches(f, pos, bytes) {
        forall i | 0 < i < |bytes|
          ensures bytes[i] == f(pos + i)
        {
          assert bytes[i] == bytes[1..][i - 1];
          assert pos + 1 + (i - 1) == pos + i;
        }
      }
    }
  }

  lemma {:induction false} MatchesAppend(f: nat -> byte, pos: nat, bytes: seq<byte>, more: seq<byte>)
    requires Matches(f, pos, bytes) && Matches(f, pos + |bytes|, more)
    ensures Matches(f, pos, bytes + more)
    decreases |bytes|
  {
    if |bytes| > 0 {
      MatchesAppend(f, pos + 1, bytes[1..], more);
      var all := bytes + more;
      assert all[0] == bytes[0] == f(pos);
      assert all[1..] == bytes[1..] + more;
      assert Matches(f, pos + 1, all[1..]);
    } else {
      assert bytes + more == more;
    }
  }

  /** The file as a function from positions to bytes; positions past what
      the block map can address read as 0. */
  function View(d: Disk, ino: Word): nat -> byte
  {
    (pos: nat) => if pos < MaxFileBytes then ByteAt(d, ino, pos) else 0
  }

  lemma ViewAt(d: Disk, ino: Word, pos: nat)
    requires pos < MaxFileBytes
    ensures View(d, ino)(pos) == ByteAt(d, ino, pos)
  {
  }

  lemma ViewRange(d: Disk, ino: Word, pos: nat, bytes: seq<byte>)
    requires pos + |bytes| <= MaxFileBytes
    requires forall k :: 0 <= k < |bytes| ==> bytes[k] == ByteAt(d, ino, pos + k)
    ensures forall k :: 0 <= k < |bytes| ==> bytes[k] == View(d, ino)(pos + k)
  {
  }

  /** bytes are the bytes of the file from position pos on. */
  ghost predicate ReadsFrom(d: Disk, ino: Word, pos: nat, bytes: seq<byte>)
  {
    (|bytes| == 0 || pos + |bytes| <= MaxFileBytes) && Matches(View(d, ino), pos, bytes)
  }

  lemma ReadsFromAppend(d: Disk, ino: Word, pos: nat, bytes: seq<byte>, more: seq<byte>)
    requires ReadsFrom(d, ino, pos, bytes) && ReadsFrom(d, ino, pos + |bytes|, more)
    ensures ReadsFrom(d, ino, pos, bytes + more)
  {
    MatchesAppend(View(d, ino), pos, bytes, more);
  }

  /** A chunk that stays inside one sector and inside the file, read from
      the sector byte_to_sector names for its first byte, holds the file's
      bytes. */
  lemma ChunkReadsFrom(d: Disk, ino: Word, pos: nat, sector: Word, chunk: nat)
    requires 0 < chunk && pos + chunk <= Length(d, ino) <= MaxFileBytes
    requires pos % BlockSectorSize + chunk <= BlockSectorSize
    requires ByteToSector(d, ino, pos) == Some(sector)
    ensures ReadsFrom(d, ino, pos, Get(d, sector, pos % BlockSectorSize, chunk))
  {
    assert sector == ReadSlot(d, ino, DataSlot(pos / BlockSectorSize).value);
    var got := Get(d, sector, pos % BlockSectorSize, chunk);
    forall k | 0 <= k < chunk
      ensures got[k] == ByteAt(d, ino, pos + k)
    {
      SameSector(pos, k);
    }
    ViewRange(d, ino, pos, got);
    MatchesAt(View(d, ino), pos, got);
  }

  /** One turn of the loop of inode_read_at: the chunk at offset + |bytes|,
      read from the sector byte_to_sector names, continues the file's bytes
      collected so far. */
  method ReadChunk(d: Disk, ino: Word, offset: nat, bytes: seq<byte>, chunk: nat) returns (got: seq<byte>)
    requires ReadsFrom(d, ino, offset, bytes)
    requires 0 < chunk && offset + |bytes| + chunk <= Length(d, ino) <= MaxFileBytes
    requires (offset + |bytes|) % BlockSectorSize + chunk <= BlockSectorSize
    ensures |got| == chunk
    ensures ReadsFrom(d, ino, offset, bytes + got)
  {
    var pos := offset + |bytes|;
    var sector := ByteToSector(d, ino, pos).value;
    got := Get(d, sector, pos % BlockSectorSize, chunk);
    ChunkReadsFrom(d, ino, pos, sector, chunk);
    ReadsFromAppend(d, ino, offset, bytes, got);
  }

  /** inode_read_at: read up to size bytes from offset. The result holds
      exactly the file's bytes from offset on, up to size of them or up to
      the end of the file, whichever comes first. */
  method ReadAt(d: Disk, ino: Word, size: int32, offset: int32) returns (bytes: seq<byte>)
    requires 0 <= offset
    requires Length(d, ino) <= MaxFileBytes
    ensures var len := Length(d, ino);
            |bytes| == if size <= 0 || offset as int >= len then 0
                       else Min(size as int, len - offset as int)
    ensures ReadsFrom(d, ino, offset as int, bytes)
  {
    var len := Length(d, ino);
    var left: int := size as int;
    var pos: nat := offset as int;
    bytes := [];
    while left > 0
      invariant pos == offset as int + |bytes| && left == size as int - |bytes|
      invariant |bytes| > 0 ==> pos <= len && 0 <= left
      invariant ReadsFrom(d, ino, offset as int, bytes)
      decreases left
    {
      var chunk := Chunk(left, len - pos, pos);
      if chunk <= 0 {
        break;
      }
      var got := ReadChunk(d, ino, offset as int, bytes, chunk);
      bytes := bytes + got;
      left := left - chunk;
      pos := pos + chunk;
    }
  }

  /** Sector s is none of the sectors byte_to_sector passes through on the
      way to data slot slot of the inode at ino: the inode record and the
      pointer blocks above the slot. */
  predicate OffPath(d: Disk, ino: Word, slot: Slot, s: Word)
    requires ValidSlot(slot)
  {
    && s != ino
    && s != SlotParent(d, ino, slot)
    && (slot.DblLeaf? ==> s != GetWord(d, ino, DblIndirectOfs))
  }

  /** A put into a sector off the lookup path of byte pos leaves the
      length and the lookup of pos as they were. */
  lemma PutOffPath(d: Disk, ino: Word, pos: nat, sector: Word, bytes: seq<byte>)
    requires pos % BlockSectorSize + |bytes| <= BlockSectorSize
    requires pos / BlockSectorSize < MaxBlocks
    requires OffPath(d, ino, DataSlot(pos / BlockSectorSize).value, sector)
    ensures var d' := Put(d, sector, pos % BlockSectorSize, bytes);
            var slot := DataSlot(pos / BlockSectorSize).value;
            Length(d', ino) == Length(d, ino) && ReadSlot(d', ino, slot) == ReadSlot(d, ino, slot)
  {
    var ofs := pos % BlockSectorSize;
    var slot := DataSlot(pos / BlockSectorSize).value;
    GetWordAfterPutElsewhere(d, sector, ofs, bytes, ino, LengthOfs);
    match slot
    case Direct(_) =>
      GetWordAfterPutElsewhere(d, sector, ofs, bytes, ino, SlotOffset(slot));
    case IndirectEntry(_) =>
      var parent := GetWord(d, ino, IndirectOfs);
      GetWordAfterPutElsewhere(d, sector, ofs, bytes, ino, IndirectOfs);
      GetWordAfterPutElsewhere(d, sector, ofs, bytes, parent, SlotOffset(slot));
    case DblLeaf(j, _) =>
      var dbl := GetWord(d, ino, DblIndirectOfs);
      var parent := GetWord(d, dbl, j * 4);
      GetWordAfterPutElsewhere(d, sector, ofs, bytes, ino, DblIndirectOfs);
      GetWordAfterPutElsewhere(d, sector, ofs, bytes, dbl, j * 4);
      GetWordAfterPutElsewhere(d, sector, ofs, bytes, parent, SlotOffset(slot));
  }

  /** Bytes put into a sector are read back by a get of the same range. */
  lemma GetPut(d: Disk, s: Word, ofs: nat, bytes: seq<byte>)
    requires ofs + |bytes| <= BlockSectorSize
    ensures Get(Put(d, s, ofs, bytes), s, ofs, |bytes|) == bytes
  {
    PutEffect(d, s, ofs, bytes);
  }

  /** One chunk of inode_write_at read back: bytes put at byte pos % 512 of
      the sector byte_to_sector names for pos are the file's bytes from pos
      on afterwards, as long as that sector is not one of the sectors the
      lookup passes through. */
  lemma WriteChunkReadsBack(d: Disk, ino: Word, pos: nat, sector: Word, bytes: seq<byte>)
    requires 0 < |bytes| && pos + |bytes| <= Length(d, ino) <= MaxFileBytes
    requires pos % BlockSectorSize + |bytes| <= BlockSectorSize
    requires ByteToSector(d, ino, pos) == Some(sector)
    requires OffPath(d, ino, DataSlot(pos / BlockSectorSize).value, sector)
    ensures Length(Put(d, sector, pos % BlockSectorSize, bytes), ino) == Length(d, ino)
    ensures ReadsFrom(Put(d, sector, pos % BlockSectorSize, bytes), ino, pos, bytes)
  {
    var ofs := pos % BlockSectorSize;
    var d' := Put(d, sector, ofs, bytes);
    PutOffPath(d, ino, pos, sector, bytes);
    assert ByteToSector(d', ino, pos) == Some(sector);
    ChunkReadsFrom(d', ino, pos, sector, |bytes|);
    GetPut(d, sector, ofs, bytes);
  }

  /** The effect of an inode_write_at call: the store and free map
      afterwards, the count it returns, and the sector of each chunk
      written, in order; or a kernel panic from the growth it started. */
  datatype WriteOutcome =
    | Written(d: Disk, fm: FreeMap, count: int, sectors: seq<Word>)
    | WritePanicked

  /** The growth inode_write_at asks for before its loop so that the file
      reaches offset + size: the gap up to offset plus size when offset
      lies past the end, else the part of size beyond the end (0: none). */
  function GrowthRequest(len: nat, size: nat, offset: nat): (g: nat)
    ensures len + g == if offset + size > len then offset + size else len
  {
    if len < offset then offset - len + size
    else if size > len - offset then size - (len - offset)
    else 0
  }

  /** The loop of inode_write_at: write buf at offset chunk by chunk,
      re-reading the length and the target sector before each chunk. A
      byte_to_sector failure (-1) becomes sector 0xffffffff, as the int
      result is converted to block_sector_t. Unless a chunk lands on the
      inode record, the length is left alone, and the whole buffer is
      written when the file already reaches offset + |buf|. */
  method WriteLoop(d: Disk, ino: Word, buf: seq<byte>, offset: nat)
    returns (cur: Disk, written: nat, sectors: seq<Word>)
    ensures written <= |buf|
    ensures written == 0 ==> cur == d && sectors == []
    ensures ino !in sectors ==> Length(cur, ino) == Length(d, ino)
    ensures ino !in sectors && offset + |buf| <= Length(d, ino) ==> written == |buf|
  {
    cur := d;
    written := 0;
    sectors := [];
    while written < |buf|
      invariant written <= |buf|
      invariant written == 0 ==> cur == d && sectors == []
      invariant ino !in sectors ==> Length(cur, ino) == Length(d, ino)
      decreases |buf| - written
    {
      var pos: nat := offset + written;
      var chunk := Chunk(|buf| - written, Length(cur, ino) - pos, pos);
      if chunk <= 0 {
        break;
      }
      var sector: Word := match ByteToSector(cur, ino, pos)
                    case Some(s) => s
                    case None => WordLimit - 1;
      var ofs := pos % BlockSectorSize;
      var bytes := buf[written..written + chunk];
      if sector != ino {
        GetWordAfterPutElsewhere(cur, sector, ofs, bytes, ino, LengthOfs);
      }
      cur := Put(cur, sector, ofs, bytes);
      sectors := sectors + [sector];
      written := written + chunk;
    }
  }

  /** inode_write_at: write buf at offset, first growing the file so that
      it reaches offset + |buf| (with the corrected inode_extend_length).
      While writes are denied nothing happens; a failed growth writes
      nothing; otherwise the whole buffer is written and the file is at
      least offset + |buf| long, provided no chunk lands on the inode
      record itself (it never does in a consistent file system: the
      sectors of a file are allocated from the free map). */
  method WriteAt(d: Disk, fm: FreeMap, ino: Word, denyWriteCnt: int, buf: seq<byte>, offset: int32)
    returns (r: WriteOutcome)
    requires 0 <= offset && offset as int + |buf| <= OffMax
    requires Length(d, ino) <= MaxFileBytes
    ensures denyWriteCnt != 0 ==> r == Written(d, fm, 0, [])
    ensures r.Written? ==> 0 <= r.count <= |buf|
    ensures r.Written? && r.count == 0 && 0 < |buf| ==> r.fm == fm && Length(r.d, ino) == Length(d, ino)
    ensures r.Written? && denyWriteCnt == 0 && ino !in r.sectors ==>
              || (r.count == 0 && r.fm == fm && Length(r.d, ino) == Length(d, ino))
              || (r.count == |buf| &&
                  Length(r.d, ino) == Length(d, ino) + GrowthRequest(Length(d, ino), |buf|, offset as int))
  {
    if denyWriteCnt != 0 {
      return Written(d, fm, 0, []);
    }
    var len0 := Length(d, ino);
    var request := GrowthRequest(len0, |buf|, offset as int);
    var d1, fm1 := d, fm;
    if request > 0 {
      var g := ExtendLength(d, fm, ino, request);
      ExtendLengthAllOrNothing(d, fm, ino, request);
      if g.Panicked? {
        return WritePanicked;
      }
      if g.count == 0 {
        return Written(g.d, g.fm, 0, []);
      }
      d1, fm1 := g.d, g.fm;
    }
    assert Length(d1, ino) == len0 + request >= offset as int + |buf|;
    var cur, written, sectors := WriteLoop(d1, ino, buf, offset as int);
    return Written(cur, fm1, written, sectors);
  }
}

=== FILE: inode_layout.dfy ===
/** The on-disk inode of filesys/inode.c and its three-tier block map:
    12 direct pointers, one indirect block of N = 512 / 4 = 128 pointers and
    one double-indirect block of N pointers to blocks of N pointers.
    A pointer slot is named symbolically by `Slot`; `DataSlot` says which
    slot holds the sector of each block index of a file. */
module InodeLayout {
  import opened Machine
  import opened BlockStore

  const SectorPtrSize: nat := 4
  /** PTR_BLOCK_SIZE, the N of the block map. */
  const PtrBlockSize: nat := 128
  const DirectPtrSize: nat := 12
  const IndirectPtrSize: nat := 128
  const DblIndirectPtrSize: nat := 16384
  /** Block indices addressable through the map: 12 + N + N * N. */
  const MaxBlocks: nat := 16524
  const MaxFileBytes: nat := 8460288

  // Byte offsets of the fields of struct inode_disk.
  const LengthOfs: nat := 0
  const IsDirOfs: nat := 4
  const SectorsOfs: nat := 8
  const DirectOfs: nat := 12
  const IndirectOfs: nat := 60
  const DblIndirectOfs: nat := 64
  const MagicOfs: nat := 68

  /** The constants above are the source's expressions evaluated: N is
      BLOCK_SECTOR_SIZE / sizeof (block_sector_t), and the fields of
      struct inode_disk follow one another without gaps. */
  lemma LayoutConstants()
    ensures PtrBlockSize == BlockSectorSize / SectorPtrSize
    ensures IndirectPtrSize == PtrBlockSize
    ensures DblIndirectPtrSize == PtrBlockSize * PtrBlockSize
    ensures MaxBlocks == DirectPtrSize + IndirectPtrSize + DblIndirectPtrSize
    ensures MaxFileBytes == MaxBlocks * BlockSectorSize
    ensures IndirectOfs == DirectOfs + DirectPtrSize * SectorPtrSize
    ensures DblIndirectOfs == IndirectOfs + SectorPtrSize
    ensures MagicOfs == DblIndirectOfs + SectorPtrSize
  {
  }

  /** The length field of the inode record stored at sector ino. */
  function Length(d: Disk, ino: Word): Word
  {
    GetWord(d, ino, LengthOfs)
  }

  /** bytes_to_sectors: the number of sectors that hold size bytes. */
  function BytesToSectors(size: nat): (n: nat)
    ensures n * BlockSectorSize >= size
    ensures n == 0 || (n - 1) * BlockSectorSize < size
  {
    (size + 511) / 512
  }

  /** A pointer slot of the block map of one inode. */
  datatype Slot =
    | Direct(i: nat)            // direct_ptr[i] of the inode record
    | Indirect                  // indirect_ptr of the inode record
    | IndirectEntry(i: nat)     // entry i of the indirect block
    | DblIndirect               // dbl_indirect_ptr of the inode record
    | DblEntry(j: nat)          // entry j of the double-indirect block
    | DblLeaf(j: nat, i: nat)   // entry i of the block that DblEntry(j) points to

  predicate ValidSlot(s: Slot)
  {
    match s
    case Direct(i) => i < DirectPtrSize
    case IndirectEntry(i) => i < PtrBlockSize
    case DblEntry(j) => j < PtrBlockSize
    case DblLeaf(j, i) => j < PtrBlockSize && i < PtrBlockSize
    case _ => true
  }

  /** The slots that hold the sector of a data block (as opposed to the
      sector of a pointer block). */
  predicate IsDataSlot(s: Slot)
  {
    ValidSlot(s) && (s.Direct? || s.IndirectEntry? || s.DblLeaf?)
  }

  /** Byte offset of the slot inside the sector that holds it. */
  function SlotOffset(s: Slot): (ofs: nat)
    ensures ValidSlot(s) ==> ofs + SectorPtrSize <= BlockSectorSize
  {
    match s
    case Direct(i) => DirectOfs + i * 4
    case Indirect => IndirectOfs
    case IndirectEntry(i) => i * 4
    case DblIndirect => DblIndirectOfs
    case DblEntry(j) => j * 4
    case DblLeaf(_, i) => i * 4
  }

  /** The sector holding the slot, found by following the pointers from
      the inode record at sector ino. */
  function SlotParent(d: Disk, ino: Word, s: Slot): Word
    requires ValidSlot(s)
  {
    match s
    case Direct(_) => ino
    case Indirect => ino
    case DblIndirect => ino
    case IndirectEntry(_) => GetWord(d, ino, IndirectOfs)
    case DblEntry(_) => GetWord(d, ino, DblIndirectOfs)
    case DblLeaf(j, _) => GetWord(d, GetWord(d, ino, DblIndirectOfs), j * 4)
  }

  /** The sector number stored in the slot. */
  function ReadSlot(d: Disk, ino: Word, s: Slot): Word
    requires ValidSlot(s)
  {
    GetWord(d, SlotParent(d, ino, s), SlotOffset(s))
  }

  /** The block index whose sector a data slot holds. */
  function BlockOfSlot(s: Slot): nat
    requires IsDataSlot(s)
  {
    match s
    case Direct(i) => i
    case IndirectEntry(i) => DirectPtrSize + i
    case DblLeaf(j, i) => DirectPtrSize + IndirectPtrSize + j * 128 + i
  }

  /** The slot holding the sector of block index b: the tier dispatch of
      byte_to_sector, dividing the double-indirect index by N. */
  function DataSlot(b: nat): (r: Option<Slot>)
    ensures r.Some? <==> b < MaxBlocks
    ensures r.Some? ==> IsDataSlot(r.value) && BlockOfSlot(r.value) == b
  {
    if b < DirectPtrSize then Some(Direct(b))
    else if b < DirectPtrSize + IndirectPtrSize then Some(IndirectEntry(b - DirectPtrSize))
    else if b < MaxBlocks then
      var k := b - DirectPtrSize - IndirectPtrSize;
      Some(DblLeaf(k / 128, k % 128))
    else None
  }

  /** Every data slot is the slot of exactly one block index: DataSlot and
      BlockOfSlot are inverse, so no two blocks share a pointer slot. */
  lemma DataSlotOnto(s: Slot)
    requires IsDataSlot(s)
    ensures DataSlot(BlockOfSlot(s)) == Some(s)
  {
    if s.DblLeaf? {
      var k := s.j * 128 + s.i;
      assert k / 128 == s.j && k % 128 == s.i;
    }
  }

  /** The tiers meet where the source says: block 11 is the last direct
      pointer, block 12 is entry 0 of the indirect block, block 12 + N is
      entry 0 of the first second-level block, and block 12 + 2N starts
      the second one. */
  lemma TierBoundaries()
    ensures DataSlot(DirectPtrSize - 1) == Some(Direct(11))
    ensures DataSlot(DirectPtrSize) == Some(IndirectEntry(0))
    ensures DataSlot(DirectPtrSize + IndirectPtrSize - 1) == Some(IndirectEntry(PtrBlockSize - 1))
    ensures DataSlot(DirectPtrSize + IndirectPtrSize) == Some(DblLeaf(0, 0))
    ensures DataSlot(DirectPtrSize + IndirectPtrSize + PtrBlockSize) == Some(DblLeaf(1, 0))
    ensures DataSlot(MaxBlocks - 1) == Some(DblLeaf(PtrBlockSize - 1, PtrBlockSize - 1))
    ensures DataSlot(MaxBlocks) == None
  {
  }

  /** byte_to_sector: the sector holding byte pos of the file whose inode
      record is at sector ino, or None (the source's -1). */
  function ByteToSector(d: Disk, ino: Word, pos: nat): (r: Option<Word>)
    ensures r.None? <==> pos > Length(d, ino) || pos / 512 >= MaxBlocks
    ensures r.Some? && pos / 512 < DirectPtrSize ==>
              r.value == GetWord(d, ino, DirectOfs + pos / 512 * 4)
    ensures r.Some? && DirectPtrSize <= pos / 512 < DirectPtrSize + IndirectPtrSize ==>
              r.value == GetWord(d, GetWord(d, ino, IndirectOfs),
                                 (pos / 512 - DirectPtrSize) * 4)
    ensures r.Some? && DirectPtrSize + IndirectPtrSize <= pos / 512 ==>
              var k := pos / 512 - DirectPtrSize - IndirectPtrSize;
              r.value == GetWord(d, GetWord(d, GetWord(d, ino, DblIndirectOfs),
                                             k / 128 * 4),
                                 k % 128 * 4)
  {
    if pos > Length(d, ino) then None
    else
      match DataSlot(pos / 512)
      case None => None
      case Some(s) => Some(ReadSlot(d, ino, s))
  }

  /** The block-map lookup as written in byte_to_sector: in the
      double-indirect tier it divides the tier index by BLOCK_SECTOR_SIZE
      (512) instead of by N (128). */
  function DataSlotAsWritten(b: nat): (r: Option<Slot>)
    ensures r.Some? <==> b < MaxBlocks
  {
    if b < DirectPtrSize then Some(Direct(b))
    else if b < DirectPtrSize + IndirectPtrSize then Some(IndirectEntry(b - DirectPtrSize))
    else if b < MaxBlocks then
      var k := b - DirectPtrSize - IndirectPtrSize;
      Some(DblLeaf(k / 512, k % 512))
    else None
  }

  /** The as-written lookup agrees with DataSlot for the first N
      double-indirect blocks, but block 12 + 2N (double-indirect index N)
      is looked up at entry 128 of second-level block 0, whose byte offset
      512 lies outside the sector, while the allocator stored its pointer at
      entry 0 of second-level block 1. */
  lemma DblLookupMismatch()
    ensures forall b :: 0 <= b < DirectPtrSize + IndirectPtrSize + PtrBlockSize ==>
              DataSlotAsWritten(b) == DataSlot(b)
    ensures var b := DirectPtrSize + IndirectPtrSize + PtrBlockSize;
            && DataSlotAsWritten(b) == Some(DblLeaf(0, PtrBlockSize))
            && !ValidSlot(DblLeaf(0, PtrBlockSize))
            && SlotOffset(DblLeaf(0, PtrBlockSize)) == BlockSectorSize
            && DataSlot(b) == Some(DblLeaf(1, 0))
  {
  }
}

=== FILE: inode_length.dfy ===
/** inode_extend_length of filesys/inode.c: grow the recorded length of a
    file by a number of bytes, first into the unused tail ("slack") of its
    last sector and then by whole new sectors. The function as written
    forgets the slack when it records the new length; `ExtendLength` is the
    evidently intended version, `ExtendLengthAsWritten` the code as it
    stands. */
module InodeLength {
  import opened Machine
  import opened BlockStore
  import opened Allocator
  import opened InodeLayout
  import opened InodeExtend
  import opened InodeExtendStore

  /** The bytes still free in the last sector of a file of length len: the
      distance up to the next sector boundary. */
  function Slack(len: nat): (r: nat)
    ensures r < BlockSectorSize && (len + r) % BlockSectorSize == 0
    ensures BytesToSectors(len) * BlockSectorSize == len + r
  {
    if len % BlockSectorSize == 0 then 0 else BlockSectorSize - len % BlockSectorSize
  }

  /** The slack is what the source computes: the length rounded up to a
      sector boundary, minus the length. */
  lemma SlackRoundsUp(len: nat)
    ensures Slack(len) == (len + 511) / 512 * 512 - len
  {
    var q, m := len / 512, len % 512;
    assert len == q * 512 + m;
    if m == 0 {
      assert (len + 511) / 512 == q;
    } else {
      assert (len + 511) / 512 == q + 1;
    }
  }

  /** The length field of inode record ino overwritten with v. */
  function SetLength(d: Disk, ino: Word, v: Word): (r: Disk)
    ensures Length(r, ino) == v
  {
    GetPutWordSame(d, ino, LengthOfs, v);
    PutWord(d, ino, LengthOfs, v)
  }

  /** The effect of an inode_extend_length call: the store and free map
      afterwards and the int it returns, or a kernel panic when the
      ASSERT of inode_extend_sectors fires. */
  datatype Growth =
    | Grown(d: Disk, fm: FreeMap, count: int)
    | Panicked

  /** The number of new sectors a request needs beyond the slack, as
      passed to inode_extend_sectors. */
  function Demand(len: nat, request: nat): (n: nat)
    ensures request <= Slack(len) <==> n == 0
    ensures request > Slack(len) ==>
              (n - 1) * BlockSectorSize < request - Slack(len) <= n * BlockSectorSize
  {
    if request <= Slack(len) then 0 else (request - Slack(len) + 511) / 512
  }

  /** inode_extend_length, corrected: the length recorded after growth is
      the old length plus the whole request, slack included. */
  function ExtendLength(d: Disk, fm: FreeMap, ino: Word, request: Word): (r: Growth)
    requires Length(d, ino) <= MaxFileBytes
  {
    var prev := Length(d, ino);
    if Slack(prev) >= ToInt32(request) as int then
      Grown(SetLength(d, ino, (prev + request) % WordLimit), fm, ToInt32(request) as int)
    else
      var e := ExtendSectors(d, fm, ino, Demand(prev, request));
      match e.outcome
      case Failed => Grown(SetLength(e.d, ino, prev), e.fm, 0)
      case AssertFails => Panicked
      case Extended =>
        assert request - Slack(prev) <= DblIndirectPtrSize * BlockSectorSize;
        Grown(SetLength(e.d, ino, prev + request), e.fm, request)
  }

  /** inode_extend_length as written: after subtracting the slack from the
      request it records the old length + the remainder, so the slack bytes are
      lost from both the new length and the returned count. */
  function ExtendLengthAsWritten(d: Disk, fm: FreeMap, ino: Word, request: Word): (r: Growth)
    requires Length(d, ino) <= MaxFileBytes
  {
    var prev := Length(d, ino);
    if Slack(prev) >= ToInt32(request) as int then
      Grown(SetLength(d, ino, (prev + request) % WordLimit), fm, ToInt32(request) as int)
    else
      var rest := request - Slack(prev);
      var e := ExtendSectors(d, fm, ino, Demand(prev, request));
      match e.outcome
      case Failed => Grown(SetLength(e.d, ino, prev), e.fm, 0)
      case AssertFails => Panicked
      case Extended =>
        assert rest <= DblIndirectPtrSize * BlockSectorSize;
        Grown(SetLength(e.d, ino, prev + rest), e.fm, rest)
  }

  /** A request that fits in the slack allocates nothing: the free map is
      untouched, the whole request is granted, and the new length still
      ends in the last sector the file already had. */
  lemma ExtendLengthWithinSlack(d: Disk, fm: FreeMap, ino: Word, request: Word)
    requires Length(d, ino) <= MaxFileBytes
    requires request <= Slack(Length(d, ino))
    ensures var prev := Length(d, ino);
            var r := ExtendLength(d, fm, ino, request);
            && r.Grown? && r.fm == fm && r.count == request
            && Length(r.d, ino) == prev + request
            && BytesToSectors(prev + request) == BytesToSectors(prev)
  {
    var prev := Length(d, ino);
    assert ToInt32(request) as int == request;
    assert (prev + request) % WordLimit == prev + request;
    assert ExtendLength(d, fm, ino, request) ==
           Grown(SetLength(d, ino, prev + request), fm, request);
  }

  /** A request past the slack that inode_extend_sectors cannot serve —
      more than N * N sectors, or more sectors than the free map holds —
      grants nothing: the return is 0, the length is unchanged and every
      sector taken on the way is free again. */
  lemma ExtendLengthFails(d: Disk, fm: FreeMap, ino: Word, request: Word)
    requires Length(d, ino) <= MaxFileBytes
    requires Slack(Length(d, ino)) < request <= OffMax
    ensures var prev := Length(d, ino);
            var begin := BytesToSectors(prev);
            var num := Demand(prev, request);
            var r := ExtendLength(d, fm, ino, request);
            (num > DblIndirectPtrSize ||
             |fm.free| < |Plan(begin, Min(MaxBlocks, begin + num))|) ==>
              && r.Grown? && r.count == 0 && r.fm == fm
              && Length(r.d, ino) == prev
  {
    var prev := Length(d, ino);
    var num := Demand(prev, request);
    if 0 < num <= DblIndirectPtrSize {
      ExtendSectorsOutcome(d, fm, ino, num);
    }
  }

  /** A request past the slack that the free map can serve either panics
      (the new sectors would run past the block map) or grants the whole
      request: the new length is the old length + request, the sectors it spans are
      exactly the old ones plus the num new ones, those were taken from the
      head of the free map and stored in the slots of Plan, and the file
      still fits the block map. */
  lemma ExtendLengthGrows(d: Disk, fm: FreeMap, ino: Word, request: Word)
    requires Length(d, ino) <= MaxFileBytes
    requires Slack(Length(d, ino)) < request <= OffMax
    requires Demand(Length(d, ino), request) <= DblIndirectPtrSize
    requires var begin := BytesToSectors(Length(d, ino));
             var num := Demand(Length(d, ino), request);
             |fm.free| >= |Plan(begin, Min(MaxBlocks, begin + num))|
    ensures var prev := Length(d, ino);
            var begin := BytesToSectors(prev);
            var num := Demand(prev, request);
            var plan := Plan(begin, Min(MaxBlocks, begin + num));
            var r := ExtendLength(d, fm, ino, request);
            && (r.Panicked? <==> begin + num > MaxBlocks)
            && (r.Grown? ==>
                  && r.count == request
                  && Length(r.d, ino) == prev + request <= MaxFileBytes
                  && BytesToSectors(prev + request) == begin + num
                  && r.fm.free == fm.free[|plan|..]
                  && ExtendSectors(d, fm, ino, num).filled == plan)
  {
    var prev := Length(d, ino);
    var num := Demand(prev, request);
    var begin := BytesToSectors(prev);
    ExtendSectorsOutcome(d, fm, ino, num);
    if begin + num <= MaxBlocks {
      assert prev + request <= MaxFileBytes by {
        assert begin * 512 == prev + Slack(prev);
        assert request - Slack(prev) <= num * 512;
      }
      assert BytesToSectors(prev + request) == begin + num by {
        assert prev + request == begin * 512 + (request - Slack(prev));
        assert (prev + request + 511) / 512 == begin + (request - Slack(prev) + 511) / 512;
      }
    }
  }

  /** Where the as-written version succeeds past the slack, it records and
      returns the request minus the slack: a file whose last sector is not
      full comes out shorter than the caller asked for. */
  lemma ExtendLengthAsWrittenLosesSlack(d: Disk, fm: FreeMap, ino: Word, request: Word)
    requires Length(d, ino) <= MaxFileBytes
    requires Slack(Length(d, ino)) < request <= OffMax
    ensures var prev := Length(d, ino);
            var r := ExtendLengthAsWritten(d, fm, ino, request);
            var c := ExtendLength(d, fm, ino, request);
            && (r.Panicked? <==> c.Panicked?)
            && (r.Grown? ==> c.Grown? && r.fm == c.fm)
            && (r.Grown? && r.count != 0 ==>
                  && r.count == request - Slack(prev) == c.count - Slack(prev)
                  && Length(r.d, ino) == prev + request - Slack(prev))
  {
  }

  /** A concrete case: a 100-byte file (slack 412) extended by 500 bytes
      with one free sector. inode_extend_sectors fills direct pointer 1
      with it, and the corrected version records length 600, which spans
      blocks 0 and 1. The version as written records 188 and returns 88,
      so block 1 is allocated beyond what the length covers. */
  lemma SlackLossExample(ino: Word, s: Word)
    ensures var d := SetLength(map[], ino, 100);
            var fm := FreeMap([s]);
            var r := ExtendLengthAsWritten(d, fm, ino, 500);
            var c := ExtendLength(d, fm, ino, 500);
            && ExtendSectors(d, fm, ino, Demand(100, 500)).filled == [Direct(1)]
            && r.Grown? && r.count == 88 && Length(r.d, ino) == 188
            && BytesToSectors(188) == 1
            && c.Grown? && c.count == 500 && Length(c.d, ino) == 600
            && BytesToSectors(600) == 2
  {
    var d := SetLength(map[], ino, 100);
    var fm := FreeMap([s]);
    assert Slack(100) == 412;
    assert Demand(100, 500) == 1;
    assert BytesToSectors(100) == 1;
    assert Plan(1, 2) == [Direct(1)] by {
      LoopSlotsDirect(1);
    }
    ExtendLengthGrows(d, fm, ino, 500);
    ExtendLengthAsWrittenLosesSlack(d, fm, ino, 500);
  }

  /** What a caller of the corrected version can rely on for a request of
      1 .. OffMax bytes: unless the kernel panics, it is all or nothing. A
      non-zero return grants the whole request, and the new length still
      fits the block map. A zero return leaves the length and the free map
      as they were and, on an inode separate from the free map, the lookup
      of every block the file already had. */
  lemma ExtendLengthAllOrNothing(d: Disk, fm: FreeMap, ino: Word, request: Word)
    requires Length(d, ino) <= MaxFileBytes
    requires 0 < request <= OffMax
    ensures var r := ExtendLength(d, fm, ino, request);
            && (r.Grown? && r.count != 0 ==>
                  r.count == request && Length(r.d, ino) == Length(d, ino) + request <= MaxFileBytes)
            && (r.Grown? && r.count == 0 ==>
                  r.fm == fm && Length(r.d, ino) == Length(d, ino))
            && (r.Grown? && r.count == 0 && Separated(d, fm, ino) ==>
                  forall b :: 0 <= b < BytesToSectors(Length(d, ino)) ==>
                    b < MaxBlocks && ReadSlot(r.d, ino, DataSlot(b).value) == ReadSlot(d, ino, DataSlot(b).value))
  {
    var prev := Length(d, ino);
    if request <= Slack(prev) {
      ExtendLengthWithinSlack(d, fm, ino, request);
      assert BytesToSectors(prev) <= MaxBlocks;
    } else {
      var begin := BytesToSectors(prev);
      var num := Demand(prev, request);
      if num > DblIndirectPtrSize || |fm.free| < |Plan(begin, Min(MaxBlocks, begin + num))| {
        ExtendLengthFails(d, fm, ino, request);
      } else {
        ExtendLengthGrows(d, fm, ino, request);
      }
      if Separated(d, fm, ino) {
        ZeroReturnKeepsBlocks(d, fm, ino, request);
      }
    }
  }

  /** A request past the slack that returns 0 rewrites the old length over
      a store in which growth left every existing block's slots as they
      were, so every lookup over the old length reads as before. */
  lemma ZeroReturnKeepsBlocks(d: Disk, fm: FreeMap, ino: Word, request: Word)
    requires Length(d, ino) <= MaxFileBytes && Separated(d, fm, ino)
    requires Slack(Length(d, ino)) < request
    ensures var r := ExtendLength(d, fm, ino, request);
            r.Grown? && r.count == 0 ==>
              forall b :: 0 <= b < BytesToSectors(Length(d, ino)) ==>
                b < MaxBlocks && ReadSlot(r.d, ino, DataSlot(b).value) == ReadSlot(d, ino, DataSlot(b).value)
  {
    var prev := Length(d, ino);
    var begin := BytesToSectors(prev);
    var num := Demand(prev, request);
    var e := ExtendSectors(d, fm, ino, num);
    ExtendSectorsStores(d, fm, ino, num);
    if e.outcome == Failed {
      forall b | 0 <= b < begin
        ensures b < MaxBlocks && ReadSlot(SetLength(e.d, ino, prev), ino, DataSlot(b).value) == ReadSlot(d, ino, DataSlot(b).value)
      {
        var t := DataSlot(b).value;
        DataSlotFirstBlock(b);
        OldOffRecord(d, e.d, ino, begin, t);
        LengthFrame(e.d, ino, prev, t);
      }
    }
  }
}

=== FILE: inode_table.dfy ===
/** The open-inode table of filesys/inode.c: the list open_inodes of
    in-memory inodes, at most one per sector, each counting its openers and
    the openers that deny writes. The table is keyed by sector; an inode
    pointer is the sector it was opened for, and the null pointer is None. */
module InodeTable {
  import opened Machine
  import opened BlockStore
  import opened Allocator
  import opened InodeLayout

  /** struct inode without its list link and lock. */
  datatype Handle = Handle(openCnt: int, denyWriteCnt: int, removed: bool, isDir: Word)

  type Table = map<Word, Handle>

  /** Every open inode has at least one opener, and no more write-denying
      openers than openers. */
  predicate Wf(t: Table)
  {
    forall s :: s in t ==> 1 <= t[s].openCnt && 0 <= t[s].denyWriteCnt <= t[s].openCnt
  }

  /** inode_open: the inode already open for sector gains an opener;
      otherwise a fresh one is created with one opener, writes allowed, not
      removed, and the is_dir field of the record at sector. memoryOk says
      whether malloc succeeds; when it does not, the result is null. */
  function Open(t: Table, d: Disk, sector: Word, memoryOk: bool): (r: Option<Table>)
    ensures r.None? <==> sector !in t && !memoryOk
    ensures r.Some? ==> r.value.Keys == t.Keys + {sector}
    ensures r.Some? ==> forall s :: s in t && s != sector ==> r.value[s] == t[s]
    ensures r.Some? && sector in t ==>
              r.value[sector] == t[sector].(openCnt := t[sector].openCnt + 1)
    ensures r.Some? && sector !in t ==>
              r.value[sector] == Handle(1, 0, false, GetWord(d, sector, IsDirOfs))
  {
    if sector in t then Some(Reopen(t, Some(sector)))
    else if !memoryOk then None
    else Some(t[sector := Handle(1, 0, false, GetWord(d, sector, IsDirOfs))])
  }

  /** inode_reopen: one more opener; a null inode is returned unchanged. */
  function Reopen(t: Table, inode: Option<Word>): (r: Table)
    requires inode.Some? ==> inode.value in t
    ensures r.Keys == t.Keys
    ensures forall s :: s in t && (inode.None? || s != inode.value) ==> r[s] == t[s]
    ensures inode.Some? ==> r[inode.value].openCnt == t[inode.value].openCnt + 1
    ensures inode.Some? ==> r[inode.value].(openCnt := t[inode.value].openCnt) == t[inode.value]
  {
    match inode
    case None => t
    case Some(s) => t[s := t[s].(openCnt := t[s].openCnt + 1)]
  }

  /** The table and free map after inode_close. */
  datatype Closed = Closed(t: Table, fm: FreeMap)

  /** inode_close: one opener fewer. The last close takes the inode out of
      the table and, when it was removed, gives its sector back to the free
      map. A null inode is ignored. */
  function Close(t: Table, fm: FreeMap, inode: Option<Word>): (r: Closed)
    requires inode.Some? ==> inode.value in t
    ensures inode.None? ==> r == Closed(t, fm)
    ensures inode.Some? && t[inode.value].openCnt == 1 ==>
              && r.t == t - {inode.value}
              && r.fm == (if t[inode.value].removed then Release(fm, inode.value) else fm)
    ensures inode.Some? && t[inode.value].openCnt != 1 ==>
              && r.fm == fm && r.t.Keys == t.Keys
              && r.t[inode.value].openCnt == t[inode.value].openCnt - 1
              && forall s :: s in t && s != inode.value ==> r.t[s] == t[s]
  {
    match inode
    case None => Closed(t, fm)
    case Some(s) =>
      var h := t[s];
      if h.openCnt - 1 == 0 then
        Closed(t - {s}, if h.removed then Release(fm, s) else fm)
      else
        Closed(t[s := h.(openCnt := h.openCnt - 1)], fm)
  }

  /** inode_remove: mark the inode for deletion at its last close. */
  function Remove(t: Table, s: Word): (r: Table)
    requires s in t
    ensures r.Keys == t.Keys && r[s].removed
    ensures r[s].(removed := t[s].removed) == t[s]
    ensures forall x :: x in t && x != s ==> r[x] == t[x]
  {
    t[s := t[s].(removed := true)]
  }

  /** inode_deny_write: one more write-denying opener. None when its
      ASSERT fails (more deniers than openers): a kernel panic. */
  function DenyWrite(t: Table, s: Word): (r: Option<Table>)
    requires s in t
    ensures r.Some? <==> t[s].denyWriteCnt < t[s].openCnt
    ensures r.Some? ==> r.value.Keys == t.Keys
    ensures r.Some? ==> r.value[s].denyWriteCnt == t[s].denyWriteCnt + 1
    ensures r.Some? ==> r.value[s].(denyWriteCnt := t[s].denyWriteCnt) == t[s]
    ensures r.Some? ==> forall x :: x in t && x != s ==> r.value[x] == t[x]
  {
    var h := t[s].(denyWriteCnt := t[s].denyWriteCnt + 1);
    if h.denyWriteCnt <= h.openCnt then Some(t[s := h]) else None
  }

  /** inode_allow_write: one write-denying opener fewer. None when one of
      its ASSERTs fails: no denier, or more deniers than openers. */
  function AllowWrite(t: Table, s: Word): (r: Option<Table>)
    requires s in t
    ensures r.Some? <==> 0 < t[s].denyWriteCnt <= t[s].openCnt
    ensures r.Some? ==> r.value.Keys == t.Keys
    ensures r.Some? ==> r.value[s].denyWriteCnt == t[s].denyWriteCnt - 1
    ensures r.Some? ==> r.value[s].(denyWriteCnt := t[s].denyWriteCnt) == t[s]
    ensures r.Some? ==> forall x :: x in t && x != s ==> r.value[x] == t[x]
  {
    var h := t[s];
    if 0 < h.denyWriteCnt && h.denyWriteCnt <= h.openCnt then
      Some(t[s := h.(denyWriteCnt := h.denyWriteCnt - 1)])
    else None
  }

  /** Opening keeps the table well formed. */
  lemma OpenKeepsWf(t: Table, d: Disk, s: Word, memoryOk: bool)
    requires Wf(t)
    ensures var r := Open(t, d, s, memoryOk); r.Some? ==> Wf(r.value)
  {
    var r := Open(t, d, s, memoryOk);
    if r.Some? {
      forall x | x in r.value
        ensures 1 <= r.value[x].openCnt && 0 <= r.value[x].denyWriteCnt <= r.value[x].openCnt
      {
        if x != s {
          assert r.value[x] == t[x];
        }
      }
    }
  }

  /** Closing keeps the table well formed exactly when the closer is not
      still denying writes on an inode that others keep open: inode_close
      leaves the deny count alone, so an opener has to allow writes again
      before it closes, as the comment of inode_allow_write demands. */
  lemma CloseKeepsWf(t: Table, fm: FreeMap, s: Word)
    requires Wf(t) && s in t
    ensures Wf(Close(t, fm, Some(s)).t) <==>
              t[s].openCnt == 1 || t[s].denyWriteCnt < t[s].openCnt
  {
    var r := Close(t, fm, Some(s)).t;
    if t[s].openCnt == 1 || t[s].denyWriteCnt < t[s].openCnt {
      forall x | x in r
        ensures 1 <= r[x].openCnt && 0 <= r[x].denyWriteCnt <= r[x].openCnt
      {
        if x != s {
          assert r[x] == t[x];
        }
      }
    } else {
      assert s in r && r[s].denyWriteCnt > r[s].openCnt;
    }
  }

  /** Reopening and removing keep the table well formed. */
  lemma ReopenRemoveKeepWf(t: Table, s: Word)
    requires Wf(t) && s in t
    ensures Wf(Reopen(t, Some(s)))
    ensures Wf(Remove(t, s))
  {
  }

  /** Denying and allowing writes keep the table well formed when they do
      not panic; on a well-formed table allowing panics exactly when no
      opener denies writes. */
  lemma DenyAllowKeepWf(t: Table, s: Word)
    requires Wf(t) && s in t
    ensures DenyWrite(t, s).Some? ==> Wf(DenyWrite(t, s).value)
    ensures AllowWrite(t, s).Some? ==> Wf(AllowWrite(t, s).value)
    ensures AllowWrite(t, s).Some? <==> t[s].denyWriteCnt > 0
  {
  }

  /** Opening a sector that is already open is reopening its inode. */
  lemma OpenOpenIsReopen(t: Table, d: Disk, s: Word, memoryOk: bool)
    requires s in t
    ensures Open(t, d, s, memoryOk) == Some(Reopen(t, Some(s)))
  {
  }

  /** Closing right after a successful open gives back the table and free
      map of before: a fresh inode is dropped again (it is not removed, so
      no sector is freed), an open one loses the opener it gained. */
  lemma OpenClose(t: Table, d: Disk, fm: FreeMap, s: Word, memoryOk: bool)
    requires Wf(t)
    requires Open(t, d, s, memoryOk).Some?
    ensures Close(Open(t, d, s, memoryOk).value, fm, Some(s)) == Closed(t, fm)
  {
    var t1 := Open(t, d, s, memoryOk).value;
    var r := Close(t1, fm, Some(s));
    if s in t {
      assert t1[s].openCnt != 1;
      assert r.t == t;
    } else {
      assert r.t == t;
    }
  }

  /** Allowing writes undoes denying them. */
  lemma DenyAllow(t: Table, s: Word)
    requires Wf(t) && s in t && DenyWrite(t, s).Some?
    ensures AllowWrite(DenyWrite(t, s).value, s) == Some(t)
  {
    var t1 := DenyWrite(t, s).value;
    assert AllowWrite(t1, s).Some?;
    assert AllowWrite(t1, s).value == t;
  }

  /** Denying writes undoes allowing them. */
  lemma AllowDeny(t: Table, s: Word)
    requires s in t && AllowWrite(t, s).Some?
    ensures DenyWrite(AllowWrite(t, s).value, s) == Some(t)
  {
    var t1 := AllowWrite(t, s).value;
    assert DenyWrite(t1, s).Some?;
    assert DenyWrite(t1, s).value == t;
  }

  /** An open inode is freed only by the close that drops its last opener,
      and its sector goes back to the free map only if it was removed. */
  lemma CloseFreesOnlyLast(t: Table, fm: FreeMap, s: Word)
    requires Wf(t) && s in t
    ensures var r := Close(t, fm, Some(s));
            && (s !in r.t <==> t[s].openCnt == 1)
            && (r.fm != fm <==> t[s].openCnt == 1 && t[s].removed)
  {
  }
}

=== FILE: machine.dfy ===
/** Machine-level value types of the 32-bit x86 kernel: bytes, unsigned
    32-bit words (block_sector_t, the raw bits of an int field), signed
    32-bit integers (int, off_t), and their little-endian layout in memory. */
module Machine {

  datatype Option<+T> = None | Some(value: T)

  newtype byte = x: int | 0 <= x < 256

  const WordLimit: nat := 0x1_0000_0000

  /** An unsigned 32-bit value; block_sector_t is one. */
  type Word = x: nat | x < WordLimit

  /** The largest off_t (a signed 32-bit int). */
  const OffMax: nat := 0x7fff_ffff

  newtype int32 = x: int | -0x8000_0000 <= x < 0x8000_0000

  /** The conversion of an unsigned word to int (two's complement): values
      from 2^31 on come out negative. */
  function ToInt32(x: Word): (r: int32)
    ensures r as int % WordLimit == x
    ensures 0 <= r as int <==> x <= OffMax
  {
    if x <= OffMax then x as int32 else (x - WordLimit) as int32
  }

  /** The four bytes of a word as they lie in memory, least significant first. */
  function EncodeWord(v: Word): (bs: seq<byte>)
    ensures |bs| == 4
  {
    [(v % 256) as byte, (v / 256 % 256) as byte,
     (v / 65536 % 256) as byte, (v / 16777216) as byte]
  }

  /** The word stored little-endian in four bytes. */
  function DecodeWord(bs: seq<byte>): (v: Word)
    requires |bs| == 4
  {
    bs[0] as int + 256 * bs[1] as int + 65536 * bs[2] as int + 16777216 * bs[3] as int
  }

  /** Decoding undoes encoding: a word written to memory reads back unchanged. */
  lemma DecodeEncode(v: Word)
    ensures DecodeWord(EncodeWord(v)) == v
  {
    var b := EncodeWord(v);
    var q1 := v / 256;
    var q2 := q1 / 256;
    var q3 := q2 / 256;
    assert v == v % 256 + 256 * q1;
    assert q1 == q1 % 256 + 256 * q2;
    assert q2 == q2 % 256 + 256 * q3;
    assert v / 65536 == q2;
    assert v / 16777216 == q3;
  }

  /** Encoding undoes decoding: any four bytes are the layout of exactly one word. */
  lemma EncodeDecode(bs: seq<byte>)
    requires |bs| == 4
    ensures EncodeWord(DecodeWord(bs)) == bs
  {
    var v := DecodeWord(bs);
    var b0, b1, b2, b3 := bs[0] as int, bs[1] as int, bs[2] as int, bs[3] as int;
    assert v == b0 + 256 * (b1 + 256 * (b2 + 256 * b3));
    assert v % 256 == b0 && v / 256 == b1 + 256 * (b2 + 256 * b3);
    var q1 := v / 256;
    assert q1 % 256 == b1 && q1 / 256 == b2 + 256 * b3;
    var q2 := q1 / 256;
    assert q2 % 256 == b2 && q2 / 256 == b3;
    assert v / 65536 == q2;
    assert v / 16777216 == b3;
    assert EncodeWord(v) == [b0 as byte, b1 as byte, b2 as byte, b3 as byte];
  }
}

=== FILE: path_parser.dfy ===
/** get_next_part of filesys/filesys.c: split a path into its file-name
    parts, one per call. The path is the character array the source walks,
    with the end of the sequence standing for its null terminator; a null
    character inside it ends the string there, as in C. */
module PathParser {
  import opened Machine

  /** NAME_MAX: the longest file-name part. directory.h, which defines it,
      is not part of this model. */
  const NameMax: nat := 14

  /** The character at i, or the terminator at and past the end. */
  function At(s: string, i: nat): char
  {
    if i < |s| then s[i] else '\0'
  }

  /** The first position from i on that does not hold a slash. */
  function SkipSlashes(s: string, i: nat): (j: nat)
    requires i <= |s|
    ensures i <= j <= |s| && At(s, j) != '/'
    ensures forall k :: i <= k < j ==> s[k] == '/'
    decreases |s| - i
  {
    if At(s, i) == '/' then SkipSlashes(s, i + 1) else i
  }

  /** The first position from i on that holds a slash or the terminator. */
  function NameEnd(s: string, i: nat): (j: nat)
    requires i <= |s|
    ensures i <= j <= |s| && (At(s, j) == '/' || At(s, j) == '\0')
    ensures forall k :: i <= k < j ==> s[k] != '/' && s[k] != '\0'
    decreases |s| - i
  {
    if At(s, i) == '/' || At(s, i) == '\0' then i else NameEnd(s, i + 1)
  }

  /** The three returns of get_next_part: 1 with the part copied out and
      the new source position, 0 at the end of the string, -1 for a part
      longer than NAME_MAX. Only the first moves the source position. */
  datatype Part =
    | Part(name: string, next: nat)
    | End
    | TooLong

  /** get_next_part: skip the slashes at pos; at the terminator report the
      end; otherwise copy the part up to the next slash or the terminator,
      failing once it would need more than NAME_MAX characters. */
  function NextPart(s: string, pos: nat): (r: Part)
    requires pos <= |s|
    ensures r.End? <==> At(s, SkipSlashes(s, pos)) == '\0'
    ensures r.TooLong? <==>
              At(s, SkipSlashes(s, pos)) != '\0' &&
              NameEnd(s, SkipSlashes(s, pos)) - SkipSlashes(s, pos) > NameMax
    ensures r.Part? ==>
              && pos < r.next <= |s| && 0 < |r.name| <= NameMax && pos + |r.name| <= r.next
              && r.name == s[r.next - |r.name|..r.next]
              && (forall k :: pos <= k < r.next - |r.name| ==> s[k] == '/')
              && (forall k :: 0 <= k < |r.name| ==> r.name[k] != '/' && r.name[k] != '\0')
              && (At(s, r.next) == '/' || At(s, r.next) == '\0')
  {
    var start := SkipSlashes(s, pos);
    if At(s, start) == '\0' then End
    else
      var end := NameEnd(s, start);
      if end - start > NameMax then TooLong
      else Part(s[start..end], end)
  }

  /** Length of the leading part of t: the characters before its first
      slash. */
  function NameLen(t: string): (n: nat)
    ensures n <= |t|
    ensures forall k :: 0 <= k < n ==> t[k] != '/'
    ensures n == |t| || t[n] == '/'
    decreases |t|
  {
    if |t| == 0 || t[0] == '/' then 0 else 1 + NameLen(t[1..])
  }

  /** Reference definition: the non-empty pieces of t between slashes, in
      order. */
  function Components(t: string): (cs: seq<string>)
    ensures forall i :: 0 <= i < |cs| ==> |cs[i]| > 0 && '/' !in cs[i]
    decreases |t|
  {
    if |t| == 0 then []
    else if t[0] == '/' then Components(t[1..])
    else
      var n := NameLen(t);
      assert forall k :: 0 <= k < n ==> t[..n][k] != '/';
      [t[..n]] + Components(t[n..])
  }

  /** The parts that repeated get_next_part calls from pos produce until
      the end of the string, or None once a part is too long. */
  function Walk(s: string, pos: nat): (r: Option<seq<string>>)
    requires pos <= |s|
    decreases |s| - pos
  {
    match NextPart(s, pos)
    case End => Some([])
    case TooLong => None
    case Part(name, next) =>
      match Walk(s, next)
      case None => None
      case Some(rest) => Some([name] + rest)
  }

  predicate AllShort(cs: seq<string>)
  {
    forall i :: 0 <= i < |cs| ==> |cs[i]| <= NameMax
  }

  /** Skipping slashes does not change the components of what remains. */
  lemma {:induction false} SkipKeepsComponents(s: string, i: nat)
    requires i <= |s|
    ensures Components(s[i..]) == Components(s[SkipSlashes(s, i)..])
    decreases |s| - i
  {
    if At(s, i) == '/' {
      SkipKeepsComponents(s, i + 1);
      assert s[i..][1..] == s[i + 1..];
    }
  }

  /** In a string without a null character, the part from a non-slash
      position up to NameEnd is the first component of what remains. */
  lemma PartIsFirstComponent(s: string, start: nat)
    requires '\0' !in s
    requires start < |s| && s[start] != '/'
    ensures var end := NameEnd(s, start);
            Components(s[start..]) == [s[start..end]] + Components(s[end..])
  {
    var end := NameEnd(s, start);
    var t := s[start..];
    NameLenIsNameEnd(s, start);
    assert t[..NameLen(t)] == s[start..end];
    assert t[NameLen(t)..] == s[end..];
  }

  /** NameLen measures the part NameEnd finds, when no null character
      intervenes. */
  lemma {:induction false} NameLenIsNameEnd(s: string, i: nat)
    requires '\0' !in s && i <= |s|
    ensures NameLen(s[i..]) == NameEnd(s, i) - i
    decreases |s| - i
  {
    if i < |s| && s[i] != '/' {
      assert s[i] != '\0';
      NameLenIsNameEnd(s, i + 1);
      assert s[i..][1..] == s[i + 1..];
    }
  }

  /** Parsing a path with get_next_part from pos to the end yields exactly
      its non-empty slash-separated components when every one of them fits
      in NAME_MAX characters, and fails otherwise. */
  lemma {:induction false} WalkIsComponents(s: string, pos: nat)
    requires '\0' !in s && pos <= |s|
    ensures Walk(s, pos) == if AllShort(Components(s[pos..])) then Some(Components(s[pos..])) else None
    decreases |s| - pos
  {
    var start := SkipSlashes(s, pos);
    SkipKeepsComponents(s, pos);
    if start == |s| {
      assert s[start..] == [];
    } else {
      PartIsFirstComponent(s, start);
      var end := NameEnd(s, start);
      var cs := Components(s[pos..]);
      assert cs[0] == s[start..end];
      if end - start <= NameMax {
        WalkIsComponents(s, end);
        assert cs[1..] == Components(s[end..]);
        assert AllShort(cs) <==> AllShort(cs[1..]);
      } else {
        assert !AllShort(cs);
      }
    }
  }
}

=== FILE: syscall.dfy ===
/** The file-descriptor table and argument checks of userprog/syscall.c.
    A process's open_files array is a sequence of slots, each empty or
    holding an open file; its length is MAX_OPEN_FILES. Descriptors 0 and
    1 are the console and never occupy a slot. */
module Syscall {
  import opened Machine

  /** An open struct FILE *, known only by identity. */
  type FileRef = nat

  type FdTable = seq<Option<FileRef>>

  /** verify_fd: the console descriptors, or a slot index from 2 up that
      holds an open file. */
  predicate VerifyFd(t: FdTable, fd: int32)
  {
    fd == 0 || fd == 1 || (1 < fd && fd as int < |t| && t[fd].Some?)
  }

  /** verify_fd accepts 0 and 1 whatever the table holds, rejects every
      negative descriptor, and accepts a descriptor from 2 up exactly when
      it names an occupied slot. */
  lemma VerifyFdCases(t: FdTable, fd: int32)
    ensures fd == 0 || fd == 1 ==> VerifyFd(t, fd)
    ensures fd < 0 ==> !VerifyFd(t, fd)
    ensures fd as int >= |t| && fd > 1 ==> !VerifyFd(t, fd)
    ensures 1 < fd && fd as int < |t| ==> (VerifyFd(t, fd) <==> t[fd as int] != None)
  {
  }

  /** The descriptors from 2 up to (not including) upTo are all in use. */
  predicate FullBelow(t: FdTable, upTo: int)
  {
    forall k :: 2 <= k < upTo && k < |t| ==> t[k].Some?
  }

  /** The part of syscall_open after filesys_open: file is what
      filesys_open returned (None for a null pointer). The file goes into
      the lowest empty slot from 2 up, whose index is returned. With no
      empty slot the file is closed again (closed) and -1 returned. A null
      file gives -1 as well. */
  method Open(t: FdTable, file: Option<FileRef>) returns (fd: int, t': FdTable, closed: bool)
    ensures file.None? ==> fd == -1 && t' == t && !closed
    ensures file.Some? && !FullBelow(t, |t|) ==>
              && 2 <= fd < |t| && t[fd].None? && FullBelow(t, fd)
              && t' == t[fd := file] && !closed
    ensures file.Some? && FullBelow(t, |t|) ==> fd == -1 && t' == t && closed
  {
    if file.None? {
      return -1, t, false;
    }
    fd := 2;
    while fd < |t| && t[fd].Some?
      invariant 2 <= fd
      invariant FullBelow(t, fd)
      decreases |t| - fd
    {
      fd := fd + 1;
    }
    if fd < |t| {
      t' := t[fd := file];
      closed := false;
    } else {
      t' := t;
      closed := true;
      fd := -1;
    }
  }

  /** syscall_close: for a valid descriptor from 2 up the file in its slot
      is closed (returned) and the slot emptied; anything else is a no-op. */
  function Close(t: FdTable, fd: int32): (r: (FdTable, Option<FileRef>))
    ensures !VerifyFd(t, fd) || fd == 0 || fd == 1 ==> r == (t, None)
    ensures VerifyFd(t, fd) && fd > 1 ==>
              && |r.0| == |t| && r.0[fd] == None && r.1 == t[fd]
              && forall k :: 0 <= k < |t| && k != fd as int ==> r.0[k] == t[k]
  {
    if !VerifyFd(t, fd) || fd == 0 || fd == 1 then (t, None)
    else (t[fd as int := None], t[fd])
  }

  /** Closing the descriptor that open just handed out gives back the
      table of before, and the descriptor is no longer valid. */
  lemma OpenThenClose(t: FdTable, fd: int32, file: FileRef)
    requires 2 <= fd && fd as int < |t| && t[fd].None?
    ensures var t' := t[fd as int := Some(file)];
            VerifyFd(t', fd) && Close(t', fd) == (t, Some(file)) && !VerifyFd(Close(t', fd).0, fd)
  {
    var t' := t[fd as int := Some(file)];
    assert Close(t', fd).0 == t;
  }

  /** Closing leaves every other descriptor as valid or invalid as it
      was. */
  lemma CloseKeepsOthers(t: FdTable, fd: int32, other: int32)
    requires other != fd
    ensures VerifyFd(Close(t, fd).0, other) <==> VerifyFd(t, other)
  {
  }

  /** What syscall_read and syscall_write do before touching any file: a
      zero size returns 0 at once; otherwise a buffer or descriptor that
      fails its check ends the process with exit(-1). */
  datatype Prologue = Return(value: int) | Kill | Proceed

  /** The checks at the top of syscall_read and syscall_write; bufferOk is
      what verify_addr says of the buffer (page tables are not modelled). */
  function TransferPrologue(t: FdTable, fd: int32, size: Word, bufferOk: bool): (r: Prologue)
    ensures size == 0 ==> r == Return(0)
    ensures size != 0 ==> (r == Kill <==> !bufferOk || !VerifyFd(t, fd))
    ensures size != 0 ==> (r == Proceed <==> bufferOk && VerifyFd(t, fd))
  {
    if size == 0 then Return(0)
    else if !bufferOk || !VerifyFd(t, fd) then Kill
    else Proceed
  }

  /** A read or write of a non-empty buffer through the descriptor open
      just handed out gets past the checks; once that descriptor is closed
      the same call kills the process. An empty transfer returns 0 either
      way. */
  lemma TransferAfterOpenClose(t: FdTable, fd: int32, file: FileRef, size: Word)
    requires 2 <= fd && fd as int < |t| && t[fd].None?
    ensures var t' := t[fd as int := Some(file)];
            && (size != 0 ==> TransferPrologue(t', fd, size, true) == Proceed)
            && (size != 0 ==> TransferPrologue(Close(t', fd).0, fd, size, true) == Kill)
            && (size == 0 ==> TransferPrologue(Close(t', fd).0, fd, size, false) == Return(0))
  {
  }

  /** The system calls syscall_handler knows by name; Unknown is any other
      number. The numbering comes from syscall-nr.h, which is not part of
      this model. */
  datatype Call =
    | Halt | CacheFlush | Bwcnt | Brcnt
    | Practice | Exit | Exec | Wait | Remove | OpenCall | Filesize | Tell
    | CloseCall | Chdir | Mkdir | Isdir | Inumber
    | Create | Seek | Readdir
    | Read | Write | CacheStat
    | Unknown(nr: Word)

  /** The first switch of syscall_handler: how many 4-byte arguments each
      call takes, or None for an unknown number. */
  function ArgCount(c: Call): (n: Option<nat>)
    ensures n.None? <==> c.Unknown?
    ensures n.Some? ==> n.value <= 3
  {
    match c
    case Halt | CacheFlush | Bwcnt | Brcnt => Some(0)
    case Practice | Exit | Exec | Wait | Remove | OpenCall | Filesize | Tell
       | CloseCall | Chdir | Mkdir | Isdir | Inumber => Some(1)
    case Create | Seek | Readdir => Some(2)
    case Read | Write | CacheStat => Some(3)
    case Unknown(_) => None
  }

  /** Reference: the highest argument index args[i] that the second switch
      of syscall_handler reads for each known call. */
  function ArgsRead(c: Call): nat
    requires !c.Unknown?
  {
    match c
    case Halt => 0
    case CacheFlush => 0
    case Bwcnt => 0
    case Brcnt => 0
    case Practice => 1
    case Exit => 1
    case Exec => 1
    case Wait => 1
    case Remove => 1
    case OpenCall => 1
    case Filesize => 1
    case Tell => 1
    case CloseCall => 1
    case Chdir => 1
    case Mkdir => 1
    case Isdir => 1
    case Inumber => 1
    case Create => 2
    case Seek => 2
    case Readdir => 2
    case Read => 3
    case Write => 3
    case CacheStat => 3
  }

  /** The classification agrees with the dispatch: every known call is
      checked for exactly the arguments it then reads. */
  lemma ArgCountMatchesDispatch(c: Call)
    ensures c.Unknown? <==> ArgCount(c).None?
    ensures !c.Unknown? ==> ArgCount(c) == Some(ArgsRead(c))
  {
  }

  /** bad_args of syscall_handler as written. verifyAddr stands for
      verify_addr (p, len), which asks the page tables. The arguments
      start at byte esp + 4, but the check is done at args + 4 where args is
      a uint32_t *, that is at byte esp + 16. */
  function BadArgsAsWritten(verifyAddr: (int, nat) -> bool, esp: Word, c: Call): (bad: bool)
    ensures c.Unknown? ==> bad
    ensures !c.Unknown? && ArgCount(c) != Some(0) ==>
              (bad <==> !verifyAddr(esp as int + 16, 4 * ArgCount(c).value))
  {
    match ArgCount(c)
    case None => true
    case Some(n) => n > 0 && !verifyAddr(esp as int + 4 * 4, 4 * n)
  }

  /** bad_args as evidently intended: the check covers args[1] .. args[n],
      the bytes from esp + 4 on. */
  function BadArgs(verifyAddr: (int, nat) -> bool, esp: Word, c: Call): (bad: bool)
    ensures c.Unknown? ==> bad
    ensures !c.Unknown? && ArgsRead(c) == 0 ==> !bad
    ensures !c.Unknown? && ArgsRead(c) > 0 ==>
              (bad <==> !verifyAddr(esp as int + 4, 4 * ArgsRead(c)))
  {
    match ArgCount(c)
    case None => true
    case Some(n) => n > 0 && !verifyAddr(esp as int + 4, 4 * n)
  }

  /** A user address space that ends at limit: verify_addr (p, len) holds
      exactly when all of p .. p + len - 1 lie below it (and p is not
      null). */
  function EndsAt(limit: int): (int, nat) -> bool
  {
    (p: int, len: nat) => 0 < p && p + len <= limit
  }

  /** A process whose stack pointer sits 8 bytes below the end of its
      address space and calls exit: its one argument, at esp + 4, is
      readable, so the corrected check passes, but the check as written
      looks at esp + 16, past the end, and kills the process. */
  lemma ArgCheckExample()
    ensures var esp: Word := 0xbfff_fff8;
            var va := EndsAt(0xc000_0000);
            && va(esp as int, 4) && va(esp as int + 4, 4)
            && !BadArgs(va, esp, Exit)
            && BadArgsAsWritten(va, esp, Exit)
  {
  }

  /** The corrected check passes a known call exactly when the arguments
      it reads are in the address space. */
  lemma BadArgsReadable(limit: int, esp: Word, c: Call)
    requires !c.Unknown? && 0 < ArgsRead(c)
    ensures !BadArgs(EndsAt(limit), esp, c) <==> esp as int + 4 + 4 * ArgsRead(c) <= limit
  {
  }

  /** syscall_practice: arg + 1 on a 32-bit int. C leaves the overflow
      at INT_MAX undefined; the model assumes the two's complement
      wrap-around of the target, where the largest int becomes the
      smallest. */
  function PracticeCall(arg: int32): (r: int32)
    ensures arg as int < 0x7fff_ffff ==> r as int == arg as int + 1
    ensures arg as int == 0x7fff_ffff ==> r as int == -0x8000_0000
  {
    if arg as int == 0x7fff_ffff then -0x8000_0000 else arg + 1
  }

  /** syscall_practice is increment modulo 2^32. */
  lemma PracticeWraps(arg: int32)
    ensures (PracticeCall(arg) as int - arg as int - 1) % WordLimit == 0
  {
  }
}
